=== FILE: README.md ===
# maid.js core, modelled in Dafny

This project models the core of maid.js, a client for the NetEase
"X19" Minecraft launcher services, and proves properties of that model.
The core has four parts:

- **The X19 wire cipher** (`lib/core/x19/cipher.ts`, `lib/core/x19/utils.ts`):
  - the request-signing token (two MD5 digests, a bit rotation, an XOR, base 64 and a character substitution);
  - the body encryption: zero padding, a random alphanumeric filler, AES-128-CBC under one of 16 fixed keys, and the frame IV ‖ ciphertext ‖ selector byte;
  - the decryption, with its backward "tail strip" that removes filler and padding.
- **The X19 authentication client** (`lib/core/x19/base_client.ts`): a two-phase login (login-OTP, then authentication-OTP), token refresh, logout, and signed plain requests.
- **The MPay account client** (`lib/core/mpay/base_client.ts`): account login, token login, and accessors guarded by the login flag.
- **The X19 session** (`lib/core/x19/session.ts`): a one-shot initialisation from remote configuration.

The error classes of both services (`lib/core/x19/errors.ts`, `lib/core/mpay/errors.ts`) are a tagged datatype.

Clients and the session are immutable records. Each operation is a pure function from a state and its inputs to a `Step`: the outcome (`Ok` or the thrown error), the new state, and the requests sent.

Everything the code takes from outside is a parameter:
- server replies: no reply, an error body, or a body;
- random draws: indices into the dictionary, the key index, and random bytes;
- library code: MD5, AES, UTF-8 decoding and `JSON.stringify`/`JSON.parse`.

The library functions are subset types that carry the one property the proofs rely on:
- MD5 returns 32 lower-case hex digits;
- CBC decryption inverts encryption on whole blocks;
- ECB fails exactly on keys that are not 16 bytes;
- a UTF-8 decoder reads ASCII bytes as themselves.

Any function of those types is a valid instance.

JavaScript strings are sequences of UTF-16 code units where the code indexes them (`charCodeAt`, `length`). `Buffer` data is bytes.

Module layout:

| file | module | models |
|---|---|---|
| results.dfy | Results | `Option`, `Result` |
| encoding.dfy | Encoding | bytes, UTF-16 and UTF-8 encodings, hex, decimal digits |
| json.dfy | Json | JSON values |
| objects.dfy | Objects | JavaScript objects as ordered entry lists, `Object.assign` |
| oracles.dfy | Oracles | MD5, AES-128-CBC/ECB and UTF-8 decoding, as typed parameters |
| base64.dfy | Base64 | section 4 of RFC 4648, with a decoder and canonical texts (section 3.5) as partners |
| x19_utils.dfy | X19Utils | `randomString` |
| x19_token.dfy | X19Token | the signing token of `cipher.ts` |
| x19_cipher.dfy | X19Cipher | key table, body encryption and decryption |
| x19_errors.dfy | X19Errors | X19 errors, codes and reply records |
| x19_client.dfy | X19Client | `X19BaseClient` |
| mpay_errors.dfy | MPayErrors | MPay errors and codes |
| mpay_client.dfy | MPayClient | `MPayBaseClient` |
| x19_session.dfy | X19Session | `X19Session` |

### Quirks of the code kept in the model

- `logout` in the X19 client only cancels the refresh job. It never raises the "logged out" flag and never clears the login flag. `doRequest` and `dumpUserData` keep working afterwards, and `login` still answers "do not login again!".
- The request transform that `doRequest` installs replaces axios's default one. So the transform receives the body value itself and calls `replace` on it. Every body that is not a string throws before anything is sent, and is reported as the network error. That includes the default `{}`.
- The `token` getter of the X19 client returns the entity id, not the login token.
- An empty authentication-server list is reported with the `ServerMaintenance` code. The `AuthServerOffline` code is declared but never raised.
- A reply body without a numeric `code` fails the `code !== 0` test. `login`, `authOTPBase` and `doRequest` then raise their catch-all error with that body attached, and a `null` body throws a `TypeError` instead.
- MPay error bodies are read without a shape check. A `null` error body throws a `TypeError` at its `code` (or, in `loginByToken`, its `reason`); any other value picks the error class by a numeric `code` and prints its `reason`, "undefined" when it has none. A `null` success body throws a `TypeError` at `user`.
- `loginByToken` raises the login flag before it reads `realname_status`. A reply whose `user` is `null` therefore throws a `TypeError` and leaves the client logged in, with the new token and user id; `login` passes that state on.

## Model

| member | source | states |
|---|---|---|
| X19Utils.RandomString | lib/core/x19/utils.ts:3-10 | the result has one character per draw, character i is the dictionary entry of draw i, every character is alphanumeric, and none is `'0'`, because the draw bound 61 excludes the last dictionary entry |
| X19Utils.DictionaryShape | lib/core/x19/utils.ts:4-7 | the dictionary has 62 alphanumeric characters, its last one is `'0'`, and `'0'` occurs nowhere before it |
| Encoding.Zeros | lib/core/x19/cipher.ts:18 | `Buffer.alloc(n)` is n zero bytes |
| Encoding.Utf16 | lib/core/x19/cipher.ts:18 | a string's UTF-16 form has `Utf16Length` code units, the `length` the code sizes the buffer with |
| Encoding.AsciiUtf16 | lib/core/x19/cipher.ts:90 | for an ASCII string, `charCodeAt(i)` is the code of character i and `length` is the number of characters |
| Encoding.Utf8Char | lib/core/x19/cipher.ts:20 | a character's UTF-8 form has 1 to 4 bytes, exactly 1 for ASCII, and no zero byte unless the character is NUL |
| Encoding.Utf8Append | lib/core/x19/cipher.ts:20 | UTF-8 encoding of a concatenation is the concatenation of the encodings |
| Encoding.AsciiUtf8 | lib/core/x19/cipher.ts:20 | an ASCII string's UTF-8 bytes are its character codes |
| Encoding.Utf8NoZero | lib/core/x19/cipher.ts:20 | a string without NUL encodes to bytes without zero |
| Encoding.FitUtf8 | lib/core/x19/cipher.ts:20 | `buffer.write` stores a prefix of the UTF-8 bytes that fits the buffer, and all of them when they fit |
| Encoding.AsciiUpper | lib/core/x19/base_client.ts:81 | `toUpperCase()` on ASCII text keeps the length, maps each lower-case letter to its capital and leaves every other character alone |
| Encoding.HexEncode | lib/core/mpay/base_client.ts:161 | `toString('hex')` gives two lower-case hex digits per byte |
| Encoding.HexRoundTrip | lib/core/mpay/base_client.ts:160-161 | reading hex (`Buffer.from(s, 'hex')`) undoes writing it |
| Encoding.DigitsRoundTrip | lib/core/x19/base_client.ts:104 | the decimal text of `aid.toString()` parses back to the number and has no leading zero (for numbers below 10^21, see Left out) |
| Encoding.DecimalString | lib/core/x19/base_client.ts:104 | `toString()` of an integer starts with a minus sign exactly when it is negative; the digits after it parse back to its magnitude |
| Encoding.UpperHexRoundTrip | lib/core/x19/base_client.ts:81 | upper-casing hex text loses nothing: `Buffer.from(s, 'hex')` of `toString('hex').toUpperCase()` gives back the bytes |
| Base64.Encode | lib/core/x19/cipher.ts:130-132 | `toString('base64')` has 4 characters per started group of 3 bytes, `=` exactly in the padding positions, and alphabet characters elsewhere |
| Base64.RoundTrip | lib/core/x19/cipher.ts:130-132 | decoding gives back the encoded bytes |
| Base64.EncodeCanonical | lib/core/x19/cipher.ts:130-132 | the encoder's output is canonical: the pad bits before `=` or `==` are zero |
| Base64.CanonicalUnique | lib/core/x19/cipher.ts:130-132 | a canonical text that decodes to some bytes is exactly their encoding, so with the round trip the encoder is pinned down |
| Oracles.CbcRoundTrip | lib/core/x19/cipher.ts:23-25 | CBC without padding keeps the length of whole blocks, and decryption with the same key and IV undoes encryption |
| Oracles.AsciiDecodes | lib/core/x19/cipher.ts:48 | `toString()` of the UTF-8 bytes of an ASCII string gives the string back |
| X19Token.ToBinaryRoundTrip | lib/core/x19/cipher.ts:90 | `toString(2)` produces binary digits that parse back to the number |
| X19Token.PadStart | lib/core/x19/cipher.ts:90 | `padStart(len, fill)` has length max(len, \|s\|), ends with s, and is fill before it |
| X19Token.UnitBits | lib/core/x19/cipher.ts:90 | a code unit's padded binary text is binary, and exactly 8 digits below 256 |
| X19Token.UnitBitsValue | lib/core/x19/cipher.ts:90 | the padded binary text of a code unit parses back to it |
| X19Token.StringToBin | lib/core/x19/cipher.ts:89-91 | `stringToBin` yields binary digits, exactly 8 per character when every code is below 256 |
| X19Token.SplitString | lib/core/x19/cipher.ts:75-81 | the chunks concatenate back to the string, each has 1 to step characters, and all but the last have exactly step |
| X19Token.SplitCount | lib/core/x19/cipher.ts:75-81 | splitting by 8 gives ceil(n/8) chunks |
| X19Token.BinToString | lib/core/x19/cipher.ts:93-105 | `binToString` gives one code unit per started 8-bit chunk, each below 256 |
| X19Token.BinRoundTrip | lib/core/x19/cipher.ts:89-105 | for codes below 256, `stringToBin` gives 8·\|s\| bits and `binToString` of them gives s back |
| X19Token.StringLeftShift | lib/core/x19/cipher.ts:83-87 | `stringLeftShift(s, n)` keeps the length, and character i comes from position i + (n mod \|s\|), wrapping at the end |
| X19Token.LeftShiftRotates | lib/core/x19/cipher.ts:83-87 | for non-empty s, character i of the shift is s[(i + n) mod \|s\|]: a circular rotation |
| X19Token.LeftShiftInverse | lib/core/x19/cipher.ts:83-87 | shifting by n and then by \|s\| − (n mod \|s\|) gives s back |
| X19Token.LeftShiftBinary | lib/core/x19/cipher.ts:83-87 | rotating binary text keeps it binary |
| X19Token.XorInvolution | lib/core/x19/cipher.ts:117 | `(a ^ b) ^ b == a` for the arithmetic model of `^` |
| X19Token.XorBound | lib/core/x19/cipher.ts:117 | XOR of two k-bit numbers is a k-bit number |
| X19Token.StringXor | lib/core/x19/cipher.ts:107-120 | `stringXor` throws "FUCKKKKKK" exactly when the lengths differ, and otherwise returns same-length codes whose element i is a[i] xor key[i] |
| X19Token.StringXorInvolution | lib/core/x19/cipher.ts:107-120 | XOR with the same key twice gives the string back |
| X19Token.StringXorBytes | lib/core/x19/cipher.ts:107-120 | XOR of byte-sized codes is byte-sized |
| X19Token.StringToBase64 | lib/core/x19/cipher.ts:130-132 | the base 64 text of the codes has 4·ceil(n/3) characters, padding only at the end, and alphabet characters elsewhere |
| X19Token.StringToBase64Decodes | lib/core/x19/cipher.ts:130-132 | for byte-sized codes, base 64 decoding gives the codes back |
| X19Token.EncryptToken | lib/core/x19/cipher.ts:134-136 | `encryptToken` has length min(\|s\|, 16) + 1, ends in `'1'`, contains no `/` or `+`, and maps `/` to `o` and `+` to `m` in the first 16 characters |
| X19Token.HexDigestUnits | lib/core/x19/cipher.ts:8-9 | an MD5 hex digest is 32 ASCII code units |
| X19Token.RotateBits | lib/core/x19/cipher.ts:9-11 | rotating the bits of byte-sized codes gives as many byte-sized codes |
| X19Token.RotateSixBits | lib/core/x19/cipher.ts:9-11 | rotating the bits by 6 makes code i the low 2 bits of code i, shifted up by 6, plus the high 6 bits of the next code (the first one after the last) |
| X19Token.ToBuffer | lib/core/x19/cipher.ts:130-131 | `Buffer.from(array)` keeps the length and each value modulo 256, and leaves byte-sized values unchanged |
| X19Token.ReplaceAll | lib/core/x19/cipher.ts:134-135 | `replace(/c/g, d)` keeps the length, turns every c into d, leaves every other character alone, and leaves no c when c differs from d |
| X19Token.TokenOfDigest | lib/core/x19/cipher.ts:9-14 | from a 32-digit digest the token has 17 characters: 16 alphanumeric ones, then `'1'` |
| X19Token.EncryptHttpToken | lib/core/x19/cipher.ts:6-15 | `X19EncryptHttpToken` is a function of (login token, path, body) with 17 characters, the first 16 alphanumeric and never `/` or `+`, the last `'1'` |
| X19Cipher.Nibble | lib/core/x19/cipher.ts:72 | `query >> 4 & 0xf` is between 0 and 15 |
| X19Cipher.KeyShape | lib/core/x19/cipher.ts:54-71 | the 16 keys have 16 characters each and are pairwise distinct |
| X19Cipher.PickKey | lib/core/x19/cipher.ts:53-73 | the key is one of the 16 listed 16-character keys, namely the one at the query's bits 4 to 7 |
| X19Cipher.PickKeySameNibble | lib/core/x19/cipher.ts:72 | two queries get the same key exactly when bits 4 to 7 agree |
| X19Cipher.PickKeyOtherBits | lib/core/x19/cipher.ts:72 | changing any bits of the query outside 4 to 7 does not change the key |
| X19Cipher.PaddedSize | lib/core/x19/cipher.ts:18 | the buffer size is a multiple of 16 with at least 16 and fewer than 32 bytes beyond the body length |
| X19Cipher.Selector | lib/core/x19/cipher.ts:21 | `randomInt(0, 14) << 4 \| 2` is a byte whose high nibble is the draw and whose low nibble is 2 |
| X19Cipher.Plaintext | lib/core/x19/cipher.ts:18-20 | the plaintext buffer has exactly the padded size |
| X19Cipher.IvBytes | lib/core/x19/cipher.ts:22 | the IV is 16 bytes of alphanumeric characters |
| X19Cipher.Frame | lib/core/x19/cipher.ts:27 | the frame is the IV, then the ciphertext, then the selector byte |
| X19Cipher.HttpEncrypt | lib/core/x19/cipher.ts:17-28 | the output has 16 + padded size + 1 bytes, starts with the IV, and ends in a selector with high nibble the key index (0 to 13) and low nibble 2 |
| X19Cipher.AsciiFrameLength | lib/core/x19/cipher.ts:17-28 | for an ASCII body of n characters the output has 16 + ceil((n + 16)/16)·16 + 1 bytes |
| X19Cipher.DecryptReadsFrame | lib/core/x19/cipher.ts:34-38 | decryption takes the key from the last byte's high nibble, the IV from bytes 0 to 15 and the ciphertext from between them: it inverts the frame layout |
| X19Cipher.Prefix | lib/core/x19/cipher.ts:48 | `subarray(0, end)` is a prefix, with a negative end counted back from the length and stopped at 0 |
| X19Cipher.StripTail | lib/core/x19/cipher.ts:39-48 | with 16 or more non-zero bytes, the tail strip returns the prefix ending just before the 16th non-zero byte counted from the end; with fewer, the loop runs below index 0 and the result is 16 − count bytes shorter, or empty |
| X19Cipher.ScanBackFinds | lib/core/x19/cipher.ts:42-47 | with enough non-zero bytes the loop stops just below the byte that completes the count of 16 |
| X19Cipher.ScanBackRunsOut | lib/core/x19/cipher.ts:42-47 | with too few non-zero bytes, reads below index 0 count as non-zero and the loop ends that many positions below −1 |
| X19Cipher.HttpDecrypt | lib/core/x19/cipher.ts:30-49 | decryption throws "Decrypt response is too short" below 18 bytes, fails when the ciphertext is not whole blocks, and succeeds otherwise |
| X19Cipher.StripFiller | lib/core/x19/cipher.ts:19-20 | a body followed by 16 non-zero filler bytes and zero padding strips back to the body |
| X19Cipher.AsciiPlaintext | lib/core/x19/cipher.ts:18-20 | for an ASCII body, the plaintext is the body bytes, the 16 filler bytes (none zero) and zero padding |
| X19Cipher.RoundTrip | lib/core/x19/cipher.ts:17-49 | for every ASCII body and every random choice, decrypting the encryption gives the body back |
| X19Errors.ClientNamesDistinct | lib/core/x19/errors.ts:55-87 | the client error code strings are pairwise distinct |
| X19Errors.SessionNamesDistinct | lib/core/x19/errors.ts:47-52 | the session error code strings are pairwise distinct |
| X19Errors.NewClientError | lib/core/x19/errors.ts:1-14 | `X19ClientError` keeps the message verbatim and the code, and its response is null exactly when none is given |
| X19Errors.NewClientLoginError | lib/core/x19/errors.ts:16-29 | `X19ClientLoginError`'s message is `"Unable to login x19: "` followed by the message, and its response is null exactly when none is given |
| X19Errors.NewSessionError | lib/core/x19/errors.ts:31-44 | `X19SessionError`'s message is `"Unable to get session: "` followed by the message, and its response is null exactly when none is given |
| X19Errors.LoginMessageInjective | lib/core/x19/errors.ts:21 | two login errors have the same message exactly when built from the same text |
| X19Errors.SessionMessageInjective | lib/core/x19/errors.ts:36 | two session errors have the same message exactly when built from the same text |
| MPayErrors.NamesDistinct | lib/core/mpay/errors.ts:59-77 | the MPay error code strings are pairwise distinct |
| MPayErrors.NewGetDeviceError | lib/core/mpay/errors.ts:1-14 | `MPayGetDeviceError`'s message is `"Unable to get mpay device: "` followed by the message, and its response is null exactly when none is given |
| MPayErrors.NewClientLoginError | lib/core/mpay/errors.ts:16-29 | `MPayClientLoginError`'s message is `"Unable to login mpay: "` followed by the message, and its response is null exactly when none is given |
| MPayErrors.NewClientError | lib/core/mpay/errors.ts:31-44 | `MPayClientError` keeps the message verbatim, and its response is null exactly when none is given |
| MPayErrors.DeviceMessageInjective | lib/core/mpay/errors.ts:6 | two device errors have the same message exactly when built from the same text |
| MPayErrors.LoginMessageInjective | lib/core/mpay/errors.ts:21 | two login errors have the same message exactly when built from the same text |
| Objects.Put | lib/core/mpay/base_client.ts:110 | after `o[k] = v`, k reads v and every other key reads as before |
| Objects.PutKeepsDistinct | lib/core/mpay/base_client.ts:110 | the assignment adds an entry exactly when the key is new, and never repeats a key |
| Objects.AssignGet | lib/core/mpay/base_client.ts:92 | after `Object.assign(target, source)` a key has the source's value when the source has it, and the target's otherwise |
| X19Client.NewClient | lib/core/x19/base_client.ts:12-22 | a new client is logged out, has no refresh job, has empty credentials, and is consistent |
| X19Client.Uid | lib/core/x19/base_client.ts:24-26 | on a consistent client the `uid` getter is empty before the first login; after it, `uid` is the entity id that `dumpUserData` reports |
| X19Client.Token | lib/core/x19/base_client.ts:28-30 | the `token` getter returns the same value as `uid`: after login it is the entity id `dumpUserData` reports, and it differs from the login token `dumpUserData` reports whenever the two differ |
| X19Client.DumpUserData | lib/core/x19/base_client.ts:33-41 | `dumpUserData` raises `NotLogin` ("please login x19 first") exactly when not logged in, and otherwise returns the entity id and login token |
| X19Client.AuthFailure | lib/core/x19/base_client.ts:165-177 | a non-zero authentication code maps 29 to `AccountBanned` with the reply, 27003 to `NotRealname` without, 27002 to `AntiAddition` without, and any other code to `AuthOTPError` with the reply, as login errors carrying the reply's message |
| X19Client.AuthOTPBase | lib/core/x19/base_client.ts:135-180 | one request goes to the update path when refreshing and the authentication-OTP path otherwise. It is signed with the current login token over the body's JSON text and carries the current entity id. A failure changes nothing, and a success changes only the entity id and login token |
| X19Client.AuthUpdatesOnlyOnSuccess | lib/core/x19/base_client.ts:164-179 | the exchange succeeds exactly when the reply decrypts and parses to code 0. Only then are the entity id and login token replaced, with the reply's values; every failure leaves both unchanged |
| X19Client.AuthOutcomeCases | lib/core/x19/base_client.ts:161-179 | what the reply reads as decides the outcome: success exactly for a record with code 0, taking its entity id and token, and the network error exactly when nothing was delivered |
| X19Client.AuthCodeMapping | lib/core/x19/base_client.ts:161-177 | a reply with a non-zero code fails with the mapped error; a body without a numeric code fails with `AuthOTPError`, the text of its `message` and the body attached, or with a `TypeError` when it is `null`; an undecryptable or unparsable reply fails with a plain error; no reply gives the network error |
| X19Client.AuthNetworkError | lib/core/x19/base_client.ts:161-163 | `authOTPBase` reports the network error exactly when nothing was delivered |
| X19Client.Login | lib/core/x19/base_client.ts:53-125 | `login` fails with `DoNotLoginAgain`, then with `LoggedOut`, before any request. Otherwise the first request is the login-OTP to the core server. A failure changes nothing, and a success sets the login flag and schedules the refresh job, otherwise changing only the credentials |
| X19Client.LoginAuth | lib/core/x19/base_client.ts:95-124 | the second phase sends one authentication-OTP request signed over the auth body, and succeeds exactly when the decrypted reply has code 0 |
| X19Client.SaData | lib/core/x19/base_client.ts:78-94 | `saData` has fifteen members; the MAC address is the upper-cased hex of the six drawn bytes, the udid the client's, and the disk id the hex of the four drawn bytes |
| X19Client.SaDataDecodes | lib/core/x19/base_client.ts:81-86 | the MAC address is upper-case hex and the disk id lower-case hex, twice as long as the bytes, and each decodes back to the bytes drawn |
| X19Client.AuthBody | lib/core/x19/base_client.ts:95-116 | `authBody` has sixteen members: the stringified `saData` first, then the client's SAuth JSON, then the version object |
| X19Client.AuthBodyFromOtp | lib/core/x19/base_client.ts:103-115 | the body carries the decimal text of the reply's `aid` and the reply's `otp_token`; `sdkuid` and `entity_id` are `null` |
| X19Client.LoginOtpRejected | lib/core/x19/base_client.ts:73-76 | a non-zero login-OTP code raises `LoginOTPError` with message "Unable to login x19: LoginOTP: " + message and the reply attached; a body without a numeric code raises it with the text of its `message` and the body attached, and a `null` body a `TypeError`; each after one request and with no state change |
| X19Client.OtpFailure | lib/core/x19/base_client.ts:73-76 | the login-OTP failure is a `LoginOTPError` login error with a payload, except the `TypeError` of a `null` body |
| X19Client.LoginNetworkError | lib/core/x19/base_client.ts:62-72 | `login` reports the network error exactly when the login-OTP request or, after an accepted one, the authentication request got no reply |
| X19Client.LoginSucceedsOnlyAfterAuth | lib/core/x19/base_client.ts:117-123 | the login succeeds, and the login flag rises, exactly when both the login-OTP and the authentication reply have code 0 |
| X19Client.LoginSignsAuth | lib/core/x19/base_client.ts:137-146 | the authentication request goes to `/authentication-otp` and is signed with the login token held before the call (empty on a first login) over the plaintext JSON |
| X19Client.RefreshToken | lib/core/x19/base_client.ts:183-185 | a refresh sends one request to `/authentication/update`, signed over `{ entity_id }` with the current login token, and leaves the login flag and job alone |
| X19Client.Tick | lib/core/x19/base_client.ts:120-123 | a firing of the job refreshes while the job is scheduled, and does nothing once it is cancelled or absent |
| X19Client.Logout | lib/core/x19/base_client.ts:127-132 | `logout` raises `NotLogin` when not logged in; otherwise it only cancels the job, sending nothing |
| X19Client.LogoutKeepsSession | lib/core/x19/base_client.ts:127-132 | after `logout` the client is still logged in and not logged out, no tick refreshes, a second `logout` succeeds, and `dumpUserData` answers as before |
| X19Client.RequestFailure | lib/core/x19/base_client.ts:227-236 | a non-zero request code maps 29 to `AccountBanned` with the reply, 27002 to `AntiAddition` without it, and everything else, 27003 included, to `HttpRequestFailed` with the reply |
| X19Client.RequestHeaders | lib/core/x19/base_client.ts:201-207 | the request headers are the defaults (user agent, entity id, signed token) overridden by the caller's headers |
| X19Client.StripQuotes | lib/core/x19/base_client.ts:217-221 | the installed transform leaves no `"`, never lengthens, and changes nothing in quote-free text |
| X19Client.StripQuotesAppend | lib/core/x19/base_client.ts:219 | the transform works character by character: it distributes over concatenation |
| X19Client.DoRequest | lib/core/x19/base_client.ts:188-238 | `doRequest` raises `NotLogin` ("please login!") when not logged in and never changes the state. A request is sent exactly for a string body, with quotes stripped. A missing reply and every unsent request give the network error; code 0 returns the reply; other codes give the mapped error; a body without a numeric code gives `HttpRequestFailed` with the body attached, or a `TypeError` when it is `null` |
| X19Client.RequestResult | lib/core/x19/base_client.ts:226-237 | a sent request succeeds exactly when the reply is a record with code 0, and then returns that record |
| X19Client.RequestNetworkError | lib/core/x19/base_client.ts:209-225 | `doRequest` reports the network error exactly when logged in and the body is missing, not a string, or unanswered |
| X19Client.NonStringBodyNeverSent | lib/core/x19/base_client.ts:193-225 | whatever the server would answer, a missing or non-string body is never sent and fails with the network error |
| X19Client.DoRequestSigned | lib/core/x19/base_client.ts:199-205 | the `user-token` header signs the body's JSON text with the current login token, unless the caller overrides it |
| X19Client.OperationsPreserveConsistency | lib/core/x19/base_client.ts:53-132 | `login`, a tick, `logout` and `doRequest` keep the invariant: never logged out, a job exactly when logged in, and empty credentials before the first login |
| MPayClient.NewClient | lib/core/mpay/base_client.ts:9-14 | a new client is logged out, not real-name verified, has empty username, token and user id, and is consistent |
| MPayClient.Field | lib/core/mpay/base_client.ts:62 | a missing field interpolates as `undefined` |
| MPayClient.IsRealname | lib/core/mpay/base_client.ts:17-22 | `isRealname` throws `NoMPayLogin` ("Please login MPay first!") exactly before login, and otherwise returns the flag |
| MPayClient.DumpUserData | lib/core/mpay/base_client.ts:25-34 | `dumpUserData` throws `NoMPayLogin` exactly before login, and otherwise returns the token, user id and device |
| MPayClient.SAuthObject | lib/core/mpay/base_client.ts:140-155 | the SAuth object has 14 fields, carrying the game id, the user id as `sdkuid`, the login token as `sessionid`, the device's udid and id, and the fresh unique id |
| MPayClient.GetSAuthJson | lib/core/mpay/base_client.ts:136-157 | `getSAuthJSON` throws a plain "Please mpay login first" exactly before login, and otherwise returns the JSON text of the SAuth object |
| MPayClient.AccessorsGuarded | lib/core/mpay/base_client.ts:17-34 | the three accessors fail together, exactly when not logged in |
| MPayClient.FixedFields | lib/core/mpay/base_client.ts:102-108 | the spread app fields, then `verify_status` '0', `login_for` '1', `app_channel` 'netease' and the token, with the other app fields unchanged |
| MPayClient.TokenQuery | lib/core/mpay/base_client.ts:102-112 | the token-login query has the four fixed fields and the token, and `username` exactly when a non-empty username was recorded; all other app fields pass through unchanged |
| MPayClient.LoginByToken | lib/core/mpay/base_client.ts:96-133 | `loginByToken` raises `DoNotLoginAgain` when logged in, with nothing sent. Otherwise it overwrites the token and user id before its one request, and succeeds exactly when the reply carries a user. Success sets the login flag and sets the real-name flag to `realname_status !== 0`; a failure leaves the login flag down unless the reply's `user` is `null` |
| MPayClient.TokenLoginFailures | lib/core/mpay/base_client.ts:119-131 | a missing reply gives `NetworkError`; an error body gives `OtherError` with the text of its `reason` and the body attached, and a `null` one a `TypeError`; a `null` body gives a `TypeError`, a body without `user` "cannot find user" with no payload, and a `null` user a `TypeError` after the login flag is raised |
| MPayClient.FailedTokenLoginOverwrites | lib/core/mpay/base_client.ts:100-131 | a failed token login leaves the new token and user id stored and the real-name flag alone; the login flag stays down except after a `null` user |
| MPayClient.LoginFailure | lib/core/mpay/base_client.ts:70-82 | an error body with numeric `code` 1301 gives `IncorrectAccountOrPassword` and 1300 `AccountFormatIncorrect`, both without payload. 1351 gives `AccountAtRisk`, and every other body, codeless or not an object, `OtherError`, both with the body attached. The message is the text of `reason`, "undefined" when absent; a `null` body throws a `TypeError` |
| MPayClient.BaseLogin | lib/core/mpay/base_client.ts:57-93 | the account login posts the encrypted params. No reply gives the network error and an error body the mapped error. A `null` body or a `null` user throws a `TypeError`, and a body without `user` gives "cannot find user" with the raw body attached. It succeeds exactly when both replies carry a user, storing the account login's token and id and merging both user objects; the username is kept and the client stays consistent |
| MPayClient.EncryptParams | lib/core/mpay/base_client.ts:159-162 | encrypting the params fails exactly when the hex device key is not 16 bytes |
| MPayClient.SentPassword | lib/core/mpay/base_client.ts:50-52 | the password sent is its MD5 hex digest when given in plain text, and unchanged otherwise |
| MPayClient.Login | lib/core/mpay/base_client.ts:41-55 | `login` raises `DoNotLoginAgain` when logged in, with no effect. Otherwise it records the username whatever follows. It fails with Node's key-length error on a bad device key; on success it is logged in with the real-name flag from the token login. It keeps the client consistent |
| MPayClient.LoginSendsCredentials | lib/core/mpay/base_client.ts:45-54 | the first request carries the encrypted `{ username, password }`, the password hashed exactly when `isPlainText` |
| MPayClient.LoginOutcome | lib/core/mpay/base_client.ts:85-93 | a login succeeds exactly when both replies carry a user. It then stores the account login's token and id, takes the real-name flag from the token login, and returns both user objects merged, the token login's fields winning. The login flag is up afterwards exactly on success or when the token login's `user` is `null` |
| MPayClient.OperationsPreserveConsistency | lib/core/mpay/base_client.ts:41-133 | `login` and `loginByToken` never leave the real-name flag up without the login flag |
| X19Session.NewSession | lib/core/x19/session.ts:8-14 | a new session is not initialised, has patch version 1.0.0.0 and user agent WPFLauncher/0.0.0.0 |
| X19Session.LastKey | lib/core/x19/session.ts:94-95 | the last key of the patch list, and `undefined` exactly when it is empty |
| X19Session.UserAgent | lib/core/x19/session.ts:96 | the user agent is `"WPFLauncher/"` followed by the version's text |
| X19Session.UpdateLatestPatch | lib/core/x19/session.ts:93-97 | the patch version becomes the last patch key and the user agent names it; nothing else changes |
| X19Session.InitSession | lib/core/x19/session.ts:70-91 | a second `initSession` raises `DoNotInitAgain` without fetching anything. Only success raises the init flag. The patch version changes only on success |
| X19Session.MaintenanceStopsEarly | lib/core/x19/session.ts:80-84 | `ServerStop === '1'` or `TempServerStop === 1` raises `ServerMaintenance` before the authentication servers are asked for, and the session stays uninitialised |
| X19Session.EmptyAuthListIsMaintenance | lib/core/x19/session.ts:84-87 | an empty server list raises `ServerMaintenance` with "验证服务器离线。", not `AuthServerOffline`, after asking the release information's URL |
| X19Session.InitSucceeds | lib/core/x19/session.ts:70-97 | initialisation succeeds exactly when every fetch answers, there is no maintenance, and some server is listed. The patch version and user agent then come from the last patch key |
| X19Session.FetchFailureKeepsEarlierFields | lib/core/x19/session.ts:74-84 | a fetch that throws ends the initialisation with `SessionNetworkError` and that fetcher's message, fetches nothing after it, keeps the fields fetched before it, and leaves the session uninitialised |
| X19Session.InitPreservesConsistency | lib/core/x19/session.ts:70-97 | an initialised session has every field, no maintenance, a server, and a derived version and user agent |
| X19Session.AuthServerList | lib/core/x19/session.ts:20-25 | the getter throws exactly before initialisation, and otherwise returns the stored list |
| X19Session.PatchList | lib/core/x19/session.ts:28-33 | the getter throws exactly before initialisation, and otherwise returns the stored patch list |
| X19Session.GetReleaseInfo | lib/core/x19/session.ts:36-41 | the getter throws exactly before initialisation, and otherwise returns the stored release information |
| X19Session.GetReleaseInfoPE | lib/core/x19/session.ts:44-49 | the getter throws exactly before initialisation, and otherwise returns the stored mobile release information |
| X19Session.LatestPatchVersion | lib/core/x19/session.ts:52-57 | the getter throws exactly before initialisation, and otherwise returns the stored version |
| X19Session.GetUserAgent | lib/core/x19/session.ts:60-65 | the getter throws exactly before initialisation, and otherwise returns the stored user agent |
| X19Session.GettersAfterInit | lib/core/x19/session.ts:20-65 | on a reachable session every getter throws "Please init session first!" before initialisation. Afterwards they return defined values, and the user agent names the latest patch version |

## Left out

- HTTP: requests are records (URL, headers, body fields), and replies are inputs. Two kinds of reply are not distinguished:
  - an axios error without a body and a transport failure are both "no reply";
  - an X19 reply body is either a record of the documented shape or a body without a numeric `code` (`X19Errors.Body`). The parse that tells them apart is an input;
  - an MPay error body is the delivered JSON value. A success body is `null`, or a value whose `user` is missing, `null` or of the documented shape (`MPayClient.UserBody`). A text that axios could not parse is a JSON string.
- URL encoding of form and query fields is not modelled. The model keeps the fields in order.
- MD5, AES-128-CBC/ECB and UTF-8 decoding are typed parameters. The model states only the properties listed above.
- The decryption error for a ciphertext that is not whole blocks is given OpenSSL's text "wrong final block length". The exact message OpenSSL produces is not modelled. Node's bad-key error keeps its message, "Invalid key length", but its `RangeError` class and its `ERR_CRYPTO_INVALID_KEYLEN` code are left out.
- `JSON.stringify` and `JSON.parse` are parameters. When the authentication reply does not parse, the error is a plain error with a fixed text standing for the engine's `SyntaxError`.
- Randomness (`randomInt`, `randomBytes`, `randomUUID`) is given as inputs: draws from 0 to 60, a key index from 0 to 13, and bytes.
- The refresh schedule: `node-schedule`'s cron timing and the `onRefreshToken` event are left out. The job is a flag, and one firing is `X19Client.Tick`.
- Concurrency between a refresh and `doRequest` is not modelled: the async functions run as single steps.
- X19Cipher.HttpEncrypt: a non-ASCII body is modelled as the code does it. The buffer is sized from UTF-16 code units and filled with truncated UTF-8, so the filler can be cut off. The round trip is proved for ASCII bodies only, because the decoder parameter promises nothing about other bytes.
- X19Token.BinToString requires its input to be binary digits. The code only ever passes it the output of a rotation of `stringToBin`, and `parseInt` on other text is not modelled.
- X19Token.StringXor and the token chain work on UTF-16 code units. Surrogate pairs are split into units, as `charCodeAt` does.
- X19Client.AuthOTPBase reads `entity` only on code 0 and takes it as present. A code-0 reply without `entity`, which throws a `TypeError` in the code, is not modelled.
- X19Client.DoRequest: a `body` or `headers` key given explicitly as `undefined` is not representable. An absent body is the default `{}`.
- X19Client.DoRequest: for a body without a numeric `code`, the code stores the body's raw `message` value (`undefined` when there is none) as the error message. The model stores its text, as a template literal would give it.
- X19Client.Login: a code-0 login-OTP reply without `entity`, which throws a `TypeError` when the auth body is built, is not modelled. A documented-shape reply always carries its fields.
- X19Client.AuthFailure: a record with a numeric non-zero `code` but no `message` is read as having a message text. The code would write "undefined" there.
- JSON numbers are integers: a fractional `code` is not representable.
- Encoding.DecimalString: JSON numbers are exact integers, printed in full. The code's numbers are doubles: `JSON.parse` rounds integers beyond 2^53, and `toString()` and template literals print 10^21 and beyond in exponent form ("1e+21"). This affects the `aid` text of `X19Client.AuthBody` and the texts `Json.ToText` and `Json.MemberText` give, such as the `reason` of an MPay error.
- MPayClient.BaseLogin: a `user` member that is neither `null` nor an object, or one whose `token` or `id` is not a string, is not representable. The code would pass `undefined` or the raw value on to `loginByToken`.
- MPayClient.LoginByToken: `realname_status` is an integer. A missing one, which `!== 0` counts as real-name verified, is not representable.
- X19Session.LastKey takes keys in insertion order. `Object.keys` puts integer-like keys first, but patch version keys contain dots and are never integer-like.
- `lib/core/x19/rest/*.ts` (fetching the release information, patch list and server list) are inputs. Their error messages are reproduced in `X19Session.InitSession`, as `X19Session.FetchFailureKeepsEarlierFields` states. The `slice(0, -2)` and parse of the patch list are part of the fetch.
- `lib/core/mpay/devices.ts` and `lib/core/mpay/utils.ts`, device fabrication and registration, are not part of this model. A device is an input record. The `MPayGetDeviceError` class is modelled, but the registration that raises it is not.
- `lib/client.ts` and `lib/maid-tools.ts`, the facade and tools, are not part of this model.

=== FILE: base64.dfy ===
/** Base 64 encoding with the standard alphabet and `=` padding (section 4
    of RFC 4648), which is what `buffer.toString('base64')` produces. A
    decoder is given as the encoder's partner: decoding undoes encoding,
    and the encoding is the only canonical text (section 3.5 of RFC 4648:
    the pad bits are zero) that decodes to its bytes. */
module Base64 {
  import opened Encoding
  import opened Results

  /** The alphabet character of a sextet value (RFC 4648, Table 1). */
  function Digit(v: int): (c: char)
    requires 0 <= v < 64
  {
    if v < 26 then ('A' as int + v) as char
    else if v < 52 then ('a' as int + (v - 26)) as char
    else if v < 62 then ('0' as int + (v - 52)) as char
    else if v == 62 then '+'
    else '/'
  }

  predicate IsDigit(c: char) {
    'A' <= c <= 'Z' || 'a' <= c <= 'z' || '0' <= c <= '9' || c == '+' || c == '/'
  }

  /** The sextet value of an alphabet character. */
  function Value(c: char): (r: Option<int>)
    ensures r.Some? <==> IsDigit(c)
    ensures r.Some? ==> 0 <= r.value < 64
  {
    if 'A' <= c <= 'Z' then Some(c as int - 'A' as int)
    else if 'a' <= c <= 'z' then Some(c as int - 'a' as int + 26)
    else if '0' <= c <= '9' then Some(c as int - '0' as int + 52)
    else if c == '+' then Some(62)
    else if c == '/' then Some(63)
    else None
  }

  lemma DigitValue(v: int)
    requires 0 <= v < 64
    ensures IsDigit(Digit(v))
    ensures Value(Digit(v)) == Some(v)
  {
  }

  /** How many `=` characters close the encoding of `n` bytes. */
  function Padding(n: nat): nat {
    (3 - n % 3) % 3
  }

  /** The four characters encoding one to three bytes. */
  function Quad(b: seq<byte>): (r: string)
    requires 1 <= |b| <= 3
    ensures |r| == 4
    ensures forall i :: 0 <= i < 4 ==> (r[i] == '=' <==> i >= 4 - Padding(|b|))
    ensures forall i :: 0 <= i < 4 && r[i] != '=' ==> IsDigit(r[i])
  {
    assert Padding(1) == 2 && Padding(2) == 1 && Padding(3) == 0;
    DigitValue(b[0] / 4);
    if |b| == 1 then
      DigitValue((b[0] % 4) * 16);
      [Digit(b[0] / 4), Digit((b[0] % 4) * 16), '=', '=']
    else
      DigitValue((b[0] % 4) * 16 + b[1] / 16);
      if |b| == 2 then
        DigitValue((b[1] % 16) * 4);
        [Digit(b[0] / 4), Digit((b[0] % 4) * 16 + b[1] / 16), Digit((b[1] % 16) * 4), '=']
      else
        DigitValue((b[1] % 16) * 4 + b[2] / 64);
        DigitValue(b[2] % 64);
        [Digit(b[0] / 4), Digit((b[0] % 4) * 16 + b[1] / 16),
         Digit((b[1] % 16) * 4 + b[2] / 64), Digit(b[2] % 64)]
  }

  /** The pad bits of a group of four are zero: before `==` the second
      sextet is a multiple of 16, before a single `=` the third is a
      multiple of 4 (section 3.5 of RFC 4648). */
  predicate CanonicalQuad(s: string)
    requires |s| == 4
  {
    && (s[2] == '=' && s[3] == '=' && Value(s[1]).Some? ==> Value(s[1]).value % 16 == 0)
    && (s[2] != '=' && s[3] == '=' && Value(s[2]).Some? ==> Value(s[2]).value % 4 == 0)
  }

  /** Only the last group of an encoding can carry padding, so only its
      pad bits matter. */
  predicate Canonical(s: string) {
    |s| >= 4 ==> CanonicalQuad(s[|s| - 4..])
  }

  /** Base 64 encoding: every three bytes become four alphabet characters,
      and a final group of one or two bytes is padded with `=`. */
  function Encode(b: seq<byte>): (r: string)
    ensures |r| == 4 * ((|b| + 2) / 3)
    ensures forall i :: 0 <= i < |r| ==> (r[i] == '=' <==> i >= |r| - Padding(|b|))
    ensures forall i :: 0 <= i < |r| && r[i] != '=' ==> IsDigit(r[i])
    decreases |b|
  {
    if |b| == 0 then []
    else if |b| <= 3 then Quad(b)
    else
      var head := Quad(b[..3]);
      var tail := Encode(b[3..]);
      assert Padding(3) == 0;
      assert (|b| + 2) / 3 == 1 + (|b[3..]| + 2) / 3;
      assert Padding(|b[3..]|) == Padding(|b|);
      var r := head + tail;
      assert forall i :: 0 <= i < 4 ==> r[i] == head[i];
      assert forall i :: 4 <= i < |r| ==> r[i] == tail[i - 4];
      r
  }

  /** The encoder sets every pad bit to zero. */
  lemma {:induction false} EncodeCanonical(b: seq<byte>)
    ensures Canonical(Encode(b))
    decreases |b|
  {
    if 0 < |b| <= 3 {
      QuadCanonical(b);
      assert Encode(b)[|Encode(b)| - 4..] == Quad(b);
    } else if |b| > 3 {
      var tail := Encode(b[3..]);
      assert Encode(b) == Quad(b[..3]) + tail;
      assert Encode(b)[|Encode(b)| - 4..] == tail[|tail| - 4..];
      EncodeCanonical(b[3..]);
    }
  }

  /** The group of four for one to three bytes has zero pad bits. */
  lemma QuadCanonical(b: seq<byte>)
    requires 1 <= |b| <= 3
    ensures CanonicalQuad(Quad(b))
  {
    if |b| == 1 {
      DigitValue((b[0] % 4) * 16);
    } else if |b| == 2 {
      DigitValue((b[1] % 16) * 4);
    }
  }

  /** Decodes one group of four characters. */
  function DecodeQuad(s: string): (r: Option<seq<byte>>)
    requires |s| == 4
  {
    var a, b, c, d := Value(s[0]), Value(s[1]), Value(s[2]), Value(s[3]);
    if a.None? || b.None? then None
    else if s[2] == '=' && s[3] == '=' then
      Some([a.value * 4 + b.value / 16])
    else if c.None? then None
    else if s[3] == '=' then
      Some([a.value * 4 + b.value / 16, (b.value % 16) * 16 + c.value / 4])
    else if d.None? then None
    else
      Some([a.value * 4 + b.value / 16, (b.value % 16) * 16 + c.value / 4,
            (c.value % 4) * 64 + d.value])
  }

  /** Base 64 decoding of a padded encoding; `None` for malformed input. */
  function Decode(s: string): (r: Option<seq<byte>>)
    decreases |s|
  {
    if |s| == 0 then Some([])
    else if |s| < 4 then None
    else
      match DecodeQuad(s[..4])
      case None => None
      case Some(head) =>
        if |s| == 4 then Some(head)
        else if |head| < 3 then None
        else
          match Decode(s[4..])
          case None => None
          case Some(tail) => Some(head + tail)
  }

  lemma SplitOne(b0: int)
    requires 0 <= b0 < 256
    ensures (b0 / 4) * 4 + ((b0 % 4) * 16) / 16 == b0
  {
  }

  lemma SplitTwo(b0: int, b1: int)
    requires 0 <= b0 < 256 && 0 <= b1 < 256
    ensures ((b0 % 4) * 16 + b1 / 16) / 16 == b0 % 4
    ensures ((b0 % 4) * 16 + b1 / 16) % 16 == b1 / 16
  {
  }

  lemma SplitThree(b1: int, b2: int)
    requires 0 <= b1 < 256 && 0 <= b2 < 256
    ensures ((b1 % 16) * 4 + b2 / 64) / 4 == b1 % 16
    ensures ((b1 % 16) * 4 + b2 / 64) % 4 == b2 / 64
  {
  }

  lemma QuadRoundTrip1(b: seq<byte>)
    requires |b| == 1
    ensures DecodeQuad(Quad(b)) == Some(b)
  {
    var q := Quad(b);
    DigitValue(b[0] / 4);
    DigitValue((b[0] % 4) * 16);
    SplitOne(b[0]);
    assert q == [Digit(b[0] / 4), Digit((b[0] % 4) * 16), '=', '='];
    assert DecodeQuad(q) == Some([(b[0] / 4) * 4 + ((b[0] % 4) * 16) / 16]);
    assert [b[0]] == b;
  }

  lemma QuadRoundTrip2(b: seq<byte>)
    requires |b| == 2
    ensures DecodeQuad(Quad(b)) == Some(b)
  {
    var q := Quad(b);
    var v0, v1, v2 := b[0] / 4, (b[0] % 4) * 16 + b[1] / 16, (b[1] % 16) * 4;
    DigitValue(v0);
    DigitValue(v1);
    DigitValue(v2);
    SplitTwo(b[0], b[1]);
    assert q == [Digit(v0), Digit(v1), Digit(v2), '='];
    assert DecodeQuad(q) == Some([v0 * 4 + v1 / 16, (v1 % 16) * 16 + v2 / 4]);
    assert [b[0], b[1]] == b;
  }

  lemma QuadRoundTrip3(b: seq<byte>)
    requires |b| == 3
    ensures DecodeQuad(Quad(b)) == Some(b)
  {
    var q := Quad(b);
    var v0, v1 := b[0] / 4, (b[0] % 4) * 16 + b[1] / 16;
    var v2, v3 := (b[1] % 16) * 4 + b[2] / 64, b[2] % 64;
    DigitValue(v0);
    DigitValue(v1);
    DigitValue(v2);
    DigitValue(v3);
    SplitTwo(b[0], b[1]);
    SplitThree(b[1], b[2]);
    assert q == [Digit(v0), Digit(v1), Digit(v2), Digit(v3)];
    assert DecodeQuad(q) == Some([v0 * 4 + v1 / 16, (v1 % 16) * 16 + v2 / 4, (v2 % 4) * 64 + v3]);
    assert [b[0], b[1], b[2]] == b;
  }

  lemma QuadRoundTrip(b: seq<byte>)
    requires 1 <= |b| <= 3
    ensures DecodeQuad(Quad(b)) == Some(b)
  {
    if |b| == 1 {
      QuadRoundTrip1(b);
    } else if |b| == 2 {
      QuadRoundTrip2(b);
    } else {
      QuadRoundTrip3(b);
    }
  }

  /** Decoding undoes encoding. */
  lemma {:induction false} RoundTrip(b: seq<byte>)
    ensures Decode(Encode(b)) == Some(b)
    decreases |b|
  {
    if 0 < |b| <= 3 {
      QuadRoundTrip(b);
      assert Encode(b)[..4] == Encode(b);
    } else if |b| > 3 {
      var e := Encode(b);
      var head := Quad(b[..3]);
      assert e == head + Encode(b[3..]);
      assert e[..4] == head;
      assert e[4..] == Encode(b[3..]);
      QuadRoundTrip(b[..3]);
      RoundTrip(b[3..]);
      assert b[..3] + b[3..] == b;
    }
  }

  /** An alphabet character is the digit of its own value. */
  lemma ValueDigit(c: char)
    requires IsDigit(c)
    ensures Digit(Value(c).value) == c
  {
  }

  /** A canonical `xy==` group is the encoding of the byte it decodes to. */
  lemma CanonicalQuad1(s: string, h: seq<byte>)
    requires |s| == 4 && CanonicalQuad(s) && s[2] == '=' && s[3] == '='
    requires DecodeQuad(s) == Some(h)
    ensures |h| == 1 && Quad(h) == s
  {
    var a, b := Value(s[0]).value, Value(s[1]).value;
    ValueDigit(s[0]);
    ValueDigit(s[1]);
    assert h[0] / 4 == a && h[0] % 4 == b / 16;
    assert (h[0] % 4) * 16 == b;
  }

  /** A canonical `xyz=` group is the encoding of the two bytes it decodes
      to. */
  lemma CanonicalQuad2(s: string, h: seq<byte>)
    requires |s| == 4 && CanonicalQuad(s) && s[2] != '=' && s[3] == '='
    requires DecodeQuad(s) == Some(h)
    ensures |h| == 2 && Quad(h) == s
  {
    var a, b, c := Value(s[0]).value, Value(s[1]).value, Value(s[2]).value;
    ValueDigit(s[0]);
    ValueDigit(s[1]);
    ValueDigit(s[2]);
    assert h[0] / 4 == a && h[0] % 4 == b / 16;
    assert h[1] / 16 == b % 16 && h[1] % 16 == c / 4;
    assert (h[0] % 4) * 16 + h[1] / 16 == b;
    assert (h[1] % 16) * 4 == c;
  }

  /** A group without padding is the encoding of the three bytes it
      decodes to. */
  lemma CanonicalQuad3(s: string, h: seq<byte>)
    requires |s| == 4 && s[3] != '='
    requires DecodeQuad(s) == Some(h)
    ensures |h| == 3 && Quad(h) == s
  {
    var a, b := Value(s[0]).value, Value(s[1]).value;
    var c, d := Value(s[2]).value, Value(s[3]).value;
    ValueDigit(s[0]);
    ValueDigit(s[1]);
    ValueDigit(s[2]);
    ValueDigit(s[3]);
    assert h[0] / 4 == a && h[0] % 4 == b / 16;
    assert h[1] / 16 == b % 16 && h[1] % 16 == c / 4;
    assert h[2] / 64 == c % 4 && h[2] % 64 == d;
    assert (h[0] % 4) * 16 + h[1] / 16 == b;
    assert (h[1] % 16) * 4 + h[2] / 64 == c;
  }

  /** A group that decodes, and has zero pad bits when it is padded, is
      the encoding of what it decodes to. */
  lemma DecodedQuad(s: string, h: seq<byte>)
    requires |s| == 4 && DecodeQuad(s) == Some(h)
    requires |h| < 3 ==> CanonicalQuad(s)
    ensures 1 <= |h| <= 3 && Quad(h) == s
  {
    if s[3] != '=' {
      CanonicalQuad3(s, h);
    } else if s[2] == '=' {
      CanonicalQuad1(s, h);
    } else {
      CanonicalQuad2(s, h);
    }
  }

  /** The encoder's output is the only canonical text that decodes to its
      bytes: a canonical text that decodes is the encoding of the result. */
  lemma {:induction false} CanonicalUnique(s: string, b: seq<byte>)
    ensures Decode(s) == Some(b) && Canonical(s) ==> s == Encode(b)
    decreases |s|
  {
    if Decode(s) == Some(b) && Canonical(s) && |s| > 0 {
      var head := DecodeQuad(s[..4]).value;
      if |s| == 4 {
        assert s[..4] == s && s[|s| - 4..] == s;
        DecodedQuad(s, head);
      } else {
        var tail := Decode(s[4..]).value;
        assert b == head + tail;
        assert |head| == 3;
        DecodedQuad(s[..4], head);
        assert |s[4..]| >= 4;
        assert s[4..][|s[4..]| - 4..] == s[|s| - 4..];
        CanonicalUnique(s[4..], tail);
        assert b[..3] == head && b[3..] == tail;
        assert s == s[..4] + s[4..];
      }
    }
  }
}

=== FILE: encoding.dfy ===
/** Text and byte conversions that the modelled code gets from the
    JavaScript runtime: UTF-16 string length, UTF-8 encoding (RFC 3629,
    section 3), `Buffer.write` truncation, hexadecimal encoding and
    decoding of buffers, and the decimal rendering of integers. */
module Encoding {
  import opened Results

  type byte = b: int | 0 <= b < 256

  /** A buffer of `n` zero bytes, as `Buffer.alloc(n)` returns. */
  function Zeros(n: nat): (r: seq<byte>)
    ensures |r| == n
    ensures forall i :: 0 <= i < n ==> r[i] == 0
  {
    seq(n, i => 0)
  }

  predicate IsAscii(s: string) {
    forall i :: 0 <= i < |s| ==> s[i] as int < 128
  }

  predicate IsAlphanumeric(c: char) {
    'a' <= c <= 'z' || 'A' <= c <= 'Z' || '0' <= c <= '9'
  }

  // ---------------------------------------------------------------------
  // UTF-16 length

  /** Code units JavaScript spends on one scalar value. */
  function Utf16Units(c: char): nat {
    if c as int >= 0x1_0000 then 2 else 1
  }

  /** JavaScript's `string.length`: the number of UTF-16 code units. */
  function Utf16Length(s: string): nat {
    if |s| == 0 then 0 else Utf16Units(s[0]) + Utf16Length(s[1..])
  }

  /** A UTF-16 code unit: what `charCodeAt` returns and what
      `String.fromCharCode` keeps of its argument. */
  type CodeUnit = u: int | 0 <= u < 0x1_0000

  /** The UTF-16 encoding of one scalar value: itself, or a surrogate pair. */
  function Utf16Char(c: char): (r: seq<CodeUnit>)
    ensures |r| == Utf16Units(c)
  {
    var v := c as int;
    if v < 0x1_0000 then [v]
    else [0xD800 + (v - 0x1_0000) / 1024, 0xDC00 + (v - 0x1_0000) % 1024]
  }

  /** A string as JavaScript holds it: its sequence of UTF-16 code units. */
  function Utf16(s: string): (r: seq<CodeUnit>)
    ensures |r| == Utf16Length(s)
  {
    if |s| == 0 then [] else Utf16Char(s[0]) + Utf16(s[1..])
  }

  /** An ASCII string is one code unit per character, equal to its code. */
  lemma {:induction false} AsciiUtf16(s: string)
    requires IsAscii(s)
    ensures |Utf16(s)| == |s|
    ensures forall i :: 0 <= i < |s| ==> Utf16(s)[i] == s[i] as int
  {
    if |s| > 0 {
      assert IsAscii(s[1..]) by {
        forall i | 0 <= i < |s[1..]| ensures s[1..][i] as int < 128 {
          assert s[1..][i] == s[i + 1];
        }
      }
      AsciiUtf16(s[1..]);
      assert Utf16(s) == [s[0] as int] + Utf16(s[1..]);
      forall i | 0 <= i < |s| ensures Utf16(s)[i] == s[i] as int {
        if i > 0 {
          assert s[1..][i - 1] == s[i];
        }
      }
    }
  }

  lemma {:induction false} AsciiUtf16Length(s: string)
    requires IsAscii(s)
    ensures Utf16Length(s) == |s|
  {
    if |s| > 0 {
      assert s[0] as int < 128;
      assert IsAscii(s[1..]) by {
        forall i | 0 <= i < |s[1..]| ensures s[1..][i] as int < 128 {
          assert s[1..][i] == s[i + 1];
        }
      }
      AsciiUtf16Length(s[1..]);
    }
  }

  // ---------------------------------------------------------------------
  // UTF-8

  /** The UTF-8 encoding of one scalar value (RFC 3629, section 3). */
  function Utf8Char(c: char): (r: seq<byte>)
    ensures 1 <= |r| <= 4
    ensures |r| == 1 <==> c as int < 128
    ensures c as int < 128 ==> r == [c as int]
    ensures c as int != 0 ==> forall i :: 0 <= i < |r| ==> r[i] != 0
  {
    var v := c as int;
    if v < 0x80 then [v]
    else if v < 0x800 then [0xC0 + v / 64, 0x80 + v % 64]
    else if v < 0x1_0000 then [0xE0 + v / 4096, 0x80 + (v / 64) % 64, 0x80 + v % 64]
    else [0xF0 + v / 262144, 0x80 + (v / 4096) % 64, 0x80 + (v / 64) % 64, 0x80 + v % 64]
  }

  /** The UTF-8 encoding of a string, as `Buffer.from(s)` produces. */
  function Utf8(s: string): seq<byte> {
    if |s| == 0 then [] else Utf8Char(s[0]) + Utf8(s[1..])
  }

  lemma {:induction false} Utf8Append(a: string, b: string)
    ensures Utf8(a + b) == Utf8(a) + Utf8(b)
  {
    if |a| == 0 {
      assert a + b == b;
    } else {
      assert (a + b)[0] == a[0];
      assert (a + b)[1..] == a[1..] + b;
      Utf8Append(a[1..], b);
    }
  }

  /** An ASCII string encodes to its own character codes, one byte each. */
  lemma {:induction false} AsciiUtf8(s: string)
    requires IsAscii(s)
    ensures |Utf8(s)| == |s|
    ensures forall i :: 0 <= i < |s| ==> Utf8(s)[i] == s[i] as int
  {
    if |s| > 0 {
      assert IsAscii(s[1..]) by {
        forall i | 0 <= i < |s[1..]| ensures s[1..][i] as int < 128 {
          assert s[1..][i] == s[i + 1];
        }
      }
      AsciiUtf8(s[1..]);
      assert Utf8(s) == [s[0] as int] + Utf8(s[1..]);
      forall i | 0 <= i < |s| ensures Utf8(s)[i] == s[i] as int {
        if i > 0 {
          assert s[1..][i - 1] == s[i];
        }
      }
    }
  }

  /** A string without NUL characters encodes to bytes without zeros. */
  lemma {:induction false} Utf8NoZero(s: string)
    requires forall i :: 0 <= i < |s| ==> s[i] != '\0'
    ensures forall i :: 0 <= i < |Utf8(s)| ==> Utf8(s)[i] != 0
  {
    if |s| > 0 {
      assert forall i :: 0 <= i < |s[1..]| ==> s[1..][i] == s[i + 1];
      Utf8NoZero(s[1..]);
      var h := Utf8Char(s[0]);
      forall i | 0 <= i < |Utf8(s)| ensures Utf8(s)[i] != 0 {
        if i >= |h| {
          assert Utf8(s)[i] == Utf8(s[1..])[i - |h|];
        }
      }
    }
  }

  /** What `buffer.write(s)` stores into a buffer with `room` bytes: the
      encodings of as many leading characters as fit whole, because a
      partially encoded character is never written. */
  function FitUtf8(s: string, room: nat): (r: seq<byte>)
    ensures |r| <= room
    ensures r <= Utf8(s)
    ensures |Utf8(s)| <= room ==> r == Utf8(s)
  {
    if |s| == 0 then []
    else
      var h := Utf8Char(s[0]);
      if |h| > room then []
      else h + FitUtf8(s[1..], room - |h|)
  }

  // ---------------------------------------------------------------------
  // Hexadecimal

  /** A lower-case hexadecimal digit. */
  predicate IsLowerHex(c: char) {
    '0' <= c <= '9' || 'a' <= c <= 'f'
  }

  function HexDigit(v: int): (c: char)
    requires 0 <= v < 16
    ensures IsLowerHex(c)
  {
    if v < 10 then ('0' as int + v) as char else ('a' as int + v - 10) as char
  }

  /** The value of a hexadecimal digit of either case. */
  function HexValue(c: char): (r: Option<int>)
    ensures r.Some? ==> 0 <= r.value < 16
  {
    if '0' <= c <= '9' then Some(c as int - '0' as int)
    else if 'a' <= c <= 'f' then Some(c as int - 'a' as int + 10)
    else if 'A' <= c <= 'F' then Some(c as int - 'A' as int + 10)
    else None
  }

  /** `buffer.toString('hex')`: two lower-case digits per byte. */
  function HexEncode(b: seq<byte>): (r: string)
    ensures |r| == 2 * |b|
    ensures forall i :: 0 <= i < |r| ==> IsLowerHex(r[i])
  {
    if |b| == 0 then [] else [HexDigit(b[0] / 16), HexDigit(b[0] % 16)] + HexEncode(b[1..])
  }

  /** `Buffer.from(s, 'hex')`: decodes digit pairs up to the first pair
      that is not hexadecimal; a trailing odd digit is dropped. */
  function HexDecode(s: string): (r: seq<byte>)
    ensures |r| <= |s| / 2
  {
    if |s| < 2 || HexValue(s[0]).None? || HexValue(s[1]).None? then []
    else [HexValue(s[0]).value * 16 + HexValue(s[1]).value] + HexDecode(s[2..])
  }

  lemma HexDigitValue(v: int)
    requires 0 <= v < 16
    ensures HexValue(HexDigit(v)) == Some(v)
  {
  }

  /** One byte's two digits decode back to the byte, ahead of the rest. */
  lemma HexPair(x: byte, t: string)
    ensures HexDecode([HexDigit(x / 16), HexDigit(x % 16)] + t) == [x] + HexDecode(t)
  {
    var hi, lo := x / 16, x % 16;
    var s := [HexDigit(hi), HexDigit(lo)] + t;
    HexDigitValue(hi);
    HexDigitValue(lo);
    assert hi * 16 + lo == x;
    assert s[0] == HexDigit(hi) && s[1] == HexDigit(lo) && s[2..] == t;
  }

  lemma {:induction false} HexRoundTrip(b: seq<byte>)
    ensures HexDecode(HexEncode(b)) == b
  {
    if |b| > 0 {
      HexPair(b[0], HexEncode(b[1..]));
      HexRoundTrip(b[1..]);
      assert [b[0]] + b[1..] == b;
    }
  }

  /** ASCII upper-casing, which is what `toUpperCase()` does to a
      hexadecimal string: no lower-case letter is left, each one becomes
      its capital, and every other character stays. */
  function AsciiUpper(s: string): (r: string)
    ensures |r| == |s|
    ensures forall i :: 0 <= i < |r| ==> !('a' <= r[i] <= 'z')
    ensures forall i :: 0 <= i < |s| && !('a' <= s[i] <= 'z') ==> r[i] == s[i]
    ensures forall i :: 0 <= i < |s| && 'a' <= s[i] <= 'z' ==>
      'A' <= r[i] <= 'Z' && r[i] as int - 'A' as int == s[i] as int - 'a' as int
  {
    seq(|s|, i requires 0 <= i < |s| =>
      if 'a' <= s[i] <= 'z' then (s[i] as int - 32) as char else s[i])
  }

  /** Two texts whose characters have the same hexadecimal values decode
      to the same bytes. */
  lemma {:induction false} HexDecodeByValues(s: string, t: string)
    requires |s| == |t|
    requires forall i :: 0 <= i < |s| ==> HexValue(s[i]) == HexValue(t[i])
    ensures HexDecode(s) == HexDecode(t)
  {
    if |s| >= 2 {
      HexDecodeByValues(s[2..], t[2..]);
    }
  }

  /** Upper-casing hexadecimal text loses nothing: `Buffer.from(s, 'hex')`
      of the upper-case digits gives back the encoded bytes. */
  lemma UpperHexRoundTrip(b: seq<byte>)
    ensures HexDecode(AsciiUpper(HexEncode(b))) == b
  {
    var h := HexEncode(b);
    forall i | 0 <= i < |h|
      ensures HexValue(AsciiUpper(h)[i]) == HexValue(h[i])
    {
      assert IsLowerHex(h[i]);
    }
    HexDecodeByValues(AsciiUpper(h), h);
    HexRoundTrip(b);
  }

  // ---------------------------------------------------------------------
  // Decimal

  function DigitChar(d: int): char
    requires 0 <= d < 10
  {
    ('0' as int + d) as char
  }

  /** The decimal digits of a natural number, most significant first. */
  function Digits(n: nat): (r: string)
    ensures |r| >= 1
    ensures forall i :: 0 <= i < |r| ==> '0' <= r[i] <= '9'
  {
    if n < 10 then [DigitChar(n)] else Digits(n / 10) + [DigitChar(n % 10)]
  }

  /** The value of a string of decimal digits. */
  function ParseDigits(s: string): nat
    requires forall i :: 0 <= i < |s| ==> '0' <= s[i] <= '9'
  {
    if |s| == 0 then 0
    else 10 * ParseDigits(s[..|s| - 1]) + (s[|s| - 1] as int - '0' as int)
  }

  lemma {:induction false} DigitsRoundTrip(n: nat)
    ensures ParseDigits(Digits(n)) == n
    ensures n >= 10 ==> Digits(n)[0] != '0'
  {
    if n >= 10 {
      var d := Digits(n);
      assert d[..|d| - 1] == Digits(n / 10);
      DigitsRoundTrip(n / 10);
    }
  }

  /** `Number.prototype.toString()` for an integer value: its digits,
      after a minus sign exactly when it is negative, which parse back to
      its magnitude. */
  function DecimalString(n: int): (r: string)
    ensures |r| >= 1
    ensures r[0] == '-' <==> n < 0
    ensures n >= 0 ==> (forall i :: 0 <= i < |r| ==> '0' <= r[i] <= '9') && ParseDigits(r) == n
    ensures n < 0 ==> (forall i :: 1 <= i < |r| ==> '0' <= r[i] <= '9') && ParseDigits(r[1..]) == -n
  {
    if n < 0 then
      DigitsRoundTrip(-n);
      assert ("-" + Digits(-n))[1..] == Digits(-n);
      "-" + Digits(-n)
    else
      DigitsRoundTrip(n);
      Digits(n)
  }
}

=== FILE: json.dfy ===
/** JSON values, as far as the modelled code builds or inspects them.
    `JSON.stringify` and `JSON.parse` themselves are oracles. */
module Json {
  import opened Results
  import Encoding

  /** Objects keep their members in insertion order, as JavaScript
      objects with non-numeric keys do. */
  datatype Json =
    | JNull
    | JBool(b: bool)
    | JNum(n: int)
    | JStr(s: string)
    | JArr(items: seq<Json>)
    | JObj(members: seq<(string, Json)>)

  /** `JSON.stringify`, left uninterpreted. */
  type Stringify = Json -> string

  /** `o[key]` on an object's members: the last member named `key`, as
      `JSON.parse` keeps the last of repeated names, or `None` for
      `undefined`. */
  function Lookup(members: seq<(string, Json)>, key: string): Option<Json> {
    if |members| == 0 then None
    else if members[|members| - 1].0 == key then Some(members[|members| - 1].1)
    else Lookup(members[..|members| - 1], key)
  }

  /** `v[key]` on a value that is not `null`: an object's member, and
      `undefined` on every other value. */
  function Member(v: Json, key: string): Option<Json> {
    if v.JObj? then Lookup(v.members, key) else None
  }

  /** `v[key]` where it is a number. */
  function NumberMember(v: Json, key: string): Option<int> {
    match Member(v, key)
    case Some(JNum(n)) => Some(n)
    case _ => None
  }

  /** `${v[key]}` on a value that is not `null`: the member's text, and
      "undefined" when there is none. */
  function MemberText(v: Json, key: string): string {
    match Member(v, key)
    case Some(m) => ToText(m)
    case None => "undefined"
  }

  /** The `TypeError` message of reading `key` from `null`. */
  function NullRead(key: string): string {
    "Cannot read properties of null (reading '" + key + "')"
  }

  /** `String(v)`, the text a template literal gives a value: arrays join
      their items' texts with commas, a `null` item giving the empty text,
      and every object reads "[object Object]". */
  function ToText(v: Json): string
    decreases v, 1
  {
    match v
    case JNull => "null"
    case JBool(b) => if b then "true" else "false"
    case JNum(n) => Encoding.DecimalString(n)
    case JStr(s) => s
    case JArr(items) => JoinTexts(items)
    case JObj(_) => "[object Object]"
  }

  function JoinTexts(items: seq<Json>): string
    decreases items, 0
  {
    if |items| == 0 then ""
    else
      var first := if items[0] == JNull then "" else ToText(items[0]);
      if |items| == 1 then first else first + "," + JoinTexts(items[1..])
  }
}

=== FILE: mpay_client.dfy ===
/** `MPayBaseClient` (lib/core/mpay/base_client.ts) as a state machine:
    account login, token login, and the accessors guarded by the login
    flag. Server replies, MD5, AES-128-ECB and `JSON.stringify` are
    parameters. */
module MPayClient {
  import opened Results
  import opened Encoding
  import opened Json
  import opened Oracles
  import opened Objects
  import opened MPayErrors

  /** `MPayClientInfo`: the fabricated device description. Only `udid`
      is read by the client. */
  datatype ClientInfo = ClientInfo(udid: string, others: Entries<string>)

  /** `MPayDeviceInfo`: the registration the service returned. */
  datatype DeviceInfo = DeviceInfo(ursDeviceId: string, id: string, key: string)

  /** `MPayDevice`. The app description is an object whose fields are all
      copied into the token-login query. */
  datatype Device = Device(client: ClientInfo, app: Entries<string>, info: DeviceInfo)

  datatype Client = Client(
    isLogin: bool,
    device: Device,
    username: string,
    loginToken: string,
    userId: string,
    isRealname: bool)

  /** The library code the client calls. */
  datatype Wire = Wire(md5: Md5, ecb: AesEcb, stringify: Stringify)

  /** A request as it leaves the client, with its form or query fields
      before URL encoding. */
  datatype Request =
    | BaseLoginRequest(url: string, form: Entries<string>)
    | TokenLoginRequest(url: string, query: Entries<string>)

  /** A reply: axios threw without a body, threw with an error body (any
      value but `undefined`, documented as `MPayErrorResponse`), or
      delivered a body. */
  datatype Reply<T> = NoResponse | Rejected(error: Json) | Accepted(body: T)

  /** A member of a delivered body as the client reads it: missing
      (`undefined`), `null`, or a value of the documented shape. */
  datatype Member<T> = Missing | NullValue | Present(value: T)

  /** A value other than `null`. */
  type NonNull = j: Json | !j.JNull? witness JBool(false)

  /** A delivered body: `null`, or another value (an object, or a text
      axios could not parse) with its `user` member as the client reads
      it. `raw` is the body itself, as an error attaches it. */
  datatype UserBody<T> = NullBody | UserBody(user: Member<T>, raw: NonNull)

  /** The `user` of an account-login reply: the two fields the client
      reads, and the whole object. */
  datatype BaseUser = BaseUser(token: string, id: string, info: Entries<Json>)

  /** The `user` of a token-login reply. */
  datatype TokenUser = TokenUser(realnameStatus: int, info: Entries<Json>)

  type LoginBody = UserBody<BaseUser>
  type TokenBody = UserBody<TokenUser>

  /** The reply delivered a body whose `user` is present. */
  predicate HasUser<T>(reply: Reply<UserBody<T>>) {
    reply.Accepted? && reply.body.UserBody? && reply.body.user.Present?
  }

  /** The reply delivered a body whose `user` is `null`. */
  predicate NullUser<T>(reply: Reply<UserBody<T>>) {
    reply.Accepted? && reply.body.UserBody? && reply.body.user.NullValue?
  }

  function UserOf<T>(reply: Reply<UserBody<T>>): T
    requires HasUser(reply)
  {
    reply.body.user.value
  }

  datatype Step<T> = Step(result: Result<T, MPayError>, client: Client, sent: seq<Request>)

  /** The state right after `new MPayBaseClient(device)`. */
  function NewClient(device: Device): (c: Client)
    ensures !c.isLogin && !c.isRealname && Consistent(c)
    ensures c.username == "" && c.loginToken == "" && c.userId == ""
  {
    Client(false, device, "", "", "", false)
  }

  /** The real-name flag is only ever set together with the login flag. */
  predicate Consistent(c: Client) {
    c.isRealname ==> c.isLogin
  }

  /** A template-literal interpolation of an object field: a missing
      field prints as `undefined`. */
  function Field(o: Entries<string>, key: string): (r: string)
    ensures HasKey(o, key) ==> Some(r) == Get(o, key)
    ensures !HasKey(o, key) ==> r == "undefined"
  {
    Get(o, key).GetOr("undefined")
  }

  /** The users endpoint of the device. */
  function UsersUrl(d: Device): string {
    "https://service.mkey.163.com/mpay/" + Field(d.app, "app_type") + "/" + Field(d.app, "game_id")
      + "/devices/" + d.info.id + "/users"
  }

  // ---------------------------------------------------------------------
  // Guarded accessors

  const NOT_LOGGED_IN: string := "Please login MPay first!"
  const SAUTH_NOT_LOGGED_IN: string := "Please mpay login first"

  /** `isRealname`. */
  function IsRealname(c: Client): (r: Result<bool, MPayError>)
    ensures r.Err? <==> !c.isLogin
    ensures r.Err? ==> r.error == ClientError(NOT_LOGGED_IN, NoMPayLogin, None)
    ensures r.Ok? ==> r.value == c.isRealname
  {
    if !c.isLogin then Err(NewClientError(NOT_LOGGED_IN, NoMPayLogin, None)) else Ok(c.isRealname)
  }

  datatype UserDump = UserDump(token: string, userId: string, device: Device)

  /** `dumpUserData`. */
  function DumpUserData(c: Client): (r: Result<UserDump, MPayError>)
    ensures r.Err? <==> !c.isLogin
    ensures r.Err? ==> r.error == ClientError(NOT_LOGGED_IN, NoMPayLogin, None)
    ensures r.Ok? ==> r.value.token == c.loginToken && r.value.userId == c.userId && r.value.device == c.device
  {
    if !c.isLogin then Err(NewClientError(NOT_LOGGED_IN, NoMPayLogin, None))
    else Ok(UserDump(c.loginToken, c.userId, c.device))
  }

  /** The SAuth object of `getSAuthJSON`; `uniqueId` is the fresh
      `randomUniqueId()`. */
  function SAuthObject(c: Client, gameId: string, uniqueId: string): (r: Json)
    ensures r.JObj? && |r.members| == 14
    ensures r.members[0] == ("gameid", JStr(gameId))
    ensures r.members[4] == ("sdkuid", JStr(c.userId))
    ensures r.members[5] == ("sessionid", JStr(c.loginToken))
    ensures r.members[7] == ("udid", JStr(c.device.client.udid))
    ensures r.members[8] == ("deviceid", JStr(c.device.info.id))
    ensures r.members[10] == ("client_login_sn", JStr(uniqueId))
  {
    JObj([
      ("gameid", JStr(gameId)),
      ("login_channel", JStr("netease")),
      ("app_channel", JStr("netease")),
      ("platform", JStr("pc")),
      ("sdkuid", JStr(c.userId)),
      ("sessionid", JStr(c.loginToken)),
      ("sdk_version", JStr("3.4.0")),
      ("udid", JStr(c.device.client.udid)),
      ("deviceid", JStr(c.device.info.id)),
      ("aim_info", JStr("{\"aim\":\"\",\"country\":\"CN\",\"tz\":\"+0800\",\"tzid\":\"\"}")),
      ("client_login_sn", JStr(uniqueId)),
      ("gas_token", JStr("")),
      ("source_platform", JStr("pc")),
      ("ip", JStr(""))
    ])
  }

  /** `getSAuthJSON(gameid)`: a plain error before login. */
  function GetSAuthJson(c: Client, w: Wire, gameId: string, uniqueId: string): (r: Result<string, MPayError>)
    ensures r.Err? <==> !c.isLogin
    ensures r.Err? ==> r.error == PlainError(SAUTH_NOT_LOGGED_IN)
    ensures r.Ok? ==> r.value == w.stringify(SAuthObject(c, gameId, uniqueId))
  {
    if !c.isLogin then Err(PlainError(SAUTH_NOT_LOGGED_IN))
    else Ok(w.stringify(SAuthObject(c, gameId, uniqueId)))
  }

  /** The three accessors fail together, exactly before login. */
  lemma AccessorsGuarded(c: Client, w: Wire, gameId: string, uniqueId: string)
    ensures IsRealname(c).Err? <==> DumpUserData(c).Err?
    ensures DumpUserData(c).Err? <==> GetSAuthJson(c, w, gameId, uniqueId).Err?
    ensures GetSAuthJson(c, w, gameId, uniqueId).Err? <==> !c.isLogin
  {
  }

  // ---------------------------------------------------------------------
  // Token login

  const LOGIN_AGAIN: string := "do not login againnnn!"

  /** The query of a token login: the app fields, four fixed or given
      fields, and the username when one was recorded. */
  function TokenQuery(app: Entries<string>, token: string, username: string): (q: Entries<string>)
    ensures Get(q, "token") == Some(token)
    ensures Get(q, "verify_status") == Some("0")
    ensures Get(q, "login_for") == Some("1")
    ensures Get(q, "app_channel") == Some("netease")
    ensures username != "" ==> Get(q, "username") == Some(username)
    ensures username == "" ==> Get(q, "username") == Get(app, "username")
    ensures forall k :: k != "token" && k != "verify_status" && k != "login_for" && k != "app_channel" && k != "username" ==>
      Get(q, k) == Get(app, k)
  {
    QueryKeysDistinct();
    var q := FixedFields(app, token);
    if username != "" then Put(q, "username", username) else q
  }

  /** The five query keys are pairwise different. */
  lemma QueryKeysDistinct()
    ensures "username" != "token" && "username" != "verify_status" && "username" != "login_for" && "username" != "app_channel"
    ensures "token" != "verify_status" && "token" != "login_for" && "token" != "app_channel"
    ensures "verify_status" != "login_for" && "verify_status" != "app_channel" && "login_for" != "app_channel"
  {
    assert |"username"| == 8 && |"token"| == 5 && |"verify_status"| == 13 && |"login_for"| == 9 && |"app_channel"| == 11;
  }

  /** The app fields spread into an object, then the four fixed fields. */
  function FixedFields(app: Entries<string>, token: string): (q: Entries<string>)
    ensures Get(q, "token") == Some(token)
    ensures Get(q, "verify_status") == Some("0")
    ensures Get(q, "login_for") == Some("1")
    ensures Get(q, "app_channel") == Some("netease")
    ensures forall k :: k != "token" && k != "verify_status" && k != "login_for" && k != "app_channel" ==>
      Get(q, k) == Get(app, k)
  {
    QueryKeysDistinct();
    var q1 := Put(app, "verify_status", "0");
    var q2 := Put(q1, "login_for", "1");
    assert Get(q2, "verify_status") == Some("0");
    var q3 := Put(q2, "app_channel", "netease");
    assert Get(q3, "verify_status") == Some("0") && Get(q3, "login_for") == Some("1");
    var q4 := Put(q3, "token", token);
    assert Get(q4, "verify_status") == Some("0") && Get(q4, "login_for") == Some("1");
    assert Get(q4, "app_channel") == Some("netease");
    q4
  }

  /** `loginByToken(token, mpayUserId)`. The login flag is raised before
      `realname_status` is read, so a `null` user leaves it raised. */
  function LoginByToken(c: Client, token: string, userId: string, reply: Reply<TokenBody>): (s: Step<TokenUser>)
    ensures c.isLogin ==> s == Step(Err(ClientError(LOGIN_AGAIN, DoNotLoginAgain, None)), c, [])
    ensures !c.isLogin ==> s.sent == [TokenLoginRequest(UsersUrl(c.device) + "/" + userId, TokenQuery(c.device.app, token, c.username))]
    ensures !c.isLogin && s.result.Err? ==> s.client == c.(loginToken := token, userId := userId, isLogin := NullUser(reply))
    ensures s.result.Ok? ==> s.client == c.(loginToken := token, userId := userId, isLogin := true,
                                           isRealname := s.result.value.realnameStatus != 0)
    ensures s.result.Ok? <==> !c.isLogin && HasUser(reply)
    ensures s.result.Ok? ==> s.result.value == UserOf(reply)
  {
    if c.isLogin then Step(Err(NewClientError(LOGIN_AGAIN, DoNotLoginAgain, None)), c, [])
    else
      var sent := [TokenLoginRequest(UsersUrl(c.device) + "/" + userId, TokenQuery(c.device.app, token, c.username))];
      var t := TokenLoginAnswer(c.(loginToken := token, userId := userId), reply);
      Step(t.result, t.client, sent)
  }

  /** What `loginByToken` makes of the reply, once the token and id are
      stored in `c1`. */
  function TokenLoginAnswer(c1: Client, reply: Reply<TokenBody>): (s: Step<TokenUser>)
    ensures s.sent == []
    ensures s.result.Err? ==> s.client == if NullUser(reply) then c1.(isLogin := true) else c1
    ensures s.result.Ok? <==> HasUser(reply)
    ensures s.result.Ok? ==>
      && s.result.value == UserOf(reply)
      && s.client == c1.(isLogin := true, isRealname := s.result.value.realnameStatus != 0)
  {
    match reply
    case NoResponse => Step(Err(NewClientLoginError("network error", NetworkError, None)), c1, [])
    case Rejected(e) =>
      if e == JNull then Step(Err(PlainError(NullRead("reason"))), c1, [])
      else Step(Err(NewClientLoginError(MemberText(e, "reason"), OtherError, Some(RawPayload(e)))), c1, [])
    case Accepted(NullBody) => Step(Err(PlainError(NullRead("user"))), c1, [])
    case Accepted(UserBody(Missing, _)) => Step(Err(NewClientLoginError("cannot find user", OtherError, None)), c1, [])
    case Accepted(UserBody(NullValue, _)) => Step(Err(PlainError(NullRead("realname_status"))), c1.(isLogin := true), [])
    case Accepted(UserBody(Present(u), _)) => Step(Ok(u), c1.(isLogin := true, isRealname := u.realnameStatus != 0), [])
  }

  /** How a failed token login is reported: a missing reply is a network
      error; an error body gives an other-error with the text of its
      `reason` and the body attached; a body without `user` gives "cannot
      find user". Reading a member of `null` throws a `TypeError`: of
      `reason` for a `null` error body, of `user` for a `null` body, and of
      `realname_status` for a `null` user, after the login flag is
      raised. */
  lemma TokenLoginFailures(c: Client, token: string, userId: string, reply: Reply<TokenBody>)
    requires !c.isLogin
    ensures var s := LoginByToken(c, token, userId, reply);
      && (reply.NoResponse? ==> s.result == Err(ClientLoginError(LOGIN_PREFIX + "network error", NetworkError, None)))
      && (reply.Rejected? && reply.error != JNull ==>
            s.result == Err(ClientLoginError(LOGIN_PREFIX + MemberText(reply.error, "reason"), OtherError,
                                             Some(RawPayload(reply.error)))))
      && (reply == Rejected(JNull) ==> s.result == Err(PlainError(NullRead("reason"))))
      && (reply == Accepted(NullBody) ==> s.result == Err(PlainError(NullRead("user"))))
      && (reply.Accepted? && reply.body.UserBody? && reply.body.user.Missing? ==>
            s.result == Err(ClientLoginError(LOGIN_PREFIX + "cannot find user", OtherError, None)))
      && (NullUser(reply) ==> s.result == Err(PlainError(NullRead("realname_status"))) && s.client.isLogin)
  {
  }

  // ---------------------------------------------------------------------
  // Account login

  /** The error `baseLogin` throws for an error body: the class picked by
      the numeric `code`, with the text of `reason`; reading `code` from a
      `null` body throws a `TypeError`. */
  function LoginFailure(e: Json): (r: MPayError)
    ensures r.PlainError? <==> e == JNull
    ensures e == JNull ==> r == PlainError(NullRead("code"))
    ensures e != JNull ==> r.ClientLoginError? && r == NewClientLoginError(MemberText(e, "reason"), r.code, r.response)
    ensures r.ClientLoginError? ==>
      && (r.code == IncorrectAccountOrPassword <==> NumberMember(e, "code") == Some(INCORRECT_ACCOUNT_OR_PASSWORD))
      && (r.code == AccountFormatIncorrect <==> NumberMember(e, "code") == Some(ACCOUNT_FORMAT_INCORRECT))
      && (r.code == AccountAtRisk <==> NumberMember(e, "code") == Some(ACCOUNT_AT_RISK))
      && (r.code == OtherError <==> NumberMember(e, "code") !in {Some(INCORRECT_ACCOUNT_OR_PASSWORD), Some(ACCOUNT_FORMAT_INCORRECT), Some(ACCOUNT_AT_RISK)})
      && (r.response.None? <==> r.code in {IncorrectAccountOrPassword, AccountFormatIncorrect})
      && (r.response.Some? ==> r.response == Some(RawPayload(e)))
  {
    if e == JNull then PlainError(NullRead("code"))
    else
      var code, reason := NumberMember(e, "code"), MemberText(e, "reason");
      if code == Some(INCORRECT_ACCOUNT_OR_PASSWORD) then NewClientLoginError(reason, IncorrectAccountOrPassword, None)
      else if code == Some(ACCOUNT_FORMAT_INCORRECT) then NewClientLoginError(reason, AccountFormatIncorrect, None)
      else if code == Some(ACCOUNT_AT_RISK) then NewClientLoginError(reason, AccountAtRisk, Some(RawPayload(e)))
      else NewClientLoginError(reason, OtherError, Some(RawPayload(e)))
  }

  /** `baseLogin(encryptedParams)`: the account login, then the token
      login with the returned token and id; the result merges both user
      objects. */
  function BaseLogin(c: Client, params: string, reply: Reply<LoginBody>, tokenReply: Reply<TokenBody>): (s: Step<Entries<Json>>)
    requires !c.isLogin
    ensures 1 <= |s.sent| && s.sent[0] == BaseLoginRequest(UsersUrl(c.device), [("params", params), ("app_channel", "netease")])
    ensures s.client.username == c.username
    ensures Consistent(c) ==> Consistent(s.client)
    ensures reply.NoResponse? ==> s == Step(Err(ClientLoginError(LOGIN_PREFIX + "network error", NetworkError, None)), c, s.sent)
    ensures reply.Rejected? ==> s == Step(Err(LoginFailure(reply.error)), c, s.sent)
    ensures reply == Accepted(NullBody) ==> s == Step(Err(PlainError(NullRead("user"))), c, s.sent)
    ensures reply.Accepted? && reply.body.UserBody? && reply.body.user.Missing? ==>
      s == Step(Err(ClientLoginError(LOGIN_PREFIX + "cannot find user", OtherError, Some(RawPayload(reply.body.raw)))), c, s.sent)
    ensures NullUser(reply) ==> s == Step(Err(PlainError(NullRead("token"))), c, s.sent)
    ensures s.result.Ok? <==> HasUser(reply) && HasUser(tokenReply)
    ensures s.client.isLogin <==> s.result.Ok? || (HasUser(reply) && NullUser(tokenReply))
    ensures s.result.Ok? ==>
      var user, tokenUser := UserOf(reply), UserOf(tokenReply);
      && s.result.value == Assign(user.info, tokenUser.info)
      && s.client == c.(isLogin := true, loginToken := user.token, userId := user.id,
                        isRealname := tokenUser.realnameStatus != 0)
  {
    var sent := [BaseLoginRequest(UsersUrl(c.device), [("params", params), ("app_channel", "netease")])];
    var a := AccountLoginAnswer(c, reply, tokenReply);
    Step(a.result, a.client, sent + a.sent)
  }

  /** What `baseLogin` makes of the account reply: a failure leaves the
      client as it was; a user goes on to the token login. */
  function AccountLoginAnswer(c: Client, reply: Reply<LoginBody>, tokenReply: Reply<TokenBody>): (s: Step<Entries<Json>>)
    requires !c.isLogin
    ensures !HasUser(reply) ==> s.client == c && s.sent == [] && s.result.Err?
    ensures reply.NoResponse? ==> s.result == Err(ClientLoginError(LOGIN_PREFIX + "network error", NetworkError, None))
    ensures reply.Rejected? ==> s.result == Err(LoginFailure(reply.error))
    ensures reply == Accepted(NullBody) ==> s.result == Err(PlainError(NullRead("user")))
    ensures reply.Accepted? && reply.body.UserBody? && reply.body.user.Missing? ==>
      s.result == Err(ClientLoginError(LOGIN_PREFIX + "cannot find user", OtherError, Some(RawPayload(reply.body.raw))))
    ensures NullUser(reply) ==> s.result == Err(PlainError(NullRead("token")))
    ensures HasUser(reply) ==> s == ThenTokenLogin(c, UserOf(reply), tokenReply)
  {
    match reply
    case NoResponse => Step(Err(NewClientLoginError("network error", NetworkError, None)), c, [])
    case Rejected(e) => Step(Err(LoginFailure(e)), c, [])
    case Accepted(NullBody) => Step(Err(PlainError(NullRead("user"))), c, [])
    case Accepted(UserBody(Missing, raw)) =>
      Step(Err(NewClientLoginError("cannot find user", OtherError, Some(RawPayload(raw)))), c, [])
    case Accepted(UserBody(NullValue, _)) => Step(Err(PlainError(NullRead("token"))), c, [])
    case Accepted(UserBody(Present(user), _)) => ThenTokenLogin(c, user, tokenReply)
  }

  /** The rest of `baseLogin` once the account login returned a user: the
      token login with its token and id, then the merge of both user
      objects. */
  function ThenTokenLogin(c: Client, user: BaseUser, tokenReply: Reply<TokenBody>): (s: Step<Entries<Json>>)
    requires !c.isLogin
    ensures s.client.username == c.username
    ensures Consistent(c) ==> Consistent(s.client)
    ensures s.result.Ok? <==> HasUser(tokenReply)
    ensures s.client.isLogin <==> s.result.Ok? || NullUser(tokenReply)
    ensures s.result.Ok? ==>
      && s.result.value == Assign(user.info, UserOf(tokenReply).info)
      && s.client == c.(isLogin := true, loginToken := user.token, userId := user.id,
                        isRealname := UserOf(tokenReply).realnameStatus != 0)
  {
    var t := LoginByToken(c, user.token, user.id, tokenReply);
    match t.result
    case Err(e) => Step(Err(e), t.client, t.sent)
    case Ok(tokenUser) =>
      Step(Ok(Assign(user.info, tokenUser.info)),
           t.client.(userId := user.id, isRealname := tokenUser.realnameStatus != 0), t.sent)
  }

  /** The credentials object `{ username, password }`. */
  function Credentials(username: string, password: string): Json {
    JObj([("username", JStr(username)), ("password", JStr(password))])
  }

  /** `encryptParams`: AES-128-ECB under the device key read as hex, then
      hex; `None` where the key is not 16 bytes and the cipher throws. */
  function EncryptParams(w: Wire, key: string, params: string): (r: Option<string>)
    ensures r.None? <==> |HexDecode(key)| != 16
  {
    match w.ecb(HexDecode(key), Utf8(params))
    case None => None
    case Some(encrypted) => Some(HexEncode(encrypted))
  }

  /** Node's message for a key of the wrong length. */
  const INVALID_KEY_LENGTH: string := "Invalid key length"

  /** The password `login` sends: its MD5 digest when given in plain text. */
  function SentPassword(w: Wire, password: string, isPlainText: bool): (r: string)
    ensures isPlainText ==> IsHexDigest(r) && r == w.md5(password)
    ensures !isPlainText ==> r == password
  {
    if isPlainText then w.md5(password) else password
  }

  /** `login(username, password, isPlainText)`. The username is recorded
      before anything can fail after the guard. */
  function Login(c: Client, w: Wire, username: string, password: string, isPlainText: bool,
                 reply: Reply<LoginBody>, tokenReply: Reply<TokenBody>): (s: Step<Entries<Json>>)
    ensures c.isLogin ==> s == Step(Err(ClientError(LOGIN_AGAIN, DoNotLoginAgain, None)), c, [])
    ensures !c.isLogin && |HexDecode(c.device.info.key)| != 16 ==>
      s == Step(Err(PlainError(INVALID_KEY_LENGTH)), c.(username := username), [])
    ensures !c.isLogin ==> s.client.username == username
    ensures Consistent(c) ==> Consistent(s.client)
    ensures s.result.Ok? ==>
      && HasUser(tokenReply) && s.client.isLogin
      && s.client.isRealname == (UserOf(tokenReply).realnameStatus != 0)
  {
    if c.isLogin then Step(Err(NewClientError(LOGIN_AGAIN, DoNotLoginAgain, None)), c, [])
    else
      var c1 := c.(username := username);
      var text := w.stringify(Credentials(username, SentPassword(w, password, isPlainText)));
      match EncryptParams(w, c.device.info.key, text)
      case None => Step(Err(PlainError(INVALID_KEY_LENGTH)), c1, [])
      case Some(params) => BaseLogin(c1, params, reply, tokenReply)
  }

  /** With a usable device key, the first request carries the encrypted
      credentials, whose password is hashed exactly when it is given in
      plain text. */
  lemma LoginSendsCredentials(c: Client, w: Wire, username: string, password: string, isPlainText: bool,
                              reply: Reply<LoginBody>, tokenReply: Reply<TokenBody>)
    requires !c.isLogin && |HexDecode(c.device.info.key)| == 16
    ensures var s := Login(c, w, username, password, isPlainText, reply, tokenReply);
      && 1 <= |s.sent| && s.sent[0].BaseLoginRequest?
      && Some(s.sent[0].form[0].1) ==
           EncryptParams(w, c.device.info.key, w.stringify(Credentials(username,
             if isPlainText then w.md5(password) else password)))
  {
  }

  /** A login succeeds exactly when both replies carry a user, and then
      stores the account login's token and id, sets the real-name flag from
      the token login, and returns both user objects merged, the token
      login's fields winning. The login flag is up afterwards exactly on
      success or when the token login's `user` is `null`. */
  lemma LoginOutcome(c: Client, w: Wire, username: string, password: string, isPlainText: bool,
                     reply: Reply<LoginBody>, tokenReply: Reply<TokenBody>, key: string)
    requires !c.isLogin && |HexDecode(c.device.info.key)| == 16
    ensures var s := Login(c, w, username, password, isPlainText, reply, tokenReply);
      && (s.result.Ok? <==> HasUser(reply) && HasUser(tokenReply))
      && (s.client.isLogin <==> s.result.Ok? || (HasUser(reply) && NullUser(tokenReply)))
      && (s.result.Ok? ==>
            s.client.loginToken == UserOf(reply).token
            && s.client.userId == UserOf(reply).id
            && s.client.isRealname == (UserOf(tokenReply).realnameStatus != 0))
      && (s.result.Ok? && DistinctKeys(UserOf(tokenReply).info) ==>
            Get(s.result.value, key) ==
              if HasKey(UserOf(tokenReply).info, key) then Get(UserOf(tokenReply).info, key)
              else Get(UserOf(reply).info, key))
  {
    var s := Login(c, w, username, password, isPlainText, reply, tokenReply);
    var text := w.stringify(Credentials(username, SentPassword(w, password, isPlainText)));
    assert s == BaseLogin(c.(username := username), EncryptParams(w, c.device.info.key, text).value, reply, tokenReply);
    if s.result.Ok? && DistinctKeys(UserOf(tokenReply).info) {
      AssignGet(UserOf(reply).info, UserOf(tokenReply).info, key);
    }
  }

  /** A token login that fails after the guard still leaves the new token
      and user id behind, with the real-name flag as it was and the login
      flag down, except that a `null` user leaves it raised. */
  lemma FailedTokenLoginOverwrites(c: Client, token: string, userId: string, reply: Reply<TokenBody>)
    requires !c.isLogin
    requires !HasUser(reply)
    ensures var s := LoginByToken(c, token, userId, reply);
      && s.result.Err? && s.client.loginToken == token && s.client.userId == userId
      && (s.client.isLogin <==> NullUser(reply)) && s.client.isRealname == c.isRealname
  {
  }

  /** Every operation keeps the client consistent. */
  lemma OperationsPreserveConsistency(c: Client, w: Wire, username: string, password: string, isPlainText: bool,
                                      reply: Reply<LoginBody>, tokenReply: Reply<TokenBody>, token: string, userId: string)
    requires Consistent(c)
    ensures Consistent(Login(c, w, username, password, isPlainText, reply, tokenReply).client)
    ensures Consistent(LoginByToken(c, token, userId, tokenReply).client)
  {
  }
}

=== FILE: mpay_errors.dfy ===
/** The MPay error classes and code tables (lib/core/mpay/errors.ts). */
module MPayErrors {
  import opened Results
  import opened Json

  /** `MPayErrorCodeEnum`. */
  datatype MPayErrorCode =
    | ParamsIncorrect | AccountFormatIncorrect | IncorrectAccountOrPassword | AccountAtRisk
    | NoMPayLogin | DoNotLoginAgain | NetworkError | OtherError
  {
    /** The enum member's string value. */
    function Name(): string {
      match this
      case ParamsIncorrect => "PARAMS_INCORRECT"
      case AccountFormatIncorrect => "ACCOUNT_FORMAT_INCORRECT"
      case IncorrectAccountOrPassword => "INCORRECT_ACCOUNT_OR_PASSWORD"
      case AccountAtRisk => "ACCOUNT_AT_RISK"
      case NoMPayLogin => "NO_MPAY_LOGIN"
      case DoNotLoginAgain => "DO_NOT_LOGIN_AGAIN"
      case NetworkError => "NETWORK_ERROR"
      case OtherError => "OTHER_ERROR"
    }
  }

  /** Different codes have different names. */
  lemma NamesDistinct(a: MPayErrorCode, b: MPayErrorCode)
    ensures a.Name() == b.Name() <==> a == b
  {
  }

  // `MPayRequestErrorCodeEnum`: the numeric codes of the service.
  const PARAMS_INCORRECT: int := 1003
  const ACCOUNT_FORMAT_INCORRECT: int := 1300
  const INCORRECT_ACCOUNT_OR_PASSWORD: int := 1301
  const ACCOUNT_AT_RISK: int := 1351

  /** What an error's `response` holds: the reply body, as delivered. */
  datatype Payload = RawPayload(raw: Json)

  /** A thrown error: one of the three classes, or a plain `Error`. The
      `response` is `None` where the source stores `null`. */
  datatype MPayError =
    | GetDeviceError(message: string, code: MPayErrorCode, response: Option<Payload>)
    | ClientLoginError(message: string, code: MPayErrorCode, response: Option<Payload>)
    | ClientError(message: string, code: MPayErrorCode, response: Option<Payload>)
    | PlainError(message: string)

  const DEVICE_PREFIX: string := "Unable to get mpay device: "
  const LOGIN_PREFIX: string := "Unable to login mpay: "

  /** `new MPayGetDeviceError(message, code, response?)`. */
  function NewGetDeviceError(message: string, code: MPayErrorCode, response: Option<Payload>): (e: MPayError)
    ensures e.GetDeviceError? && e.code == code
    ensures |e.message| == |DEVICE_PREFIX| + |message|
    ensures e.message[..|DEVICE_PREFIX|] == DEVICE_PREFIX && e.message[|DEVICE_PREFIX|..] == message
    ensures e.response.None? <==> response.None?
    ensures response.Some? ==> e.response == response
  {
    GetDeviceError(DEVICE_PREFIX + message, code, response)
  }

  /** `new MPayClientLoginError(message, code, response?)`. */
  function NewClientLoginError(message: string, code: MPayErrorCode, response: Option<Payload>): (e: MPayError)
    ensures e.ClientLoginError? && e.code == code
    ensures |e.message| == |LOGIN_PREFIX| + |message|
    ensures e.message[..|LOGIN_PREFIX|] == LOGIN_PREFIX && e.message[|LOGIN_PREFIX|..] == message
    ensures e.response.None? <==> response.None?
    ensures response.Some? ==> e.response == response
  {
    ClientLoginError(LOGIN_PREFIX + message, code, response)
  }

  /** `new MPayClientError(message, code, response?)`: the message is kept
      as given. */
  function NewClientError(message: string, code: MPayErrorCode, response: Option<Payload>): (e: MPayError)
    ensures e.ClientError? && e.code == code
    ensures e.message == message
    ensures e.response.None? <==> response.None?
    ensures response.Some? ==> e.response == response
  {
    ClientError(message, code, response)
  }

  /** The prefixed constructors are injective in the message. */
  lemma DeviceMessageInjective(m1: string, m2: string, c: MPayErrorCode)
    ensures NewGetDeviceError(m1, c, None).message == NewGetDeviceError(m2, c, None).message <==> m1 == m2
  {
    var e1, e2 := NewGetDeviceError(m1, c, None), NewGetDeviceError(m2, c, None);
    if e1.message == e2.message {
      assert m1 == e1.message[|DEVICE_PREFIX|..];
    }
  }

  lemma LoginMessageInjective(m1: string, m2: string, c: MPayErrorCode)
    ensures NewClientLoginError(m1, c, None).message == NewClientLoginError(m2, c, None).message <==> m1 == m2
  {
    var e1, e2 := NewClientLoginError(m1, c, None), NewClientLoginError(m2, c, None);
    if e1.message == e2.message {
      assert m1 == e1.message[|LOGIN_PREFIX|..];
    }
  }
}

=== FILE: objects.dfy ===
/** JavaScript objects with string keys, as insertion-ordered lists of
    entries: assigning to an existing key replaces its value in place,
    assigning to a new key appends it. */
module Objects {
  import opened Results

  type Entries<V> = seq<(string, V)>

  predicate HasKey<V>(o: Entries<V>, key: string) {
    exists i :: 0 <= i < |o| && o[i].0 == key
  }

  /** No key occurs twice, as in any JavaScript object. */
  predicate DistinctKeys<V>(o: Entries<V>) {
    forall i, j :: 0 <= i < j < |o| ==> o[i].0 != o[j].0
  }

  /** `o[key]`, `None` for `undefined`. */
  function Get<V>(o: Entries<V>, key: string): (r: Option<V>)
    ensures r.Some? <==> HasKey(o, key)
  {
    if |o| == 0 then None
    else if o[0].0 == key then Some(o[0].1)
    else
      var r := Get(o[1..], key);
      assert HasKey(o[1..], key) ==> HasKey(o, key) by {
        if HasKey(o[1..], key) {
          var i :| 0 <= i < |o[1..]| && o[1..][i].0 == key;
          assert o[i + 1].0 == key;
        }
      }
      r
  }

  /** `o[key] = value`. */
  function Put<V>(o: Entries<V>, key: string, value: V): (r: Entries<V>)
    ensures Get(r, key) == Some(value)
    ensures forall k :: k != key ==> Get(r, k) == Get(o, k)
  {
    if |o| == 0 then [(key, value)]
    else if o[0].0 == key then [(key, value)] + o[1..]
    else [o[0]] + Put(o[1..], key, value)
  }

  /** Assigning grows the object only for a new key, and never repeats a
      key. */
  lemma {:induction false} PutKeepsDistinct<V>(o: Entries<V>, key: string, value: V)
    ensures |Put(o, key, value)| == |o| + (if HasKey(o, key) then 0 else 1)
    ensures DistinctKeys(o) ==> DistinctKeys(Put(o, key, value))
  {
    if |o| > 0 && o[0].0 != key {
      var tail := Put(o[1..], key, value);
      PutKeepsDistinct(o[1..], key, value);
      assert HasKey(o, key) <==> HasKey(o[1..], key) by {
        if HasKey(o, key) {
          var i :| 0 <= i < |o| && o[i].0 == key;
          assert o[1..][i - 1].0 == key;
        }
      }
      if DistinctKeys(o) {
        HeadNotInTail(o);
        assert Get(tail, o[0].0) == Get(o[1..], o[0].0);
        assert !HasKey(tail, o[0].0);
      }
    }
  }

  /** In an object without repeated keys the first key does not occur
      again. */
  lemma HeadNotInTail<V>(o: Entries<V>)
    requires DistinctKeys(o) && |o| > 0
    ensures !HasKey(o[1..], o[0].0)
  {
    forall j | 0 <= j < |o[1..]|
      ensures o[1..][j].0 != o[0].0
    {
      assert o[1..][j] == o[j + 1];
    }
  }

  /** `Object.assign(target, source)`: the source's entries assigned in
      order. */
  function Assign<V>(target: Entries<V>, source: Entries<V>): (r: Entries<V>)
    ensures DistinctKeys(target) ==> DistinctKeys(r)
    decreases |source|
  {
    if |source| == 0 then target
    else
      PutKeepsDistinct(target, source[0].0, source[0].1);
      Assign(Put(target, source[0].0, source[0].1), source[1..])
  }

  /** After `Object.assign` a key has the source's value when the source
      has it, and keeps the target's otherwise. */
  lemma {:induction false} AssignGet<V>(target: Entries<V>, source: Entries<V>, key: string)
    requires DistinctKeys(source)
    ensures Get(Assign(target, source), key) == if HasKey(source, key) then Get(source, key) else Get(target, key)
    decreases |source|
  {
    if |source| > 0 {
      var t := Put(target, source[0].0, source[0].1);
      var rest := source[1..];
      assert DistinctKeys(rest);
      AssignGet(t, rest, key);
      if key == source[0].0 {
        HeadNotInTail(source);
      } else {
        assert HasKey(source, key) <==> HasKey(rest, key) by {
          if HasKey(source, key) {
            var i :| 0 <= i < |source| && source[i].0 == key;
            assert rest[i - 1].0 == key;
          }
        }
      }
    }
  }
}

=== FILE: oracles.dfy ===
/** The library primitives the modelled code calls but that are not part
    of the model: MD5, AES and UTF-8 decoding from Node's `crypto` and
    `Buffer`. Each is a function parameter of the operations that use it;
    the properties the model relies on are built into the types, so every
    function of these types is a legitimate implementation. */
module Oracles {
  import opened Encoding
  import opened Results

  /** Thirty-two lower-case hexadecimal digits: `digest('hex')` of MD5. */
  predicate IsHexDigest(s: string) {
    |s| == 32 && forall i :: 0 <= i < |s| ==> IsLowerHex(s[i])
  }

  type HexDigest = s: string | IsHexDigest(s)
    witness "00000000000000000000000000000000"

  /** MD5 over the UTF-8 bytes of a string, as a hexadecimal digest. */
  type Md5 = string -> HexDigest

  /** A block cipher mode applied as `(key, iv, data) -> output`, with
      automatic padding switched off. */
  datatype Cipher = Cipher(
    encrypt: (seq<byte>, seq<byte>, seq<byte>) -> seq<byte>,
    decrypt: (seq<byte>, seq<byte>, seq<byte>) -> seq<byte>)

  /** On whole blocks both directions preserve length, and decryption
      with the same key and IV undoes encryption. */
  ghost predicate InversePair(c: Cipher) {
    && (forall key, iv, data | |data| % 16 == 0 ::
          |c.encrypt(key, iv, data)| == |data|
          && c.decrypt(key, iv, c.encrypt(key, iv, data)) == data)
    && (forall key, iv, data | |data| % 16 == 0 :: |c.decrypt(key, iv, data)| == |data|)
  }

  /** AES-128-CBC without automatic padding. */
  type AesCbc = c: Cipher | InversePair(c)
    witness Cipher((key, iv, data) => data, (key, iv, data) => data)

  /** Encryption of whole blocks keeps the length and is undone by
      decryption with the same key and IV. */
  lemma CbcRoundTrip(c: AesCbc, key: seq<byte>, iv: seq<byte>, data: seq<byte>)
    requires |data| % 16 == 0
    ensures |c.encrypt(key, iv, data)| == |data|
    ensures c.decrypt(key, iv, c.encrypt(key, iv, data)) == data
  {
  }

  /** Creating an AES-128 cipher fails exactly when the key is not 16
      bytes long. */
  ghost predicate ChecksKeyLength(f: (seq<byte>, seq<byte>) -> Option<seq<byte>>) {
    forall key, data :: f(key, data).None? <==> |key| != 16
  }

  /** AES-128-ECB with Node's default PKCS#7 padding: `(key, plaintext)`,
      `None` where `createCipheriv` throws. */
  type AesEcb = f: (seq<byte>, seq<byte>) -> Option<seq<byte>> | ChecksKeyLength(f)
    witness (key: seq<byte>, data: seq<byte>) => if |key| == 16 then Some(data) else None

  predicate AllAscii(b: seq<byte>) {
    forall i :: 0 <= i < |b| ==> b[i] < 128
  }

  /** Bytes read one character each. */
  function Latin1(b: seq<byte>): (s: string)
    ensures |s| == |b|
  {
    seq(|b|, i requires 0 <= i < |b| => b[i] as char)
  }

  /** A UTF-8 decoder reads ASCII bytes as the characters they encode. */
  ghost predicate DecodesAscii(f: seq<byte> -> string) {
    forall b :: AllAscii(b) ==> f(b) == Latin1(b)
  }

  /** `buffer.toString()`: UTF-8 decoding. */
  type Utf8Decoder = f: seq<byte> -> string | DecodesAscii(f)
    witness Latin1

  /** Decoding the UTF-8 encoding of an ASCII string gives it back. */
  lemma AsciiDecodes(dec: Utf8Decoder, s: string)
    requires IsAscii(s)
    ensures dec(Utf8(s)) == s
  {
    AsciiUtf8(s);
    assert AllAscii(Utf8(s));
    assert Latin1(Utf8(s)) == s;
  }
}

=== FILE: results.dfy ===
/** Optional values and success-or-failure results, used wherever the
    modelled code returns `undefined`/`null` or throws. */
module Results {

  datatype Option<+T> = None | Some(value: T) {

    /** The carried value, or `default` when there is none. */
    function GetOr(default: T): T {
      match this
      case Some(v) => v
      case None => default
    }
  }

  /** `Ok` is a normal return, `Err` a thrown error. */
  datatype Result<+T, +E> = Ok(value: T) | Err(error: E) {

    predicate IsFailure() {
      Err?
    }

    function PropagateFailure<U>(): Result<U, E>
      requires Err?
    {
      Err(error)
    }

    function Extract(): T
      requires Ok?
    {
      value
    }
  }
}

=== FILE: x19_cipher.dfy ===
/** Body framing of lib/core/x19/cipher.ts: `X19PickKey`, `X19HttpEncrypt`
    and `X19HttpDecrypt`. AES-128-CBC is the `AesCbc` oracle, and the two
    random choices of the encryption (filler and IV characters, and the
    key index) are an `Entropy` input. */
module X19Cipher {
  import opened Results
  import opened Encoding
  import opened Oracles
  import opened X19Utils

  // ---------------------------------------------------------------------
  // X19PickKey

  /** The sixteen AES keys, indexed by a selector nibble. */
  const KEYS: seq<string> := [
    "MK6mipwmOUedplb6", "OtEylfId6dyhrfdn", "VNbhn5mvUaQaeOo9", "bIEoQGQYjKd02U0J",
    "fuaJrPwaH2cfXXLP", "LEkdyiroouKQ4XN1", "jM1h27H4UROu427W", "DhReQada7gZybTDk",
    "ZGXfpSTYUvcdKqdY", "AZwKf7MWZrJpGR5W", "amuvbcHw38TcSyPU", "SI4QotspbjhyFdT0",
    "VP4dhjKnDGlSJtbB", "UXDZx4KhZywQ2tcn", "NIK73ZNvNqzva4kd", "WeiW7qU766Q1YQZI"
  ]

  /** `query >> 4 & 0xf`: bits 4 to 7 of the two's complement form. With
      Euclidean division this is `(query / 16) % 16` for every integer. */
  function Nibble(query: int): (r: int)
    ensures 0 <= r < 16
  {
    (query / 16) % 16
  }

  /** The position of a key in the table, read from its first two
      characters (which differ between all sixteen keys). */
  function KeyIndex(key: string): int
    requires |key| >= 2
  {
    match (key[0], key[1])
    case ('M', 'K') => 0 case ('O', 't') => 1 case ('V', 'N') => 2 case ('b', 'I') => 3
    case ('f', 'u') => 4 case ('L', 'E') => 5 case ('j', 'M') => 6 case ('D', 'h') => 7
    case ('Z', 'G') => 8 case ('A', 'Z') => 9 case ('a', 'm') => 10 case ('S', 'I') => 11
    case ('V', 'P') => 12 case ('U', 'X') => 13 case ('N', 'I') => 14 case ('W', 'e') => 15
    case _ => -1
  }

  lemma KeyShape(i: int)
    requires 0 <= i < 16
    ensures |KEYS[i]| == 16
    ensures KeyIndex(KEYS[i]) == i
  {
  }

  /** `X19PickKey`. */
  function PickKey(query: int): (key: string)
    ensures |key| == 16
    ensures key in KEYS
    ensures KeyIndex(key) == Nibble(query)
  {
    KeyShape(Nibble(query));
    KEYS[Nibble(query)]
  }

  /** Two queries select the same key exactly when bits 4 to 7 agree. */
  lemma PickKeySameNibble(q1: int, q2: int)
    ensures PickKey(q1) == PickKey(q2) <==> Nibble(q1) == Nibble(q2)
  {
  }

  /** Bits 0 to 3 and the bits above 7 do not matter. */
  lemma PickKeyOtherBits(query: int, high: int, low: int)
    requires 0 <= low < 16
    ensures PickKey(256 * high + 16 * Nibble(query) + low) == PickKey(query)
  {
    var n := Nibble(query);
    var q := 256 * high + 16 * n + low;
    assert q / 16 == 16 * high + n;
    assert Nibble(q) == n;
  }

  // ---------------------------------------------------------------------
  // X19HttpEncrypt

  /** The random choices one encryption makes: sixteen dictionary draws
      for the filler, the `randomInt(0, 14)` key index, and sixteen draws
      for the IV. */
  datatype Entropy = Entropy(fill: seq<Draw>, keyIndex: int, iv: seq<Draw>)

  predicate ValidEntropy(e: Entropy) {
    |e.fill| == 16 && 0 <= e.keyIndex < 14 && |e.iv| == 16
  }

  /** `Math.ceil((n + 16) / 16) * 16`: room for `n` plus at least sixteen
      bytes, rounded up to whole blocks. */
  function PaddedSize(n: nat): (r: nat)
    ensures r % 16 == 0
    ensures n + 16 <= r < n + 32
  {
    ((n + 31) / 16) * 16
  }

  /** `randomInt(0, 14) << 4 | 2`. */
  function Selector(keyIndex: int): (r: byte)
    requires 0 <= keyIndex < 14
    ensures r / 16 == keyIndex && r % 16 == 2
  {
    keyIndex * 16 + 2
  }

  /** The plaintext block sequence: the buffer of `PaddedSize` bytes into
      which `body + filler` is written as UTF-8, whole characters only,
      the rest staying zero. */
  function Plaintext(bodyIn: string, filler: string): (r: seq<byte>)
    ensures |r| == PaddedSize(Utf16Length(bodyIn))
  {
    var size := PaddedSize(Utf16Length(bodyIn));
    var written := FitUtf8(bodyIn + filler, size);
    written + Zeros(size - |written|)
  }

  /** `X19HttpEncrypt(bodyIn)`: IV, then the ciphertext, then the key
      selector byte. */
  function HttpEncrypt(cbc: AesCbc, bodyIn: string, e: Entropy): (r: seq<byte>)
    requires ValidEntropy(e)
    ensures |r| == 16 + PaddedSize(Utf16Length(bodyIn)) + 1
    ensures r[|r| - 1] / 16 == e.keyIndex && r[|r| - 1] % 16 == 2
    ensures r[..16] == IvBytes(e)
  {
    var body := Plaintext(bodyIn, RandomString(16, e.fill));
    var keyQuery := Selector(e.keyIndex);
    var initVector := IvBytes(e);
    var key := Utf8(PickKey(keyQuery));
    CbcRoundTrip(cbc, key, initVector, body);
    Frame(initVector, cbc.encrypt(key, initVector, body), keyQuery)
  }

  /** `Buffer.concat([iv, encrypted, keyQueryBuffer])`. */
  function Frame(iv: seq<byte>, encrypted: seq<byte>, selector: byte): (r: seq<byte>)
    requires |iv| == 16
    ensures |r| == |encrypted| + 17
    ensures r[..16] == iv
    ensures r[16..|r| - 1] == encrypted
    ensures r[|r| - 1] == selector
  {
    iv + encrypted + [selector]
  }

  /** `Buffer.from(initVector)` for the random IV string. */
  function IvBytes(e: Entropy): (r: seq<byte>)
    requires ValidEntropy(e)
    ensures |r| == 16
    ensures forall i :: 0 <= i < 16 ==> IsAlphanumeric(r[i] as char)
  {
    var initVector := RandomString(16, e.iv);
    AlphanumericAscii(initVector);
    AsciiUtf8(initVector);
    Utf8(initVector)
  }

  lemma AlphanumericAscii(s: string)
    requires forall i :: 0 <= i < |s| ==> IsAlphanumeric(s[i])
    ensures IsAscii(s)
  {
  }

  /** For an ASCII body of `n` characters the frame is
      `16 + ceil((n + 16) / 16) * 16 + 1` bytes long. */
  lemma AsciiFrameLength(cbc: AesCbc, bodyIn: string, e: Entropy)
    requires ValidEntropy(e) && IsAscii(bodyIn)
    ensures |HttpEncrypt(cbc, bodyIn, e)| == 16 + ((|bodyIn| + 31) / 16) * 16 + 1
  {
    AsciiUtf16Length(bodyIn);
  }

  /** Decryption reads a frame the way encryption lays it out: the key
      chosen by the selector byte, the IV and the ciphertext in between. */
  lemma DecryptReadsFrame(cbc: AesCbc, decode: Utf8Decoder, iv: seq<byte>, encrypted: seq<byte>, selector: byte)
    requires |iv| == 16 && |encrypted| >= 16 && |encrypted| % 16 == 0
    ensures HttpDecrypt(cbc, decode, Frame(iv, encrypted, selector)) ==
      Ok(decode(StripTail(cbc.decrypt(Utf8(PickKey(selector)), iv, encrypted))))
  {
    var r := Frame(iv, encrypted, selector);
    assert r[16..|r| - 1] == encrypted;
  }

  // ---------------------------------------------------------------------
  // X19HttpDecrypt: the tail strip

  /** The number of non-zero bytes in `d[lo..hi]`. */
  function NonZeroIn(d: seq<byte>, lo: int, hi: int): (r: nat)
    requires 0 <= lo && hi <= |d|
    ensures r <= if hi <= lo then 0 else hi - lo
    decreases hi - lo
  {
    if hi <= lo then 0 else NonZeroIn(d, lo, hi - 1) + (if d[hi - 1] != 0 then 1 else 0)
  }

  /** The `while (drop < 16)` loop, from `dropPos` with `drop` non-zero
      bytes already counted; the result is the final `dropPos`. Below
      index 0 the read yields `undefined`, which is `!== 0` and counts. */
  function ScanBack(d: seq<byte>, dropPos: int, drop: nat): int
    requires dropPos < |d| && drop <= 16
    decreases 16 - drop + (if dropPos >= 0 then dropPos + 1 else 0)
  {
    if drop >= 16 then dropPos
    else if dropPos >= 0 && d[dropPos] == 0 then ScanBack(d, dropPos - 1, drop)
    else ScanBack(d, dropPos - 1, drop + 1)
  }

  /** `buffer.subarray(0, end)`: a negative end counts back from the
      length and stops at zero. */
  function Prefix(d: seq<byte>, end: int): (r: seq<byte>)
    ensures r <= d
    ensures |r| == if end < 0 then Max(|d| + end, 0) else Min(end, |d|)
  {
    d[..if end < 0 then Max(|d| + end, 0) else Min(end, |d|)]
  }

  function Max(a: int, b: int): int { if a < b then b else a }
  function Min(a: int, b: int): int { if a < b then a else b }

  /** The `remove tail` step of `X19HttpDecrypt`. */
  function StripTail(d: seq<byte>): (r: seq<byte>)
    ensures r <= d
    ensures NonZeroIn(d, 0, |d|) >= 16 ==>
      |r| < |d| && d[|r|] != 0 && NonZeroIn(d, |r|, |d|) == 16
    ensures NonZeroIn(d, 0, |d|) < 16 ==>
      |r| == Max(|d| - (16 - NonZeroIn(d, 0, |d|)), 0)
  {
    ScanWhole(d);
    Prefix(d, ScanBack(d, |d| - 1, 0) + 1)
  }

  lemma ScanWhole(d: seq<byte>)
    ensures NonZeroIn(d, 0, |d|) >= 16 ==>
      var pos := ScanBack(d, |d| - 1, 0);
      -1 <= pos < |d| - 1 && d[pos + 1] != 0 && NonZeroIn(d, pos + 1, |d|) == 16
    ensures NonZeroIn(d, 0, |d|) < 16 ==>
      ScanBack(d, |d| - 1, 0) == -1 - (16 - NonZeroIn(d, 0, |d|))
  {
    if NonZeroIn(d, 0, |d|) >= 16 {
      ScanBackFinds(d, |d| - 1, 0);
    } else {
      ScanBackRunsOut(d, |d| - 1, 0);
    }
  }

  /** With enough non-zero bytes at or below `dropPos`, the loop stops
      just below the byte that completes the count. */
  lemma {:induction false} ScanBackFinds(d: seq<byte>, dropPos: int, drop: nat)
    requires -1 <= dropPos < |d| && drop <= 16
    requires NonZeroIn(d, 0, dropPos + 1) >= 16 - drop
    ensures -1 <= ScanBack(d, dropPos, drop) <= dropPos
    ensures NonZeroIn(d, ScanBack(d, dropPos, drop) + 1, dropPos + 1) == 16 - drop
    ensures ScanBack(d, dropPos, drop) < dropPos ==> d[ScanBack(d, dropPos, drop) + 1] != 0
    decreases 16 - drop + dropPos + 1
  {
    if drop < 16 {
      var r := ScanBack(d, dropPos, drop);
      if d[dropPos] == 0 {
        ScanBackFinds(d, dropPos - 1, drop);
      } else {
        ScanBackFinds(d, dropPos - 1, drop + 1);
      }
    }
  }

  /** Below index 0 every step counts, so the loop ends `16 - drop` lower. */
  lemma {:induction false} ScanBackBelowZero(d: seq<byte>, dropPos: int, drop: nat)
    requires dropPos < 0 && drop <= 16
    ensures ScanBack(d, dropPos, drop) == dropPos - (16 - drop)
    decreases 16 - drop
  {
    if drop < 16 {
      ScanBackBelowZero(d, dropPos - 1, drop + 1);
    }
  }

  /** With too few non-zero bytes the loop runs past index 0. */
  lemma {:induction false} ScanBackRunsOut(d: seq<byte>, dropPos: int, drop: nat)
    requires -1 <= dropPos < |d| && drop <= 16
    requires NonZeroIn(d, 0, dropPos + 1) < 16 - drop
    ensures ScanBack(d, dropPos, drop) == -1 - (16 - drop - NonZeroIn(d, 0, dropPos + 1))
    decreases dropPos + 1
  {
    if dropPos == -1 {
      ScanBackBelowZero(d, dropPos, drop);
    } else if d[dropPos] == 0 {
      ScanBackRunsOut(d, dropPos - 1, drop);
    } else {
      ScanBackRunsOut(d, dropPos - 1, drop + 1);
    }
  }

  const DECRYPT_TOO_SHORT: string := "Decrypt response is too short"
  /** What OpenSSL reports when the ciphertext is not whole blocks. */
  const WRONG_FINAL_BLOCK_LENGTH: string := "wrong final block length"

  /** `X19HttpDecrypt(responseIn)`: the key from the last byte, the IV
      from the first sixteen, the ciphertext in between; the decrypted
      buffer loses its filler and padding and is read as UTF-8. */
  function HttpDecrypt(cbc: AesCbc, decode: Utf8Decoder, responseIn: seq<byte>): (r: Result<string, string>)
    ensures |responseIn| < 18 ==> r == Err(DECRYPT_TOO_SHORT)
    ensures |responseIn| >= 18 && (|responseIn| - 17) % 16 != 0 ==> r == Err(WRONG_FINAL_BLOCK_LENGTH)
    ensures r.Ok? <==> |responseIn| >= 18 && (|responseIn| - 17) % 16 == 0
  {
    if |responseIn| < 18 then Err(DECRYPT_TOO_SHORT)
    else
      var key := PickKey(responseIn[|responseIn| - 1]);
      var iv := responseIn[..16];
      var data := responseIn[16..|responseIn| - 1];
      if |data| % 16 != 0 then Err(WRONG_FINAL_BLOCK_LENGTH)
      else Ok(decode(StripTail(cbc.decrypt(Utf8(key), iv, data))))
  }

  // ---------------------------------------------------------------------
  // The round trip

  lemma {:induction false} NonZeroInSplit(d: seq<byte>, lo: int, mid: int, hi: int)
    requires 0 <= lo <= mid <= hi <= |d|
    ensures NonZeroIn(d, lo, hi) == NonZeroIn(d, lo, mid) + NonZeroIn(d, mid, hi)
    decreases hi
  {
    if hi > mid {
      NonZeroInSplit(d, lo, mid, hi - 1);
    }
  }

  lemma {:induction false} NonZeroInAll(d: seq<byte>, lo: int, hi: int)
    requires 0 <= lo <= hi <= |d|
    requires forall i :: lo <= i < hi ==> d[i] != 0
    ensures NonZeroIn(d, lo, hi) == hi - lo
    decreases hi
  {
    if hi > lo {
      NonZeroInAll(d, lo, hi - 1);
    }
  }

  lemma {:induction false} NonZeroInNone(d: seq<byte>, lo: int, hi: int)
    requires 0 <= lo <= hi <= |d|
    requires forall i :: lo <= i < hi ==> d[i] == 0
    ensures NonZeroIn(d, lo, hi) == 0
    decreases hi
  {
    if hi > lo {
      NonZeroInNone(d, lo, hi - 1);
    }
  }

  /** Counting from an earlier non-zero byte finds at least one more;
      counting from a later position finds at most the bytes skipped
      fewer. */
  lemma CountFrom(d: seq<byte>, k: int, n: int)
    requires 0 <= k < |d| && 0 <= n <= |d|
    ensures k < n && d[k] != 0 ==> NonZeroIn(d, k, |d|) >= 1 + NonZeroIn(d, n, |d|)
    ensures k <= n ==> NonZeroIn(d, k, |d|) <= n - k + NonZeroIn(d, n, |d|)
  {
    if k <= n {
      NonZeroInSplit(d, k, n, |d|);
      if k < n {
        NonZeroInSplit(d, k, k + 1, n);
      }
    }
  }

  /** Sixteen non-zero filler bytes followed by zeros are exactly what
      the tail strip removes, whatever precedes them. */
  lemma StripFiller(a: seq<byte>, f: seq<byte>, z: seq<byte>)
    requires |f| == 16 && forall i :: 0 <= i < 16 ==> f[i] != 0
    requires forall i :: 0 <= i < |z| ==> z[i] == 0
    ensures StripTail(a + f + z) == a
  {
    var d := a + f + z;
    var n, m := |a|, |a| + 16;
    NonZeroInAll(d, n, m);
    NonZeroInNone(d, m, |d|);
    NonZeroInSplit(d, n, m, |d|);
    NonZeroInSplit(d, 0, n, |d|);
    var r := StripTail(d);
    var k := |r|;
    assert forall i :: m <= i < |d| ==> d[i] == z[i - m];
    CountFrom(d, k, n);
    CountFrom(d, k, m);
    assert k == n;
    assert r == d[..n];
    assert d[..n] == a;
  }

  /** An ASCII body and its filler fit the buffer whole. */
  lemma AsciiPlaintext(bodyIn: string, filler: string)
    requires IsAscii(bodyIn)
    requires |filler| == 16 && forall i :: 0 <= i < 16 ==> IsAlphanumeric(filler[i])
    ensures |Utf8(filler)| == 16 && forall i :: 0 <= i < 16 ==> Utf8(filler)[i] != 0
    ensures Plaintext(bodyIn, filler) ==
      Utf8(bodyIn) + Utf8(filler) + Zeros(PaddedSize(|bodyIn|) - |bodyIn| - 16)
  {
    AsciiUtf16Length(bodyIn);
    AsciiUtf8(bodyIn);
    AlphanumericAscii(filler);
    AsciiUtf8(filler);
    Utf8Append(bodyIn, filler);
    assert forall i :: 0 <= i < 16 ==> Utf8(filler)[i] == filler[i] as int;
  }

  /** `X19HttpDecrypt(X19HttpEncrypt(body)) == body` for ASCII bodies. */
  lemma RoundTrip(cbc: AesCbc, decode: Utf8Decoder, bodyIn: string, e: Entropy)
    requires ValidEntropy(e) && IsAscii(bodyIn)
    ensures HttpDecrypt(cbc, decode, HttpEncrypt(cbc, bodyIn, e)) == Ok(bodyIn)
  {
    var filler := RandomString(16, e.fill);
    var body := Plaintext(bodyIn, filler);
    AsciiPlaintext(bodyIn, filler);
    AsciiUtf16Length(bodyIn);
    var keyQuery := Selector(e.keyIndex);
    var key := Utf8(PickKey(keyQuery));
    var iv := IvBytes(e);
    CbcRoundTrip(cbc, key, iv, body);
    var frame := HttpEncrypt(cbc, bodyIn, e);
    assert frame == Frame(iv, cbc.encrypt(key, iv, body), keyQuery);
    assert PickKey(frame[|frame| - 1]) == PickKey(keyQuery);
    assert cbc.decrypt(key, frame[..16], frame[16..|frame| - 1]) == body;
    StripFiller(Utf8(bodyIn), Utf8(filler), Zeros(PaddedSize(|bodyIn|) - |bodyIn| - 16));
    AsciiDecodes(decode, bodyIn);
  }
}

=== FILE: x19_client.dfy ===
/** `X19BaseClient` (lib/core/x19/base_client.ts) as a state machine. Each
    operation takes the client state and the server's replies and returns
    a `Step`: the outcome, the new state, and the requests sent on the
    way. The cron job that refreshes the token is a `RefreshJob` flag; its
    firing is the `Tick` operation. */
module X19Client {
  import opened Results
  import opened Encoding
  import opened Json
  import opened Oracles
  import opened X19Errors
  import X19Token
  import X19Cipher

  /** `#refreshTokenSchedule`: `null`, a live job, or a cancelled one. */
  datatype RefreshJob = NoJob | Scheduled | Cancelled

  datatype Client = Client(
    isLogin: bool,
    isLogout: bool,
    sAuthJson: string,
    coreServerUrl: string,
    userAgent: string,
    udid: string,
    version: string,
    job: RefreshJob,
    entityId: string,
    loginToken: string)

  /** The library code the client calls: MD5, AES-128-CBC, UTF-8
      decoding, `JSON.stringify`, and `JSON.parse` of an authentication
      reply (`None` where it would throw). */
  datatype Wire = Wire(
    md5: Md5,
    cbc: AesCbc,
    decode: Utf8Decoder,
    stringify: Stringify,
    parseAuth: string -> Option<Body<AuthResponse>>)

  /** A request as it leaves the client. */
  datatype Request =
    | LoginOtpRequest(url: string, sAuthJson: string)
    | AuthRequest(url: string, userAgent: string, userId: string, userToken: string, payload: seq<byte>)
    | PlainRequest(url: string, headers: map<string, string>, data: string)

  /** A reply of the login-OTP or a plain request: axios either throws or
      delivers the parsed body. */
  datatype Reply<T> = NoReply | Delivered(body: Body<T>)

  /** An outcome that reports the network error. */
  predicate IsNetworkError<T>(r: Result<T, X19Error>) {
    r.Err? && (r.error.ClientError? || r.error.ClientLoginError?) && r.error.code == NetworkError
  }

  datatype Step<T> = Step(result: Result<T, X19Error>, client: Client, sent: seq<Request>)

  /** The state right after `new X19BaseClient(...)`. */
  function NewClient(sAuthJson: string, coreServerUrl: string, version: string, userAgent: string, udid: string): (c: Client)
    ensures Consistent(c) && !c.isLogin && !c.isLogout && c.job == NoJob
  {
    Client(false, false, sAuthJson, coreServerUrl, userAgent, udid, version, NoJob, "", "")
  }

  /** What holds in every reachable state: the logout flag is never
      raised, a job exists exactly when a login succeeded, and before that
      the entity id and token are still empty. */
  predicate Consistent(c: Client) {
    && !c.isLogout
    && (c.isLogin <==> c.job != NoJob)
    && (!c.isLogin ==> c.entityId == "" && c.loginToken == "")
  }

  // ---------------------------------------------------------------------
  // Getters

  /** `uid`: the entity id, which is empty until a login succeeds and is
      the one `dumpUserData` reports after it. */
  function Uid(c: Client): (r: string)
    ensures Consistent(c) && !c.isLogin ==> r == ""
    ensures c.isLogin ==> DumpUserData(c).Ok? && r == DumpUserData(c).value.entityId
  {
    c.entityId
  }

  /** `token`: returns the entity id, not the login token, so after a
      login it differs from the token `dumpUserData` reports whenever the
      two differ. */
  function Token(c: Client): (r: string)
    ensures r == Uid(c)
    ensures c.isLogin ==> r == DumpUserData(c).value.entityId
    ensures c.isLogin && c.entityId != c.loginToken ==> r != DumpUserData(c).value.token
  {
    c.entityId
  }

  datatype UserData = UserData(entityId: string, token: string)

  /** `dumpUserData`. */
  function DumpUserData(c: Client): (r: Result<UserData, X19Error>)
    ensures r.Err? <==> !c.isLogin
    ensures r.Err? ==> r.error == ClientError("please login x19 first", NotLogin, None)
    ensures r.Ok? ==> r.value.entityId == c.entityId && r.value.token == c.loginToken
  {
    if !c.isLogin then Err(NewClientError("please login x19 first", NotLogin, None))
    else Ok(UserData(c.entityId, c.loginToken))
  }

  // ---------------------------------------------------------------------
  // Authentication

  const LOGIN_OTP_PATH: string := "/login-otp"
  const AUTH_OTP_PATH: string := "/authentication-otp"
  const REFRESH_PATH: string := "/authentication/update"
  /** The `SyntaxError` text for an unparsable reply is the engine's; the
      model only needs it to be a plain error. */
  const JSON_SYNTAX_ERROR: string := "Unexpected token in JSON"
  /** The `TypeError` that reading `code` of a `null` body throws. */
  const NULL_READ_ERROR: string := NullRead("code")

  /** The error `authOTPBase` throws for a non-zero code. */
  function AuthFailure(resp: AuthResponse): (e: X19Error)
    requires resp.code != 0
    ensures e.ClientLoginError?
    ensures e == NewClientLoginError(resp.message, e.code, e.response)
    ensures e.code == AccountBanned <==> resp.code == BANNED
    ensures e.code == NotRealname <==> resp.code == NOT_REALNAME
    ensures e.code == AntiAddition <==> resp.code == ANTI_ADDICTION
    ensures e.code == AuthOTPError <==> resp.code !in {BANNED, NOT_REALNAME, ANTI_ADDICTION}
    ensures e.response.Some? <==> e.code in {AccountBanned, AuthOTPError}
    ensures e.response.Some? ==> e.response == Some(AuthPayload(resp))
  {
    if resp.code == BANNED then NewClientLoginError(resp.message, AccountBanned, Some(AuthPayload(resp)))
    else if resp.code == NOT_REALNAME then NewClientLoginError(resp.message, NotRealname, None)
    else if resp.code == ANTI_ADDICTION then NewClientLoginError(resp.message, AntiAddition, None)
    else NewClientLoginError(resp.message, AuthOTPError, Some(AuthPayload(resp)))
  }

  /** The reply to an authentication request: axios throws, or delivers
      the raw bytes. */
  datatype AuthReply = AuthNoReply | AuthBytes(bytes: seq<byte>)

  /** `authOTPBase(body, isRefreshToken)`: encrypts and signs the body,
      posts it, and on code 0 stores the new entity id and login token. */
  function AuthOTPBase(c: Client, w: Wire, body: Json, isRefreshToken: bool, reply: AuthReply, e: X19Cipher.Entropy): (s: Step<()>)
    requires X19Cipher.ValidEntropy(e)
    ensures |s.sent| == 1 && s.sent[0].AuthRequest?
    ensures s.sent[0].url == c.coreServerUrl + (if isRefreshToken then REFRESH_PATH else AUTH_OTP_PATH)
    ensures s.sent[0].userId == c.entityId
    ensures s.sent[0].userToken ==
      X19Token.EncryptHttpToken(w.md5, c.loginToken, if isRefreshToken then REFRESH_PATH else AUTH_OTP_PATH, w.stringify(body))
    ensures s.result.Ok? ==> s.client == c.(entityId := s.client.entityId, loginToken := s.client.loginToken)
    ensures s.result.Err? ==> s.client == c
  {
    var authData := w.stringify(body);
    var encryptedAuthData := X19Cipher.HttpEncrypt(w.cbc, authData, e);
    var path := if isRefreshToken then REFRESH_PATH else AUTH_OTP_PATH;
    var token := X19Token.EncryptHttpToken(w.md5, c.loginToken, path, authData);
    var sent := [AuthRequest(c.coreServerUrl + path, c.userAgent, c.entityId, token, encryptedAuthData)];
    var outcome := AuthOutcome(c, ReadAuth(w, reply));
    Step(outcome.result, outcome.client, sent)
  }

  /** An authentication reply as far as the client gets in reading it:
      nothing delivered, a decryption or parse failure with its message,
      or a body. */
  datatype AuthRead = NotDelivered | Unreadable(message: string) | Read(body: Body<AuthResponse>)

  /** `X19HttpDecrypt` and then `JSON.parse` of the delivered bytes. */
  function ReadAuth(w: Wire, reply: AuthReply): AuthRead {
    match reply
    case AuthNoReply => NotDelivered
    case AuthBytes(bytes) =>
      match X19Cipher.HttpDecrypt(w.cbc, w.decode, bytes)
      case Err(m) => Unreadable(m)
      case Ok(text) =>
        match w.parseAuth(text)
        case None => Unreadable(JSON_SYNTAX_ERROR)
        case Some(body) => Read(body)
  }

  /** Nothing is read exactly when nothing was delivered. */
  lemma NothingReadWithoutReply(w: Wire, reply: AuthReply)
    ensures ReadAuth(w, reply).NotDelivered? <==> reply.AuthNoReply?
  {
  }

  /** What was read is a record with code 0. */
  predicate ReadAccepted(read: AuthRead) {
    read.Read? && read.body.Shaped? && read.body.resp.code == 0
  }

  /** The reply decrypts and parses to a record with code 0. */
  predicate AuthAccepted(w: Wire, reply: AuthReply) {
    ReadAccepted(ReadAuth(w, reply))
  }

  /** What `authOTPBase` makes of the reply once its request is out. */
  function AuthOutcome(c: Client, read: AuthRead): (s: Step<()>)
    ensures s.result.Ok? ==> s.client == c.(entityId := s.client.entityId, loginToken := s.client.loginToken)
    ensures s.result.Err? ==> s.client == c
  {
    match read
    case NotDelivered => Step(Err(NewClientLoginError("AuthOTP: network error", NetworkError, None)), c, [])
    case Unreadable(m) => Step(Err(PlainError(m)), c, [])
    case Read(Unshaped(raw)) =>
      if raw == JNull then Step(Err(PlainError(NULL_READ_ERROR)), c, [])
      else Step(Err(NewClientLoginError(MemberText(raw, "message"), AuthOTPError, Some(RawPayload(raw)))), c, [])
    case Read(Shaped(resp)) =>
      if resp.code != 0 then Step(Err(AuthFailure(resp)), c, [])
      else Step(Ok(()), c.(entityId := resp.entity.entityId, loginToken := resp.entity.token), [])
  }

  /** The outcome by what was read: success exactly for code 0, with the
      reply's entity id and token, and the network error exactly when
      nothing was delivered. */
  lemma AuthOutcomeCases(c: Client, read: AuthRead)
    ensures var s := AuthOutcome(c, read);
      && (s.result.Ok? <==> ReadAccepted(read))
      && (s.result.Ok? ==> s.client.entityId == read.body.resp.entity.entityId
                           && s.client.loginToken == read.body.resp.entity.token)
      && (IsNetworkError(s.result) <==> read.NotDelivered?)
  {
    var s := AuthOutcome(c, read);
    match read
    case NotDelivered =>
    case Unreadable(m) =>
      assert s.result == Err(PlainError(m));
    case Read(Unshaped(raw)) =>
      assert !IsNetworkError(s.result);
    case Read(Shaped(resp)) =>
      assert !IsNetworkError(s.result);
  }

  /** Only a code-0 reply replaces the entity id and login token, and then
      with the reply's values; every other outcome leaves both as they were. */
  lemma AuthUpdatesOnlyOnSuccess(c: Client, w: Wire, body: Json, isRefreshToken: bool, reply: AuthReply, e: X19Cipher.Entropy)
    requires X19Cipher.ValidEntropy(e)
    ensures var s := AuthOTPBase(c, w, body, isRefreshToken, reply, e);
      && (s.result.Ok? <==> AuthAccepted(w, reply))
      && (s.result.Ok? ==>
            s.client.entityId == ReadAuth(w, reply).body.resp.entity.entityId
            && s.client.loginToken == ReadAuth(w, reply).body.resp.entity.token)
      && (s.result.Err? ==> s.client.entityId == c.entityId && s.client.loginToken == c.loginToken)
  {
    AuthOutcomeCases(c, ReadAuth(w, reply));
  }

  /** A reply that decrypts and parses, but not to code 0, raises a login
      error: the mapped one for a numeric code, and the catch-all
      `AuthOTPError` with the body attached when `code` is not a number
      (reading it from a `null` body throws a `TypeError` instead). */
  lemma AuthCodeMapping(c: Client, w: Wire, body: Json, isRefreshToken: bool, reply: AuthReply, e: X19Cipher.Entropy)
    requires X19Cipher.ValidEntropy(e)
    ensures var r := AuthOTPBase(c, w, body, isRefreshToken, reply, e).result;
      match ReadAuth(w, reply)
      case Read(Shaped(resp)) => resp.code != 0 ==> r == Err(AuthFailure(resp))
      case Read(Unshaped(raw)) =>
        && (raw == JNull ==> r == Err(PlainError(NULL_READ_ERROR)))
        && (raw != JNull ==> r == Err(ClientLoginError(LOGIN_PREFIX + MemberText(raw, "message"), AuthOTPError, Some(RawPayload(raw)))))
      case Unreadable(m) => r == Err(PlainError(m))
      case NotDelivered => r == Err(ClientLoginError(LOGIN_PREFIX + "AuthOTP: network error", NetworkError, None))
  {
  }

  /** The `saData` object sent with the authentication body: fifteen
      members, of which the MAC address is the upper-case hexadecimal text
      of the six drawn bytes, the disk id the lower-case text of the four
      drawn bytes, and the udid the client's. */
  function SaData(c: Client, macAddr: seq<byte>, disk: seq<byte>): (r: Json)
    ensures r.JObj? && |r.members| == 15
    ensures r.members[2] == ("mac_addr", JStr(AsciiUpper(HexEncode(macAddr))))
    ensures r.members[3] == ("udid", JStr(c.udid))
    ensures r.members[7] == ("disk", JStr(HexEncode(disk)))
  {
    JObj([
      ("os_name", JStr("windows")),
      ("os_ver", JStr("Microsoft Windows 11")),
      ("mac_addr", JStr(AsciiUpper(HexEncode(macAddr)))),
      ("udid", JStr(c.udid)),
      ("app_ver", JStr("0.0.0.0")),
      ("sdk_ver", JStr("")),
      ("network", JStr("")),
      ("disk", JStr(HexEncode(disk))),
      ("is64bit", JStr("1")),
      ("video_card1", JStr("Nvidia RTX 4090")),
      ("video_card2", JStr("")),
      ("video_card3", JStr("")),
      ("video_card4", JStr("")),
      ("launcher_type", JStr("PC_java")),
      ("pay_channel", JStr("netease"))
    ])
  }

  /** The MAC address and disk id of `saData` lose nothing: the first is
      upper-case hexadecimal, the second lower-case, and each decodes back
      to the bytes drawn. */
  lemma SaDataDecodes(c: Client, macAddr: seq<byte>, disk: seq<byte>)
    ensures var r := SaData(c, macAddr, disk);
      var mac, id := r.members[2].1.s, r.members[7].1.s;
      && |mac| == 2 * |macAddr| && |id| == 2 * |disk|
      && (forall i :: 0 <= i < |mac| ==> HexValue(mac[i]).Some? && !('a' <= mac[i] <= 'z'))
      && (forall i :: 0 <= i < |id| ==> IsLowerHex(id[i]))
      && HexDecode(mac) == macAddr && HexDecode(id) == disk
  {
    UpperHexRoundTrip(macAddr);
    HexRoundTrip(disk);
    var h := HexEncode(macAddr);
    forall i | 0 <= i < |h|
      ensures HexValue(AsciiUpper(h)[i]).Some?
    {
      assert IsLowerHex(h[i]);
    }
  }

  /** The `version` member of the authentication body: the client's
      version, with empty launcher and updater digests. */
  function VersionInfo(version: string): (r: Json)
    ensures r.JObj? && |r.members| == 3
    ensures r.members[0] == ("version", JStr(version))
  {
    JObj([("version", JStr(version)), ("launcher_md5", JStr("")), ("updater_md5", JStr(""))])
  }

  /** The `authBody` object of `login`: sixteen members, carrying the
      stringified `saData`, the client's SAuth JSON and version, the
      decimal text of the reply's `aid` and the reply's OTP token; the
      members that identify the caller otherwise are `null`. */
  function AuthBody(c: Client, w: Wire, otp: LoginOtpResponse, macAddr: seq<byte>, disk: seq<byte>): (r: Json)
    ensures r.JObj? && |r.members| == 16
    ensures r.members[0] == ("sa_data", JStr(w.stringify(SaData(c, macAddr, disk))))
    ensures r.members[1] == ("sauth_json", JStr(c.sAuthJson))
    ensures r.members[2] == ("version", VersionInfo(c.version))
  {
    JObj([
      ("sa_data", JStr(w.stringify(SaData(c, macAddr, disk)))),
      ("sauth_json", JStr(c.sAuthJson)),
      ("version", VersionInfo(c.version)),
      ("sdkuid", JNull),
      ("aid", JStr(DecimalString(otp.entity.aid))),
      ("hasMessage", JBool(false)),
      ("hasGmail", JBool(false)),
      ("otp_token", JStr(otp.entity.otpToken)),
      ("otp_pwd", JNull),
      ("lock_time", JNum(0)),
      ("env", JNull),
      ("min_engine_version", JNull),
      ("min_patch_version", JNull),
      ("verify_status", JNum(0)),
      ("unisdk_login_json", JNull),
      ("entity_id", JNull)
    ])
  }

  /** What the authentication body takes from the login-OTP reply: the
      decimal text of `aid` and the OTP token; `sdkuid` and `entity_id`
      are sent as `null`. */
  lemma AuthBodyFromOtp(c: Client, w: Wire, otp: LoginOtpResponse, macAddr: seq<byte>, disk: seq<byte>)
    ensures var r := AuthBody(c, w, otp, macAddr, disk);
      && r.members[3] == ("sdkuid", JNull)
      && r.members[4] == ("aid", JStr(DecimalString(otp.entity.aid)))
      && r.members[7] == ("otp_token", JStr(otp.entity.otpToken))
      && r.members[15] == ("entity_id", JNull)
  {
  }

  /** The inputs `login` draws: the replies of its two requests, the
      encryption's random choices, and the six and four random bytes of
      the fabricated MAC address and disk id. */
  datatype LoginInput = LoginInput(
    otpReply: Reply<LoginOtpResponse>,
    authReply: AuthReply,
    entropy: X19Cipher.Entropy,
    macAddr: seq<byte>,
    disk: seq<byte>)

  /** Draws `login` can make: `randomBytes(6)`, `randomBytes(4)`, and the
      encryption's choices. */
  predicate ValidLoginInput(input: LoginInput) {
    X19Cipher.ValidEntropy(input.entropy) && |input.macAddr| == 6 && |input.disk| == 4
  }

  /** The login-OTP reply carries code 0. */
  predicate OtpAccepted(input: LoginInput) {
    input.otpReply.Delivered? && input.otpReply.body.Shaped? && input.otpReply.body.resp.code == 0
  }

  /** `login()`. */
  function Login(c: Client, w: Wire, input: LoginInput): (s: Step<bool>)
    requires ValidLoginInput(input)
    ensures c.isLogin ==> s == Step(Err(ClientError("do not login again!", DoNotLoginAgain, None)), c, [])
    ensures !c.isLogin && c.isLogout ==> s == Step(Err(ClientError("logged out!", LoggedOut, None)), c, [])
    ensures s.result.Ok? ==> s.result.value && s.client.isLogin && s.client.job == Scheduled
    ensures s.result.Err? ==> s.client == c
    ensures s.result.Ok? ==> s.client == c.(isLogin := true, job := Scheduled,
      entityId := s.client.entityId, loginToken := s.client.loginToken)
    ensures !c.isLogin && !c.isLogout ==>
      1 <= |s.sent| && s.sent[0] == LoginOtpRequest(c.coreServerUrl + LOGIN_OTP_PATH, c.sAuthJson)
  {
    if c.isLogin then Step(Err(NewClientError("do not login again!", DoNotLoginAgain, None)), c, [])
    else if c.isLogout then Step(Err(NewClientError("logged out!", LoggedOut, None)), c, [])
    else
      var sent := [LoginOtpRequest(c.coreServerUrl + LOGIN_OTP_PATH, c.sAuthJson)];
      if input.otpReply.NoReply? then
        Step(Err(NewClientLoginError("LoginOTP: network error", NetworkError, None)), c, sent)
      else if !OtpAccepted(input) then Step(Err(OtpFailure(input.otpReply.body)), c, sent)
      else
        var auth := LoginAuth(c, w, input.otpReply.body.resp, input);
        Step(auth.result, auth.client, sent + auth.sent)
  }

  /** The error `login` throws for a delivered login-OTP reply without
      code 0: the `TypeError` of reading `code` from `null`, and otherwise
      `LoginOTPError` with the body attached. */
  function OtpFailure(body: Body<LoginOtpResponse>): (e: X19Error)
    requires !(body.Shaped? && body.resp.code == 0)
    ensures e.PlainError? <==> body == Unshaped(JNull)
    ensures !e.PlainError? ==> e.ClientLoginError? && e.code == LoginOTPError && e.response.Some?
  {
    match body
    case Shaped(otp) => NewClientLoginError("LoginOTP: " + otp.message, LoginOTPError, Some(OtpPayload(otp)))
    case Unshaped(raw) =>
      if raw == JNull then PlainError(NULL_READ_ERROR)
      else NewClientLoginError("LoginOTP: " + MemberText(raw, "message"), LoginOTPError, Some(RawPayload(raw)))
  }

  /** The second half of `login`: the authentication exchange, and on
      success the flag and the refresh job. */
  function LoginAuth(c: Client, w: Wire, otp: LoginOtpResponse, input: LoginInput): (s: Step<bool>)
    requires ValidLoginInput(input)
    ensures |s.sent| == 1 && s.sent[0].AuthRequest? && s.sent[0].url == c.coreServerUrl + AUTH_OTP_PATH
    ensures s.sent[0].userToken == X19Token.EncryptHttpToken(w.md5, c.loginToken, AUTH_OTP_PATH,
      w.stringify(AuthBody(c, w, otp, input.macAddr, input.disk)))
    ensures s.result.Ok? <==> AuthAccepted(w, input.authReply)
    ensures s.result.Ok? ==> s.result.value && s.client == c.(isLogin := true, job := Scheduled,
      entityId := s.client.entityId, loginToken := s.client.loginToken)
    ensures s.result.Err? ==> s.client == c
  {
    var body := AuthBody(c, w, otp, input.macAddr, input.disk);
    var auth := AuthOTPBase(c, w, body, false, input.authReply, input.entropy);
    AuthUpdatesOnlyOnSuccess(c, w, body, false, input.authReply, input.entropy);
    if auth.result.Err? then Step(Err(auth.result.error), auth.client, auth.sent)
    else Step(Ok(true), auth.client.(isLogin := true, job := Scheduled), auth.sent)
  }

  /** A delivered login-OTP reply without code 0 fails the login, after
      exactly one request and with no state change: with the reply attached
      and its message when the code is a number, with the body attached and
      the text of its `message` when the code is not a number, and with a
      `TypeError` when the body is `null`. */
  lemma LoginOtpRejected(c: Client, w: Wire, input: LoginInput)
    requires ValidLoginInput(input)
    requires !c.isLogin && !c.isLogout
    requires input.otpReply.Delivered? && !OtpAccepted(input)
    ensures var s := Login(c, w, input);
      && s.client == c && |s.sent| == 1
      && match input.otpReply.body
         case Shaped(otp) =>
           s.result == Err(ClientLoginError(LOGIN_PREFIX + ("LoginOTP: " + otp.message), LoginOTPError, Some(OtpPayload(otp))))
         case Unshaped(raw) =>
           && (raw == JNull ==> s.result == Err(PlainError(NULL_READ_ERROR)))
           && (raw != JNull ==>
                 s.result == Err(ClientLoginError(LOGIN_PREFIX + ("LoginOTP: " + MemberText(raw, "message")), LoginOTPError, Some(RawPayload(raw)))))
  {
  }

  /** `isLogin` turns true exactly when both exchanges succeed. */
  lemma LoginSucceedsOnlyAfterAuth(c: Client, w: Wire, input: LoginInput)
    requires ValidLoginInput(input)
    requires !c.isLogin && !c.isLogout
    ensures Login(c, w, input).result.Ok? <==> OtpAccepted(input) && AuthAccepted(w, input.authReply)
    ensures Login(c, w, input).client.isLogin <==> Login(c, w, input).result.Ok?
  {
    if OtpAccepted(input) {
      LoginAfterOtp(c, w, input);
    }
  }

  /** After an accepted login-OTP reply, the second request goes to the
      authentication path, signed with the login token held before the
      call. */
  lemma LoginSignsAuth(c: Client, w: Wire, input: LoginInput)
    requires ValidLoginInput(input)
    requires !c.isLogin && !c.isLogout
    requires OtpAccepted(input)
    ensures var s := Login(c, w, input);
      && |s.sent| == 2 && s.sent[1].AuthRequest? && s.sent[1].url == c.coreServerUrl + AUTH_OTP_PATH
      && s.sent[1].userToken == X19Token.EncryptHttpToken(w.md5, c.loginToken, AUTH_OTP_PATH,
           w.stringify(AuthBody(c, w, input.otpReply.body.resp, input.macAddr, input.disk)))
  {
    LoginAfterOtp(c, w, input);
    var auth := LoginAuth(c, w, input.otpReply.body.resp, input);
    SecondRequest(LoginOtpRequest(c.coreServerUrl + LOGIN_OTP_PATH, c.sAuthJson), auth.sent);
  }

  lemma SecondRequest(first: Request, rest: seq<Request>)
    requires |rest| == 1
    ensures |[first] + rest| == 2 && ([first] + rest)[1] == rest[0]
  {
  }

  /** After an accepted login-OTP reply, `login` is its authentication
      half, after the first request. */
  lemma LoginAfterOtp(c: Client, w: Wire, input: LoginInput)
    requires ValidLoginInput(input)
    requires !c.isLogin && !c.isLogout
    requires OtpAccepted(input)
    ensures var auth := LoginAuth(c, w, input.otpReply.body.resp, input);
      Login(c, w, input) == Step(auth.result, auth.client, [LoginOtpRequest(c.coreServerUrl + LOGIN_OTP_PATH, c.sAuthJson)] + auth.sent)
  {
  }

  // ---------------------------------------------------------------------
  // Refresh, logout

  /** `refreshToken()`: an authentication exchange on the update path
      with just the entity id as payload. It has no login check. */
  function RefreshToken(c: Client, w: Wire, reply: AuthReply, e: X19Cipher.Entropy): (s: Step<()>)
    requires X19Cipher.ValidEntropy(e)
    ensures |s.sent| == 1 && s.sent[0].AuthRequest? && s.sent[0].url == c.coreServerUrl + REFRESH_PATH
    ensures s.sent[0].userToken ==
      X19Token.EncryptHttpToken(w.md5, c.loginToken, REFRESH_PATH, w.stringify(RefreshBody(c)))
    ensures s.client.isLogin == c.isLogin && s.client.job == c.job
  {
    AuthOTPBase(c, w, RefreshBody(c), true, reply, e)
  }

  /** `{ entity_id }`. */
  function RefreshBody(c: Client): Json {
    JObj([("entity_id", JStr(c.entityId))])
  }

  /** One firing of the cron job: a refresh while the job is live,
      nothing otherwise. */
  function Tick(c: Client, w: Wire, reply: AuthReply, e: X19Cipher.Entropy): (s: Step<()>)
    requires X19Cipher.ValidEntropy(e)
    ensures c.job != Scheduled ==> s == Step(Ok(()), c, [])
    ensures c.job == Scheduled ==> |s.sent| == 1 && s.sent[0].url == c.coreServerUrl + REFRESH_PATH
  {
    if c.job == Scheduled then RefreshToken(c, w, reply, e) else Step(Ok(()), c, [])
  }

  /** `logout()`: cancels the job and nothing else. */
  function Logout(c: Client): (s: Step<()>)
    ensures !c.isLogin ==> s == Step(Err(ClientError("please login x19 first", NotLogin, None)), c, [])
    ensures c.isLogin ==> s.result.Ok? && s.sent == []
    ensures c.isLogin ==> s.client == c.(job := if c.job == NoJob then NoJob else Cancelled)
  {
    if !c.isLogin then Step(Err(NewClientError("please login x19 first", NotLogin, None)), c, [])
    else Step(Ok(()), c.(job := if c.job == NoJob then NoJob else Cancelled), [])
  }

  /** After `logout` the client still counts as logged in and not logged
      out, no tick refreshes any more, and a second `logout` succeeds. */
  lemma LogoutKeepsSession(c: Client, w: Wire, reply: AuthReply, e: X19Cipher.Entropy)
    requires X19Cipher.ValidEntropy(e)
    requires c.isLogin
    ensures var after := Logout(c).client;
      && after.isLogin && after.isLogout == c.isLogout
      && Tick(after, w, reply, e) == Step(Ok(()), after, [])
      && Logout(after).result.Ok?
      && DumpUserData(after) == DumpUserData(c)
  {
  }

  // ---------------------------------------------------------------------
  // doRequest

  /** `X19DoRequestConfig`: optional extra headers and body. */
  datatype RequestConfig = RequestConfig(headers: Option<map<string, string>>, body: Option<Json>)

  /** The error `doRequest` throws for a non-zero code. */
  function RequestFailure(resp: HttpResponse): (e: X19Error)
    requires resp.code != 0
    ensures e.ClientError? && e.message == resp.message
    ensures e.code == AccountBanned <==> resp.code == BANNED
    ensures e.code == AntiAddition <==> resp.code == ANTI_ADDICTION
    ensures e.code == HttpRequestFailed <==> resp.code !in {BANNED, ANTI_ADDICTION}
    ensures e.response.Some? <==> e.code != AntiAddition
    ensures e.response.Some? ==> e.response == Some(HttpPayload(resp))
  {
    if resp.code == BANNED then NewClientError(resp.message, AccountBanned, Some(HttpPayload(resp)))
    else if resp.code == ANTI_ADDICTION then NewClientError(resp.message, AntiAddition, None)
    else NewClientError(resp.message, HttpRequestFailed, Some(HttpPayload(resp)))
  }

  /** The headers of a plain request: the defaults, overridden by any
      given ones. */
  function RequestHeaders(c: Client, token: string, extra: map<string, string>): (h: map<string, string>)
    ensures forall k :: k in extra ==> k in h && h[k] == extra[k]
    ensures "user-token" in h && "user-id" in h && "User-Agent" in h && "Content-Type" in h
    ensures "user-token" !in extra ==> h["user-token"] == token
    ensures "user-id" !in extra ==> h["user-id"] == c.entityId
    ensures "User-Agent" !in extra ==> h["User-Agent"] == c.userAgent
  {
    map[
      "Content-Type" := "application/json; charset=utf-8",
      "User-Agent" := c.userAgent,
      "user-id" := c.entityId,
      "user-token" := token
    ] + extra
  }

  /** The request transform `doRequest` installs: every `"` removed. */
  function StripQuotes(text: string): (r: string)
    ensures |r| <= |text|
    ensures forall i :: 0 <= i < |r| ==> r[i] != '"'
    ensures (forall i :: 0 <= i < |text| ==> text[i] != '"') ==> r == text
  {
    if |text| == 0 then []
    else if text[0] == '"' then StripQuotes(text[1..])
    else [text[0]] + StripQuotes(text[1..])
  }

  /** Stripping quotes twice is stripping them once. */
  lemma StripQuotesIdempotent(text: string)
    ensures StripQuotes(StripQuotes(text)) == StripQuotes(text)
  {
  }

  /** Quotes are stripped character by character: the result of a
      concatenation is the concatenation of the results. */
  lemma {:induction false} StripQuotesAppend(a: string, b: string)
    ensures StripQuotes(a + b) == StripQuotes(a) + StripQuotes(b)
    decreases |a|
  {
    if |a| == 0 {
      assert a + b == b;
    } else {
      assert (a + b)[0] == a[0];
      assert (a + b)[1..] == a[1..] + b;
      StripQuotesAppend(a[1..], b);
    }
  }

  /** `doRequest(url, path, config)`: needs a login, signs the JSON text
      of the body with the current login token, and maps the reply code.
      The installed request transform replaces axios's own, so it receives
      the body itself and calls `replace` on it: anything but a string,
      the default `{}` included, throws before the request leaves and is
      reported as a network error. */
  function DoRequest(c: Client, w: Wire, url: string, path: string, config: RequestConfig, reply: Reply<HttpResponse>): (s: Step<HttpResponse>)
    ensures !c.isLogin ==> s == Step(Err(ClientError("please login!", NotLogin, None)), c, [])
    ensures s.client == c
    ensures |s.sent| <= 1 && (|s.sent| == 1 <==> c.isLogin && config.body.Some? && config.body.value.JStr?)
    ensures |s.sent| == 1 ==>
      s.sent[0].PlainRequest? && s.sent[0].url == url + path && s.sent[0].data == StripQuotes(config.body.value.s)
    ensures c.isLogin && s.sent == [] ==> s.result == Err(ClientError("network error", NetworkError, None))
    ensures |s.sent| == 1 && reply.NoReply? ==> s.result == Err(ClientError("network error", NetworkError, None))
    ensures |s.sent| == 1 && reply.Delivered? ==>
      match reply.body
      case Shaped(resp) => s.result == if resp.code == 0 then Ok(resp) else Err(RequestFailure(resp))
      case Unshaped(raw) =>
        && (raw == JNull ==> s.result == Err(PlainError(NULL_READ_ERROR)))
        && (raw != JNull ==> s.result == Err(ClientError(MemberText(raw, "message"), HttpRequestFailed, Some(RawPayload(raw)))))
  {
    if !c.isLogin then Step(Err(NewClientError("please login!", NotLogin, None)), c, [])
    else
      var body := config.body.GetOr(JObj([]));
      var bodyStr := w.stringify(body);
      var token := X19Token.EncryptHttpToken(w.md5, c.loginToken, path, bodyStr);
      var headers := RequestHeaders(c, token, config.headers.GetOr(map[]));
      if !body.JStr? then Step(Err(NewClientError("network error", NetworkError, None)), c, [])
      else
        var sent := [PlainRequest(url + path, headers, StripQuotes(body.s))];
        Step(RequestResult(reply), c, sent)
  }

  /** What `doRequest` makes of the reply to a request that left: the
      response itself exactly for code 0. */
  function RequestResult(reply: Reply<HttpResponse>): (r: Result<HttpResponse, X19Error>)
    ensures r.Ok? <==> reply.Delivered? && reply.body.Shaped? && reply.body.resp.code == 0
    ensures r.Ok? ==> r.value == reply.body.resp
  {
    match reply
    case NoReply => Err(NewClientError("network error", NetworkError, None))
    case Delivered(Unshaped(raw)) =>
      if raw == JNull then Err(PlainError(NULL_READ_ERROR))
      else Err(NewClientError(MemberText(raw, "message"), HttpRequestFailed, Some(RawPayload(raw))))
    case Delivered(Shaped(resp)) =>
      if resp.code != 0 then Err(RequestFailure(resp)) else Ok(resp)
  }

  /** Whatever the server would answer, a request whose body is missing or
      not a string never leaves the client and fails as a network error. */
  lemma NonStringBodyNeverSent(c: Client, w: Wire, url: string, path: string, config: RequestConfig,
                               reply: Reply<HttpResponse>)
    requires c.isLogin
    requires config.body.None? || !config.body.value.JStr?
    ensures DoRequest(c, w, url, path, config, reply) == Step(Err(ClientError("network error", NetworkError, None)), c, [])
  {
  }

  /** A string body is signed over its JSON text with the login token held
      at the time, unless the caller overrides the header. */
  lemma DoRequestSigned(c: Client, w: Wire, url: string, path: string, config: RequestConfig, reply: Reply<HttpResponse>)
    requires c.isLogin && config.body.Some? && config.body.value.JStr?
    requires config.headers.None? || "user-token" !in config.headers.value
    ensures var s := DoRequest(c, w, url, path, config, reply);
      s.sent[0].headers["user-token"] ==
        X19Token.EncryptHttpToken(w.md5, c.loginToken, path, w.stringify(config.body.value))
  {
  }

  /** `authOTPBase` reports the network error exactly when axios
      delivered nothing: a delivered body, whatever its shape, is never
      reported as one. */
  lemma AuthNetworkError(c: Client, w: Wire, body: Json, isRefreshToken: bool, reply: AuthReply, e: X19Cipher.Entropy)
    requires X19Cipher.ValidEntropy(e)
    ensures IsNetworkError(AuthOTPBase(c, w, body, isRefreshToken, reply, e).result) <==> reply.AuthNoReply?
  {
    AuthOutcomeCases(c, ReadAuth(w, reply));
    NothingReadWithoutReply(w, reply);
  }

  /** `login` reports the network error exactly when one of its requests
      got no reply; the second is only sent after an accepted first. */
  lemma LoginNetworkError(c: Client, w: Wire, input: LoginInput)
    requires ValidLoginInput(input)
    ensures IsNetworkError(Login(c, w, input).result) <==>
      && !c.isLogin && !c.isLogout
      && (input.otpReply.NoReply? || (OtpAccepted(input) && input.authReply.AuthNoReply?))
  {
    if !c.isLogin && !c.isLogout && OtpAccepted(input) {
      var otp := input.otpReply.body.resp;
      var body := AuthBody(c, w, otp, input.macAddr, input.disk);
      AuthNetworkError(c, w, body, false, input.authReply, input.entropy);
      var base := AuthOTPBase(c, w, body, false, input.authReply, input.entropy);
      var auth := LoginAuth(c, w, otp, input);
      assert IsNetworkError(auth.result) <==> IsNetworkError(base.result);
      LoginAfterOtp(c, w, input);
    }
  }

  /** `doRequest` reports the network error exactly when the body is not
      a string, so that the request never leaves, or axios delivered
      nothing. */
  lemma RequestNetworkError(c: Client, w: Wire, url: string, path: string, config: RequestConfig, httpReply: Reply<HttpResponse>)
    ensures IsNetworkError(DoRequest(c, w, url, path, config, httpReply).result) <==>
      c.isLogin && (config.body.None? || !config.body.value.JStr? || httpReply.NoReply?)
  {
  }

  // ---------------------------------------------------------------------
  // The invariant

  /** Every operation keeps the client consistent. */
  lemma OperationsPreserveConsistency(c: Client, w: Wire, input: LoginInput, reply: AuthReply,
                                      url: string, path: string, config: RequestConfig, httpReply: Reply<HttpResponse>)
    requires Consistent(c) && ValidLoginInput(input)
    ensures Consistent(Login(c, w, input).client)
    ensures Consistent(Tick(c, w, reply, input.entropy).client)
    ensures Consistent(Logout(c).client)
    ensures Consistent(DoRequest(c, w, url, path, config, httpReply).client)
  {
    LoginPreservesConsistency(c, w, input);
    TickPreservesConsistency(c, w, reply, input.entropy);
  }

  lemma LoginPreservesConsistency(c: Client, w: Wire, input: LoginInput)
    requires Consistent(c) && ValidLoginInput(input)
    ensures Consistent(Login(c, w, input).client)
  {
  }

  lemma TickPreservesConsistency(c: Client, w: Wire, reply: AuthReply, e: X19Cipher.Entropy)
    requires Consistent(c) && X19Cipher.ValidEntropy(e)
    ensures Consistent(Tick(c, w, reply, e).client)
  {
    if c.job == Scheduled {
      AuthUpdatesOnlyOnSuccess(c, w, RefreshBody(c), true, reply, e);
    }
  }
}

=== FILE: x19_errors.dfy ===
/** The X19 error classes and code tables (lib/core/x19/errors.ts), with
    the reply records of lib/core/x19/base_client.ts that errors carry as
    their `response`. */
module X19Errors {
  import opened Results
  import opened Json

  /** `X19ClientErrorCodeEnum`. */
  datatype ClientErrorCode =
    | ParamsEmpty | ParamsIncorrect | X19DatabaseError | LoginExpired
    | AnotherDeviceLogged | AccountBanned | NotRealname | AntiAddition
    | NotLogin | DoNotLoginAgain | LoggedOut | LoginOTPError | AuthOTPError
    | HttpRequestFailed | NetworkError
  {
    /** The enum member's string value. */
    function Name(): string {
      match this
      case ParamsEmpty => "PARAMS_EMPTY"
      case ParamsIncorrect => "PARAMS_INCORRECT"
      case X19DatabaseError => "X19_DATABASE_ERROR"
      case LoginExpired => "LOGIN_EXPIRED"
      case AnotherDeviceLogged => "ANOTHER_DEVICE_LOGGED"
      case AccountBanned => "ACCOUNT_BANNED"
      case NotRealname => "NOT_REALNAME"
      case AntiAddition => "ANTI_ADDICTION"
      case NotLogin => "NOT_LOGIN"
      case DoNotLoginAgain => "DO_NOT_LOGIN_AGAIN"
      case LoggedOut => "LOGGED_OUT"
      case LoginOTPError => "LOGIN_OTP_ERROR"
      case AuthOTPError => "AUTH_OTP_ERROR"
      case HttpRequestFailed => "HTTP_REQUEST_FAILED"
      case NetworkError => "NETWORK_ERROR"
    }
  }

  /** `X19SessionErrorCodeEnum`. */
  datatype SessionErrorCode = ServerMaintenance | AuthServerOffline | SessionNetworkError | DoNotInitAgain
  {
    function Name(): string {
      match this
      case ServerMaintenance => "SERVER_MAINTENANCE"
      case AuthServerOffline => "AUTH_SERVER_OFFLINE"
      case SessionNetworkError => "NETWORK_ERROR"
      case DoNotInitAgain => "DO_NOT_INIT_AGAIN"
    }
  }

  /** Different client codes have different names. */
  lemma ClientNamesDistinct(a: ClientErrorCode, b: ClientErrorCode)
    ensures a.Name() == b.Name() <==> a == b
  {
  }

  lemma SessionNamesDistinct(a: SessionErrorCode, b: SessionErrorCode)
    ensures a.Name() == b.Name() <==> a == b
  {
  }

  // `X19AuthOTPErrorCode`; the `X19HttpRequestErrorCode` members carry
  // the same numbers as their namesakes here.
  const PARAMS_EMPTY: int := 4
  const LOGIN_EXPIRED: int := 10
  const PARAMS_INCORRECT: int := 12
  const X19_DATABASE_ERROR: int := 18
  const ANOTHER_DEVICE_LOGGED: int := 22
  const BANNED: int := 29
  const ANTI_ADDICTION: int := 27002
  const NOT_REALNAME: int := 27003

  // ---------------------------------------------------------------------
  // Replies

  /** The `entity` of a login-OTP reply. */
  datatype LoginOtpEntity = LoginOtpEntity(otp: int, otpToken: string, aid: int, lockTime: int, openOtp: int)

  /** `X19LoginOTPResponse`. */
  datatype LoginOtpResponse = LoginOtpResponse(code: int, message: string, details: string, entity: LoginOtpEntity)

  /** The `entity` of an authentication reply: the two fields the client
      keeps, and the rest as an opaque value. */
  datatype AuthEntity = AuthEntity(entityId: string, token: string, other: Json)

  /** `X19AuthOTPResponse`. */
  datatype AuthResponse = AuthResponse(code: int, message: string, details: string, entity: AuthEntity)

  /** `X19HttpResponse`. */
  datatype HttpResponse = HttpResponse(code: int, message: string, details: string, content: Json)

  /** A reply body as the client reads it. `Shaped` holds one whose
      `code` is a number, read into the documented record. `Unshaped`
      holds one whose `code` is missing or not a number: `{}`, a text that
      is not JSON and that axios leaves as a string, or `null`. */
  datatype Body<T> = Shaped(resp: T) | Unshaped(raw: Codeless)

  predicate HasNumericCode(j: Json) {
    NumberMember(j, "code").Some?
  }

  /** A body without a numeric `code`. */
  type Codeless = j: Json | !HasNumericCode(j) witness JNull

  /** What an error's `response` can hold: one of the documented replies,
      or a body without their shape. */
  datatype Payload =
    | OtpPayload(otp: LoginOtpResponse)
    | AuthPayload(auth: AuthResponse)
    | HttpPayload(http: HttpResponse)
    | RawPayload(raw: Json)

  // ---------------------------------------------------------------------
  // Errors

  /** A thrown error: one of the three classes, or a plain `Error`. The
      `response` is `None` where the source stores `null`. */
  datatype X19Error =
    | ClientError(message: string, code: ClientErrorCode, response: Option<Payload>)
    | ClientLoginError(message: string, code: ClientErrorCode, response: Option<Payload>)
    | SessionError(message: string, sessionCode: SessionErrorCode, response: Option<Payload>)
    | PlainError(message: string)

  const LOGIN_PREFIX: string := "Unable to login x19: "
  const SESSION_PREFIX: string := "Unable to get session: "

  /** `new X19ClientError(message, code, response?)`: the message is kept
      as given. */
  function NewClientError(message: string, code: ClientErrorCode, response: Option<Payload>): (e: X19Error)
    ensures e.ClientError? && e.code == code
    ensures e.message == message
    ensures e.response.None? <==> response.None?
    ensures response.Some? ==> e.response == response
  {
    ClientError(message, code, response)
  }

  /** `new X19ClientLoginError(message, code, response?)`. */
  function NewClientLoginError(message: string, code: ClientErrorCode, response: Option<Payload>): (e: X19Error)
    ensures e.ClientLoginError? && e.code == code
    ensures |e.message| == |LOGIN_PREFIX| + |message|
    ensures e.message[..|LOGIN_PREFIX|] == LOGIN_PREFIX && e.message[|LOGIN_PREFIX|..] == message
    ensures e.response.None? <==> response.None?
    ensures response.Some? ==> e.response == response
  {
    ClientLoginError(LOGIN_PREFIX + message, code, response)
  }

  /** `new X19SessionError(message, code, response?)`. */
  function NewSessionError(message: string, code: SessionErrorCode, response: Option<Payload>): (e: X19Error)
    ensures e.SessionError? && e.sessionCode == code
    ensures |e.message| == |SESSION_PREFIX| + |message|
    ensures e.message[..|SESSION_PREFIX|] == SESSION_PREFIX && e.message[|SESSION_PREFIX|..] == message
    ensures e.response.None? <==> response.None?
    ensures response.Some? ==> e.response == response
  {
    SessionError(SESSION_PREFIX + message, code, response)
  }

  /** The prefixed constructors are injective in the message: two errors
      of one class with the same message were built from the same text. */
  lemma LoginMessageInjective(m1: string, m2: string, c: ClientErrorCode)
    ensures NewClientLoginError(m1, c, None).message == NewClientLoginError(m2, c, None).message <==> m1 == m2
  {
    var e1, e2 := NewClientLoginError(m1, c, None), NewClientLoginError(m2, c, None);
    if e1.message == e2.message {
      assert m1 == e1.message[|LOGIN_PREFIX|..];
    }
  }

  lemma SessionMessageInjective(m1: string, m2: string, c: SessionErrorCode)
    ensures NewSessionError(m1, c, None).message == NewSessionError(m2, c, None).message <==> m1 == m2
  {
    var e1, e2 := NewSessionError(m1, c, None), NewSessionError(m2, c, None);
    if e1.message == e2.message {
      assert m1 == e1.message[|SESSION_PREFIX|..];
    }
  }
}

=== FILE: x19_session.dfy ===
/** `X19Session` (lib/core/x19/session.ts): a one-shot initialisation
    that fetches the launcher's remote configuration, refuses to proceed
    during maintenance or without authentication servers, and derives the
    latest patch version and user agent; getters throw until it succeeded.
    The four fetches are replies given as inputs (`None` where the fetcher
    throws). */
module X19Session {
  import opened Results
  import opened Json
  import opened Objects
  import opened X19Errors

  /** `X19ReleaseInfo`: the fields the session reads, and the rest. */
  datatype ReleaseInfo = ReleaseInfo(
    tempServerStop: int,
    serverStop: Option<string>,
    authServerUrl: string,
    coreServerUrl: string,
    others: Entries<Json>)

  /** The session's fields; `None` stands for `undefined`. */
  datatype Session = Session(
    isInit: bool,
    authServerList: Option<seq<Json>>,
    patchList: Option<Entries<Json>>,
    releaseInfo: Option<ReleaseInfo>,
    releaseInfoPE: Option<Json>,
    latestPatchVersion: Option<string>,
    userAgent: string)

  const DEFAULT_PATCH_VERSION: string := "1.0.0.0"
  const USER_AGENT_PREFIX: string := "WPFLauncher/"

  /** The state right after `new X19Session()`. */
  function NewSession(): (s: Session)
    ensures !s.isInit && Consistent(s)
    ensures s.latestPatchVersion == Some(DEFAULT_PATCH_VERSION)
    ensures s.userAgent == USER_AGENT_PREFIX + "0.0.0.0"
  {
    Session(false, None, None, None, None, Some(DEFAULT_PATCH_VERSION), USER_AGENT_PREFIX + "0.0.0.0")
  }

  /** Maintenance, as the release information announces it. */
  predicate InMaintenance(info: ReleaseInfo) {
    (info.serverStop.Some? && info.serverStop.value == "1") || info.tempServerStop == 1
  }

  /** `Object.keys` of the patch list, in insertion order. */
  function Keys(o: Entries<Json>): (r: seq<string>)
    ensures |r| == |o|
    ensures forall i :: 0 <= i < |o| ==> r[i] == o[i].0
  {
    seq(|o|, i requires 0 <= i < |o| => o[i].0)
  }

  /** The last key of the patch list, `None` (`undefined`) when it is
      empty. */
  function LastKey(o: Entries<Json>): (r: Option<string>)
    ensures r.None? <==> |o| == 0
    ensures r.Some? ==> r.value == o[|o| - 1].0 && HasKey(o, r.value)
  {
    var keys := Keys(o);
    if |keys| == 0 then None else Some(keys[|keys| - 1])
  }

  /** `${value}` of a possibly undefined string. */
  function Show(v: Option<string>): (r: string)
    ensures v.Some? ==> r == v.value
    ensures v.None? ==> r == "undefined"
  {
    v.GetOr("undefined")
  }

  /** The user agent naming a patch version. */
  function UserAgent(version: Option<string>): (r: string)
    ensures |r| == |USER_AGENT_PREFIX| + |Show(version)|
    ensures r[..|USER_AGENT_PREFIX|] == USER_AGENT_PREFIX && r[|USER_AGENT_PREFIX|..] == Show(version)
  {
    USER_AGENT_PREFIX + Show(version)
  }

  /** What holds once initialised: every field was fetched, service was
      up, there is an authentication server, and the patch version and
      user agent were derived from the patch list. */
  predicate Consistent(s: Session) {
    s.isInit ==>
      && s.releaseInfo.Some? && s.releaseInfoPE.Some? && s.patchList.Some? && s.authServerList.Some?
      && !InMaintenance(s.releaseInfo.value)
      && |s.authServerList.value| > 0
      && s.latestPatchVersion == LastKey(s.patchList.value)
      && s.userAgent == UserAgent(s.latestPatchVersion)
  }

  // ---------------------------------------------------------------------
  // initSession

  /** A request the initialisation makes. */
  datatype Fetch = ReleaseInfoFetch | ReleaseInfoPEFetch | PatchListFetch | AuthServerListFetch(url: string)

  /** The replies of the four fetches. */
  datatype Replies = Replies(
    releaseInfo: Option<ReleaseInfo>,
    releaseInfoPE: Option<Json>,
    patchList: Option<Entries<Json>>,
    authServerList: Option<seq<Json>>)

  datatype Step = Step(result: Result<(), X19Error>, session: Session, fetched: seq<Fetch>)

  const INIT_AGAIN: string := "do not init again!"
  const MAINTENANCE: string := "服务器维护中，请留意官方公告。"
  const AUTH_SERVER_OFFLINE: string := "验证服务器离线。"
  const RELEASE_INFO_FAILED: string := "Unable to get release_info: network error"
  const RELEASE_INFO_PE_FAILED: string := "Unable to get release_info_pe: network error"
  const PATCH_LIST_FAILED: string := "Unable to get patch_list: network error"
  const AUTH_SERVER_LIST_FAILED: string := "Unable to get auth_server_list: network error"

  /** `updateLatestPatch()`. */
  function UpdateLatestPatch(s: Session, patchList: Entries<Json>): (r: Session)
    ensures r.latestPatchVersion == LastKey(patchList)
    ensures r.userAgent == UserAgent(LastKey(patchList))
    ensures r == s.(latestPatchVersion := r.latestPatchVersion, userAgent := r.userAgent)
  {
    var version := LastKey(patchList);
    s.(latestPatchVersion := version, userAgent := UserAgent(version))
  }

  /** `initSession()`. Each field is stored as soon as it is fetched, so a
      failure leaves the earlier ones behind. */
  function InitSession(s: Session, replies: Replies): (r: Step)
    ensures s.isInit ==> r == Step(Err(NewSessionError(INIT_AGAIN, DoNotInitAgain, None)), s, [])
    ensures r.result.Ok? ==> r.session.isInit && !s.isInit
    ensures r.result.Err? ==> r.session.isInit == s.isInit
    ensures r.session.latestPatchVersion != s.latestPatchVersion ==> r.result.Ok?
  {
    if s.isInit then Step(Err(NewSessionError(INIT_AGAIN, DoNotInitAgain, None)), s, [])
    else
      match replies.releaseInfo
      case None => Step(Err(NewSessionError(RELEASE_INFO_FAILED, SessionNetworkError, None)), s, [ReleaseInfoFetch])
      case Some(info) =>
        var s1 := s.(releaseInfo := Some(info));
        match replies.releaseInfoPE
        case None => Step(Err(NewSessionError(RELEASE_INFO_PE_FAILED, SessionNetworkError, None)), s1,
                          [ReleaseInfoFetch, ReleaseInfoPEFetch])
        case Some(pe) =>
          var s2 := s1.(releaseInfoPE := Some(pe));
          var fetched := [ReleaseInfoFetch, ReleaseInfoPEFetch, PatchListFetch];
          match replies.patchList
          case None => Step(Err(NewSessionError(PATCH_LIST_FAILED, SessionNetworkError, None)), s2, fetched)
          case Some(patches) =>
            var s3 := s2.(patchList := Some(patches));
            if InMaintenance(info) then
              Step(Err(NewSessionError(MAINTENANCE, ServerMaintenance, None)), s3, fetched)
            else
              var fetched := fetched + [AuthServerListFetch(info.authServerUrl)];
              match replies.authServerList
              case None => Step(Err(NewSessionError(AUTH_SERVER_LIST_FAILED, SessionNetworkError, None)), s3, fetched)
              case Some(servers) =>
                var s4 := s3.(authServerList := Some(servers));
                if |servers| == 0 then
                  Step(Err(NewSessionError(AUTH_SERVER_OFFLINE, ServerMaintenance, None)), s4, fetched)
                else
                  Step(Ok(()), UpdateLatestPatch(s4, patches).(isInit := true), fetched)
  }

  /** During maintenance the initialisation stops before asking for the
      authentication servers, with the maintenance error. */
  lemma MaintenanceStopsEarly(s: Session, replies: Replies)
    requires !s.isInit
    requires replies.releaseInfo.Some? && InMaintenance(replies.releaseInfo.value)
    requires replies.releaseInfoPE.Some? && replies.patchList.Some?
    ensures var r := InitSession(s, replies);
      && r.result == Err(SessionError(SESSION_PREFIX + MAINTENANCE, ServerMaintenance, None))
      && !r.session.isInit
      && forall i :: 0 <= i < |r.fetched| ==> !r.fetched[i].AuthServerListFetch?
  {
  }

  /** An empty authentication-server list is reported as maintenance, not
      as an offline authentication server. */
  lemma EmptyAuthListIsMaintenance(s: Session, replies: Replies)
    requires !s.isInit
    requires replies.releaseInfo.Some? && !InMaintenance(replies.releaseInfo.value)
    requires replies.releaseInfoPE.Some? && replies.patchList.Some?
    requires replies.authServerList == Some([])
    ensures var r := InitSession(s, replies);
      && r.result == Err(SessionError(SESSION_PREFIX + AUTH_SERVER_OFFLINE, ServerMaintenance, None))
      && r.result.error.sessionCode != AuthServerOffline
      && !r.session.isInit
      && r.fetched[|r.fetched| - 1] == AuthServerListFetch(replies.releaseInfo.value.authServerUrl)
  {
  }

  /** The initialisation succeeds exactly when every fetch answers, the
      service is up and some authentication server is listed; it then
      takes the patch version and user agent from the last patch key. */
  lemma InitSucceeds(s: Session, replies: Replies)
    requires !s.isInit
    ensures var r := InitSession(s, replies);
      && (r.result.Ok? <==>
            && replies.releaseInfo.Some? && replies.releaseInfoPE.Some? && replies.patchList.Some?
            && !InMaintenance(replies.releaseInfo.value)
            && replies.authServerList.Some? && |replies.authServerList.value| > 0)
      && (r.result.Ok? ==>
            && r.session.latestPatchVersion == LastKey(replies.patchList.value)
            && r.session.userAgent == USER_AGENT_PREFIX + Show(LastKey(replies.patchList.value)))
  {
  }

  /** A fetch that throws ends the initialisation with the network error
      carrying that fetcher's message: nothing is fetched after it, the
      fields fetched before it stay stored, and the session stays
      uninitialised. */
  lemma FetchFailureKeepsEarlierFields(s: Session, replies: Replies)
    requires !s.isInit
    ensures replies.releaseInfo.None? ==>
      InitSession(s, replies) ==
        Step(Err(SessionError(SESSION_PREFIX + RELEASE_INFO_FAILED, SessionNetworkError, None)), s, [ReleaseInfoFetch])
    ensures replies.releaseInfo.Some? && replies.releaseInfoPE.None? ==>
      InitSession(s, replies) ==
        Step(Err(SessionError(SESSION_PREFIX + RELEASE_INFO_PE_FAILED, SessionNetworkError, None)),
             s.(releaseInfo := replies.releaseInfo), [ReleaseInfoFetch, ReleaseInfoPEFetch])
    ensures replies.releaseInfo.Some? && replies.releaseInfoPE.Some? && replies.patchList.None? ==>
      InitSession(s, replies) ==
        Step(Err(SessionError(SESSION_PREFIX + PATCH_LIST_FAILED, SessionNetworkError, None)),
             s.(releaseInfo := replies.releaseInfo, releaseInfoPE := replies.releaseInfoPE),
             [ReleaseInfoFetch, ReleaseInfoPEFetch, PatchListFetch])
    ensures replies.releaseInfo.Some? && replies.releaseInfoPE.Some? && replies.patchList.Some?
            && !InMaintenance(replies.releaseInfo.value) && replies.authServerList.None? ==>
      InitSession(s, replies) ==
        Step(Err(SessionError(SESSION_PREFIX + AUTH_SERVER_LIST_FAILED, SessionNetworkError, None)),
             s.(releaseInfo := replies.releaseInfo, releaseInfoPE := replies.releaseInfoPE, patchList := replies.patchList),
             [ReleaseInfoFetch, ReleaseInfoPEFetch, PatchListFetch, AuthServerListFetch(replies.releaseInfo.value.authServerUrl)])
  {
  }

  /** A session reached by initialisation is consistent. */
  lemma InitPreservesConsistency(s: Session, replies: Replies)
    requires Consistent(s)
    ensures Consistent(InitSession(s, replies).session)
  {
  }

  // ---------------------------------------------------------------------
  // Getters

  const NOT_INIT: string := "Please init session first!"

  /** The guard every getter shares. */
  function Guarded<T>(s: Session, value: T): (r: Result<T, X19Error>)
    ensures r.Err? <==> !s.isInit
    ensures r.Err? ==> r.error == PlainError(NOT_INIT)
    ensures r.Ok? ==> r.value == value
  {
    if !s.isInit then Err(PlainError(NOT_INIT)) else Ok(value)
  }

  /** `authServerList`. */
  function AuthServerList(s: Session): (r: Result<Option<seq<Json>>, X19Error>)
    ensures r.Err? <==> !s.isInit
    ensures r.Ok? ==> r.value == s.authServerList
  {
    Guarded(s, s.authServerList)
  }

  /** `patchList`. */
  function PatchList(s: Session): (r: Result<Option<Entries<Json>>, X19Error>)
    ensures r.Err? <==> !s.isInit
    ensures r.Ok? ==> r.value == s.patchList
  {
    Guarded(s, s.patchList)
  }

  /** `releaseInfo`. */
  function GetReleaseInfo(s: Session): (r: Result<Option<ReleaseInfo>, X19Error>)
    ensures r.Err? <==> !s.isInit
    ensures r.Ok? ==> r.value == s.releaseInfo
  {
    Guarded(s, s.releaseInfo)
  }

  /** `releaseInfoPE`. */
  function GetReleaseInfoPE(s: Session): (r: Result<Option<Json>, X19Error>)
    ensures r.Err? <==> !s.isInit
    ensures r.Ok? ==> r.value == s.releaseInfoPE
  {
    Guarded(s, s.releaseInfoPE)
  }

  /** `latestPatchVersion`. */
  function LatestPatchVersion(s: Session): (r: Result<Option<string>, X19Error>)
    ensures r.Err? <==> !s.isInit
    ensures r.Ok? ==> r.value == s.latestPatchVersion
  {
    Guarded(s, s.latestPatchVersion)
  }

  /** `userAgent`. */
  function GetUserAgent(s: Session): (r: Result<string, X19Error>)
    ensures r.Err? <==> !s.isInit
    ensures r.Ok? ==> r.value == s.userAgent
  {
    Guarded(s, s.userAgent)
  }

  /** On a consistent session every getter fails with the same plain error
      before initialisation, and afterwards returns defined values, the
      user agent naming the latest patch version. */
  lemma GettersAfterInit(s: Session)
    requires Consistent(s)
    ensures !s.isInit ==>
      && AuthServerList(s) == Err(PlainError(NOT_INIT)) && PatchList(s) == Err(PlainError(NOT_INIT))
      && GetReleaseInfo(s) == Err(PlainError(NOT_INIT)) && GetReleaseInfoPE(s) == Err(PlainError(NOT_INIT))
      && LatestPatchVersion(s) == Err(PlainError(NOT_INIT)) && GetUserAgent(s) == Err(PlainError(NOT_INIT))
    ensures s.isInit ==>
      && AuthServerList(s).value.Some? && |AuthServerList(s).value.value| > 0
      && PatchList(s).value.Some? && GetReleaseInfo(s).value.Some? && GetReleaseInfoPE(s).value.Some?
      && GetUserAgent(s).value == USER_AGENT_PREFIX + Show(LatestPatchVersion(s).value)
  {
  }
}

=== FILE: x19_token.dfy ===
/** The request-signing token of lib/core/x19/cipher.ts
    (`X19EncryptHttpToken` and the string helpers behind it). JavaScript
    strings are sequences of UTF-16 code units, so the helpers that work
    on character codes take and return `seq<CodeUnit>`; the binary-digit
    strings in between are plain ASCII strings. */
module X19Token {
  import opened Results
  import opened Encoding
  import opened Oracles
  import Base64

  // ---------------------------------------------------------------------
  // Number.prototype.toString(2), padStart and parseInt(_, 2)

  predicate IsBinary(s: string) {
    forall i :: 0 <= i < |s| ==> s[i] == '0' || s[i] == '1'
  }

  function Pow2(k: nat): nat {
    if k == 0 then 1 else 2 * Pow2(k - 1)
  }

  function BinaryDigit(b: int): char
    requires 0 <= b < 2
  {
    if b == 0 then '0' else '1'
  }

  /** `n.toString(2)`: binary digits without leading zeros ("0" for zero). */
  function ToBinary(n: nat): (r: string)
    ensures IsBinary(r)
    ensures 1 <= |r|
  {
    if n < 2 then [BinaryDigit(n)] else ToBinary(n / 2) + [BinaryDigit(n % 2)]
  }

  /** `parseInt(s, 2)` for a non-empty string of binary digits. The
      function reads any other character as `0`; every caller passes it
      binary digits. */
  function ParseBinary(s: string): (r: nat)
    ensures r < Pow2(|s|)
  {
    if |s| == 0 then 0
    else 2 * ParseBinary(s[..|s| - 1]) + (if s[|s| - 1] == '1' then 1 else 0)
  }

  /** `s.padStart(len, fill)` with a one-character filler. */
  function PadStart(s: string, len: nat, fill: char): (r: string)
    ensures |r| == if |s| < len then len else |s|
    ensures r[|r| - |s|..] == s
    ensures forall i :: 0 <= i < |r| - |s| ==> r[i] == fill
  {
    if |s| < len then seq(len - |s|, i => fill) + s else s
  }

  lemma {:induction false} ToBinaryRoundTrip(n: nat)
    ensures ParseBinary(ToBinary(n)) == n
  {
    if n >= 2 {
      var r := ToBinary(n);
      assert r[..|r| - 1] == ToBinary(n / 2);
      ToBinaryRoundTrip(n / 2);
    }
  }

  /** A number below 2^k has at most k binary digits. */
  lemma {:induction false} ToBinaryLength(n: nat, k: nat)
    requires 1 <= k && n < Pow2(k)
    ensures |ToBinary(n)| <= k
  {
    if n >= 2 {
      ToBinaryLength(n / 2, k - 1);
    }
  }

  /** Leading zeros do not change the value. */
  lemma {:induction false} ParseLeadingZeros(z: string, s: string)
    requires forall i :: 0 <= i < |z| ==> z[i] == '0'
    requires IsBinary(s)
    ensures IsBinary(z + s)
    ensures ParseBinary(z + s) == ParseBinary(s)
  {
    if |s| == 0 {
      if |z| > 0 {
        assert (z + s)[..|z + s| - 1] == z[..|z| - 1] + s;
        ParseLeadingZeros(z[..|z| - 1], s);
      }
    } else {
      assert (z + s)[..|z + s| - 1] == z + s[..|s| - 1];
      ParseLeadingZeros(z, s[..|s| - 1]);
    }
  }

  // ---------------------------------------------------------------------
  // stringToBin, splitString, binToString

  lemma ByteBinaryLength(u: CodeUnit)
    ensures u < 256 ==> |ToBinary(u)| <= 8
  {
    if u < 256 {
      ToBinaryLength(u, 8);
    }
  }

  /** One code unit as `charCodeAt(0).toString(2).padStart(8, '0')`. */
  function UnitBits(u: CodeUnit): (r: string)
    ensures IsBinary(r)
    ensures u < 256 ==> |r| == 8
  {
    ByteBinaryLength(u);
    PadStart(ToBinary(u), 8, '0')
  }

  lemma UnitBitsValue(u: CodeUnit)
    ensures ParseBinary(UnitBits(u)) == u
  {
    var b := ToBinary(u);
    var r := UnitBits(u);
    ToBinaryRoundTrip(u);
    assert r == r[..|r| - |b|] + b;
    ParseLeadingZeros(r[..|r| - |b|], b);
  }

  /** `stringToBin`: the concatenated eight-digit binary forms of the
      code units. */
  function StringToBin(s: seq<CodeUnit>): (r: string)
    ensures IsBinary(r)
    ensures (forall i :: 0 <= i < |s| ==> s[i] < 256) ==> |r| == 8 * |s|
  {
    if |s| == 0 then ""
    else
      var head, rest := UnitBits(s[0]), StringToBin(s[1..]);
      BinaryAppend(head, rest);
      assert (forall i :: 0 <= i < |s| ==> s[i] < 256) ==> |head + rest| == 8 * |s| by {
        if forall i :: 0 <= i < |s| ==> s[i] < 256 {
          assert forall i :: 0 <= i < |s[1..]| ==> s[1..][i] < 256 by {
            forall i | 0 <= i < |s[1..]| ensures s[1..][i] < 256 {
              assert s[1..][i] == s[i + 1];
            }
          }
        }
      }
      head + rest
  }

  lemma BinaryAppend(a: string, b: string)
    requires IsBinary(a) && IsBinary(b)
    ensures IsBinary(a + b)
  {
    forall i | 0 <= i < |a + b| ensures (a + b)[i] == '0' || (a + b)[i] == '1' {
      if i >= |a| {
        assert (a + b)[i] == b[i - |a|];
      }
    }
  }

  function Concat(parts: seq<string>): string {
    if |parts| == 0 then "" else parts[0] + Concat(parts[1..])
  }

  /** `splitString(s, step)`: consecutive pieces of `step` characters, the
      last one possibly shorter. */
  function SplitString(s: string, step: nat): (r: seq<string>)
    requires step > 0
    ensures Concat(r) == s
    ensures forall i :: 0 <= i < |r| ==> 1 <= |r[i]| <= step
    ensures forall i :: 0 <= i < |r| - 1 ==> |r[i]| == step
    decreases |s|
  {
    if |s| == 0 then []
    else if |s| <= step then [s]
    else
      var tail := SplitString(s[step..], step);
      assert s[..step] + s[step..] == s;
      [s[..step]] + tail
  }

  lemma {:induction false} ConcatBinary(parts: seq<string>, i: int)
    requires IsBinary(Concat(parts))
    requires 0 <= i < |parts|
    ensures IsBinary(parts[i])
  {
    var c := Concat(parts);
    assert c == parts[0] + Concat(parts[1..]);
    if i == 0 {
      assert forall j :: 0 <= j < |parts[0]| ==> parts[0][j] == c[j];
    } else {
      assert forall j :: 0 <= j < |Concat(parts[1..])| ==>
        Concat(parts[1..])[j] == c[|parts[0]| + j];
      ConcatBinary(parts[1..], i - 1);
    }
  }

  /** Splitting a string of binary digits gives strings of binary digits. */
  lemma SplitBinary(s: string, step: nat)
    requires step > 0 && IsBinary(s)
    ensures forall i :: 0 <= i < |SplitString(s, step)| ==> IsBinary(SplitString(s, step)[i])
  {
    var chunks := SplitString(s, step);
    forall i | 0 <= i < |chunks| ensures IsBinary(chunks[i]) {
      ConcatBinary(chunks, i);
    }
  }

  /** Eight-character pieces: one per started group of eight. */
  lemma {:induction false} SplitCount(s: string)
    ensures |SplitString(s, 8)| == (|s| + 7) / 8
    decreases |s|
  {
    if |s| > 8 {
      SplitCount(s[8..]);
    }
  }

  /** `String.fromCharCode(parseInt(item, 2))` over a list of chunks of
      one to eight binary digits. */
  function DecodeChunks(chunks: seq<string>): (r: seq<CodeUnit>)
    requires forall i :: 0 <= i < |chunks| ==> IsBinary(chunks[i]) && 1 <= |chunks[i]| <= 8
    ensures |r| == |chunks|
    ensures forall i :: 0 <= i < |r| ==> r[i] < 256
  {
    if |chunks| == 0 then []
    else
      assert Pow2(|chunks[0]|) <= Pow2(8) by { Pow2Monotone(|chunks[0]|, 8); }
      [ParseBinary(chunks[0])] + DecodeChunks(chunks[1..])
  }

  lemma {:induction false} Pow2Monotone(a: nat, b: nat)
    requires a <= b
    ensures Pow2(a) <= Pow2(b)
  {
    if a < b {
      Pow2Monotone(a, b - 1);
    }
  }

  /** `binToString`: every eight binary digits become one code unit. */
  function BinToString(bits: string): (r: seq<CodeUnit>)
    requires IsBinary(bits)
    ensures |r| == (|bits| + 7) / 8
    ensures forall i :: 0 <= i < |r| ==> r[i] < 256
  {
    SplitBinary(bits, 8);
    SplitCount(bits);
    DecodeChunks(SplitString(bits, 8))
  }

  lemma SplitPrefix(a: string, b: string)
    requires |a| == 8
    ensures SplitString(a + b, 8) == [a] + SplitString(b, 8)
  {
    assert (a + b)[..8] == a;
    assert (a + b)[8..] == b;
  }

  /** Decoding a list of chunks decodes its first chunk, then the rest. */
  lemma DecodeChunksCons(c: string, cs: seq<string>)
    requires IsBinary(c) && 1 <= |c| <= 8
    requires forall i :: 0 <= i < |cs| ==> IsBinary(cs[i]) && 1 <= |cs[i]| <= 8
    ensures DecodeChunks([c] + cs) == [ParseBinary(c)] + DecodeChunks(cs)
  {
    assert ([c] + cs)[0] == c;
    assert ([c] + cs)[1..] == cs;
  }

  /** Eight leading digits decode to one code unit ahead of the rest. */
  lemma BinToStringCons(head: string, rest: string)
    requires |head| == 8 && IsBinary(head) && IsBinary(rest) && IsBinary(head + rest)
    ensures BinToString(head + rest) == [ParseBinary(head)] + BinToString(rest)
  {
    SplitPrefix(head, rest);
    SplitBinary(rest, 8);
    DecodeChunksCons(head, SplitString(rest, 8));
  }

  /** A byte-sized code unit's eight digits decode back to it, ahead of
      the rest. */
  lemma ByteCons(u: CodeUnit, tail: seq<CodeUnit>)
    requires u < 256
    ensures BinToString(StringToBin([u] + tail)) == [u] + BinToString(StringToBin(tail))
  {
    var head, rest := UnitBits(u), StringToBin(tail);
    assert ([u] + tail)[1..] == tail;
    assert StringToBin([u] + tail) == head + rest;
    BinToStringCons(head, rest);
    UnitBitsValue(u);
  }

  lemma {:induction false} ByteBitsRoundTrip(s: seq<CodeUnit>)
    requires forall i :: 0 <= i < |s| ==> s[i] < 256
    ensures BinToString(StringToBin(s)) == s
  {
    if |s| > 0 {
      ByteCons(s[0], s[1..]);
      ByteBitsRoundTrip(s[1..]);
      assert [s[0]] + s[1..] == s;
    }
  }

  /** Code units below 256 survive `binToString(stringToBin(_))`. */
  lemma BinRoundTrip(s: seq<CodeUnit>)
    requires forall i :: 0 <= i < |s| ==> s[i] < 256
    ensures |StringToBin(s)| == 8 * |s|
    ensures BinToString(StringToBin(s)) == s
  {
    ByteBitsRoundTrip(s);
  }

  // ---------------------------------------------------------------------
  // stringLeftShift

  /** `stringLeftShift(s, n)`: `n` is first reduced modulo the length,
      then the string is cut there and its two parts swapped; the empty
      string stays empty. */
  function StringLeftShift(s: string, n: nat): (r: string)
    ensures |r| == |s|
    ensures forall i :: 0 <= i < |s| ==>
      r[i] == if i + n % |s| < |s| then s[i + n % |s|] else s[i + n % |s| - |s|]
  {
    if |s| == 0 then "" else s[n % |s|..] + s[..n % |s|]
  }

  lemma {:induction false} MulAtLeast(d: nat, m: nat)
    ensures d >= 1 ==> d * m >= m
  {
    if d > 1 {
      MulAtLeast(d - 1, m);
      assert d * m == (d - 1) * m + m;
    }
  }

  /** Euclidean remainders are unique. */
  lemma ModUnique(x: int, q: int, k: int, m: int)
    requires m > 0 && 0 <= k < m && x == q * m + k
    ensures x % m == k
  {
    var q', k' := x / m, x % m;
    assert x == q' * m + k';
    var d := if q >= q' then q - q' else q' - q;
    assert d * m == if q >= q' then q * m - q' * m else q' * m - q * m;
    MulAtLeast(d, m);
  }

  /** The result is the circular rotation: character `i` comes from
      position `(i + n) mod |s|`. */
  lemma LeftShiftRotates(s: string, n: nat)
    requires 0 < |s|
    ensures forall i :: 0 <= i < |s| ==> StringLeftShift(s, n)[i] == s[(i + n) % |s|]
  {
    var m, k := |s|, n % |s|;
    assert n == (n / m) * m + k;
    forall i | 0 <= i < m ensures StringLeftShift(s, n)[i] == s[(i + n) % m] {
      if i + k < m {
        assert i + n == (n / m) * m + (i + k);
        ModUnique(i + n, n / m, i + k, m);
      } else {
        assert i + n == (n / m + 1) * m + (i + k - m);
        ModUnique(i + n, n / m + 1, i + k - m, m);
      }
    }
  }

  /** Rotating by `n` and then by the rest of the length is the identity. */
  lemma LeftShiftInverse(s: string, n: nat)
    requires 0 < |s|
    ensures StringLeftShift(StringLeftShift(s, n), |s| - n % |s|) == s
  {
    var m, k := |s|, n % |s|;
    var once := StringLeftShift(s, n);
    assert once == s[k..] + s[..k];
    if k == 0 {
      assert once == s;
      ModUnique(m - k, 1, 0, m);
      assert StringLeftShift(once, m - k) == once[0..] + once[..0];
    } else {
      ModUnique(m - k, 0, m - k, m);
      assert once[m - k..] == s[..k] && once[..m - k] == s[k..];
      assert StringLeftShift(once, m - k) == s[..k] + s[k..];
      assert s[..k] + s[k..] == s;
    }
  }

  lemma LeftShiftBinary(s: string, n: nat)
    requires IsBinary(s)
    ensures IsBinary(StringLeftShift(s, n))
  {
  }

  // ---------------------------------------------------------------------
  // stringXor, stringToBase64, encryptToken

  const XOR_LENGTH_MISMATCH: string := "FUCKKKKKK"

  /** The bitwise `^` of two non-negative integers, bit by bit from the
      least significant end. */
  function Xor(a: nat, b: nat): (r: nat)
    decreases a + b
  {
    if a == 0 && b == 0 then 0
    else 2 * Xor(a / 2, b / 2) + (a % 2 + b % 2) % 2
  }

  /** Operands below 2^k give a result below 2^k. */
  lemma {:induction false} XorBound(a: nat, b: nat, k: nat)
    requires a < Pow2(k) && b < Pow2(k)
    ensures Xor(a, b) < Pow2(k)
    decreases a + b
  {
    if a != 0 || b != 0 {
      XorBound(a / 2, b / 2, k - 1);
    }
  }

  /** One step of `Xor`: the low bit, and the xor of the rest shifted. */
  lemma XorStep(a: nat, b: nat)
    ensures Xor(a, b) / 2 == Xor(a / 2, b / 2)
    ensures Xor(a, b) % 2 == (a % 2 + b % 2) % 2
  {
    var q, r := Xor(a / 2, b / 2), (a % 2 + b % 2) % 2;
    assert Xor(a, b) == 2 * q + r;
  }

  /** A number is fixed by its low bit and the rest. */
  lemma SameBits(y: nat, a: nat)
    requires y / 2 == a / 2 && y % 2 == a % 2
    ensures y == a
  {
  }

  /** Adding the same bit twice modulo 2 gives the first bit back. */
  lemma LowBitTwice(a: nat, b: nat)
    ensures ((a % 2 + b % 2) % 2 + b % 2) % 2 == a % 2
  {
  }

  /** Xor with the same key twice gives the original value back. */
  lemma {:induction false} XorInvolution(a: nat, b: nat)
    ensures Xor(Xor(a, b), b) == a
    decreases a + b
  {
    if a != 0 || b != 0 {
      var x := Xor(a, b);
      XorStep(a, b);
      XorStep(x, b);
      XorInvolution(a / 2, b / 2);
      LowBitTwice(a, b);
      SameBits(Xor(x, b), a);
    }
  }

  lemma XorUnits(a: CodeUnit, b: CodeUnit)
    ensures Xor(a, b) < 0x1_0000
    ensures a < 256 && b < 256 ==> Xor(a, b) < 256
  {
    assert Pow2(8) == 256;
    assert Pow2(16) == 0x1_0000;
    XorBound(a, b, 16);
    if a < 256 && b < 256 {
      XorBound(a, b, 8);
    }
  }

  /** `^` on two code units, which stays a code unit. */
  function XorUnit(a: CodeUnit, b: CodeUnit): (r: CodeUnit)
    ensures r == Xor(a, b)
  {
    XorUnits(a, b);
    Xor(a, b)
  }

  /** `stringXor`: throws unless the lengths agree; otherwise the
      position-wise xor of the code units. */
  function StringXor(a: seq<CodeUnit>, key: seq<CodeUnit>): (r: Result<seq<CodeUnit>, string>)
    ensures r.Err? <==> |a| != |key|
    ensures r.Err? ==> r.error == XOR_LENGTH_MISMATCH
    ensures r.Ok? ==> |r.value| == |a| && forall i :: 0 <= i < |a| ==> r.value[i] == Xor(a[i], key[i])
  {
    if |a| != |key| then Err(XOR_LENGTH_MISMATCH)
    else
      Ok(seq(|a|, i requires 0 <= i < |a| => XorUnit(a[i], key[i])))
  }

  /** Xoring the result with the same key recovers the first operand. */
  lemma StringXorInvolution(a: seq<CodeUnit>, key: seq<CodeUnit>)
    requires |a| == |key|
    ensures StringXor(StringXor(a, key).value, key) == Ok(a)
  {
    var once := StringXor(a, key).value;
    var twice := StringXor(once, key).value;
    forall i | 0 <= i < |a| ensures twice[i] == a[i] {
      XorInvolution(a[i], key[i]);
    }
    assert twice == a;
  }

  /** Bytes in, bytes out. */
  lemma StringXorBytes(a: seq<CodeUnit>, key: seq<CodeUnit>)
    requires |a| == |key|
    requires forall i :: 0 <= i < |a| ==> a[i] < 256 && key[i] < 256
    ensures forall i :: 0 <= i < |a| ==> StringXor(a, key).value[i] < 256
  {
    forall i | 0 <= i < |a| ensures Xor(a[i], key[i]) < 256 {
      XorUnits(a[i], key[i]);
    }
  }

  /** `Buffer.from(array)`: each element is reduced modulo 256, so byte
      values pass unchanged. */
  function ToBuffer(values: seq<CodeUnit>): (r: seq<byte>)
    ensures |r| == |values|
    ensures forall i :: 0 <= i < |r| ==> (values[i] - r[i]) % 256 == 0
    ensures (forall i :: 0 <= i < |values| ==> values[i] < 256) ==> r == values
  {
    seq(|values|, i requires 0 <= i < |values| => values[i] % 256)
  }

  /** `stringToBase64`: base 64 of the buffer made from the values. */
  function StringToBase64(values: seq<CodeUnit>): (r: string)
    ensures |r| == 4 * ((|values| + 2) / 3)
    ensures forall i :: 0 <= i < |r| ==> (r[i] == '=' <==> i >= |r| - Base64.Padding(|values|))
    ensures forall i :: 0 <= i < |r| && r[i] != '=' ==> Base64.IsDigit(r[i])
  {
    Base64.Encode(ToBuffer(values))
  }

  /** Values that are bytes are recovered by base 64 decoding. */
  lemma StringToBase64Decodes(values: seq<CodeUnit>)
    requires forall i :: 0 <= i < |values| ==> values[i] < 256
    ensures Base64.Decode(StringToBase64(values)).Some?
    ensures Base64.Decode(StringToBase64(values)).value == values
  {
    var b := ToBuffer(values);
    Base64.RoundTrip(b);
  }

  /** `s.replace(/from/g, to)` for single characters: every `from`
      becomes `to`, so none is left when the two differ, and every other
      character stays in place. */
  function ReplaceAll(s: string, from: char, to: char): (r: string)
    ensures |r| == |s|
    ensures from != to ==> forall i :: 0 <= i < |r| ==> r[i] != from
    ensures forall i :: 0 <= i < |s| && s[i] == from ==> r[i] == to
    ensures forall i :: 0 <= i < |s| && s[i] != from ==> r[i] == s[i]
  {
    seq(|s|, i requires 0 <= i < |s| => if s[i] == from then to else s[i])
  }

  /** `encryptToken`: `/` becomes `o`, `+` becomes `m`, the first sixteen
      characters are kept and `"1"` is appended. */
  function EncryptToken(s: string): (r: string)
    ensures |r| == (if |s| < 16 then |s| else 16) + 1
    ensures r[|r| - 1] == '1'
    ensures forall i :: 0 <= i < |r| ==> r[i] != '/' && r[i] != '+'
    ensures forall i :: 0 <= i < |r| - 1 ==>
      r[i] == (if s[i] == '/' then 'o' else if s[i] == '+' then 'm' else s[i])
  {
    var replaced := ReplaceAll(ReplaceAll(s, '/', 'o'), '+', 'm');
    (if |replaced| <= 16 then replaced else replaced[..16]) + "1"
  }

  // ---------------------------------------------------------------------
  // X19EncryptHttpToken

  const SALT: string := "0eGsBkhl"

  lemma HexDigestUnits(h: HexDigest)
    ensures |Utf16(h)| == 32
    ensures forall i :: 0 <= i < 32 ==> Utf16(h)[i] < 128
  {
    assert IsAscii(h);
    AsciiUtf16(h);
  }

  /** `binToString(stringLeftShift(stringToBin(s), n))`: the bits of a
      byte string rotated left by `n`, regrouped into bytes. */
  function RotateBits(s: seq<CodeUnit>, n: nat): (r: seq<CodeUnit>)
    requires forall i :: 0 <= i < |s| ==> s[i] < 256
    ensures |r| == |s|
    ensures forall i :: 0 <= i < |r| ==> r[i] < 256
  {
    var bits := StringToBin(s);
    LeftShiftBinary(bits, n);
    BinToString(StringLeftShift(bits, n))
  }

  /** The value of two binary texts side by side: the first one's value
      shifted past the second's digits, plus the second's. */
  lemma {:induction false} ParseAppend(a: string, b: string)
    ensures ParseBinary(a + b) == ParseBinary(a) * Pow2(|b|) + ParseBinary(b)
    decreases |b|
  {
    if |b| == 0 {
      assert a + b == a;
    } else {
      var b' := b[..|b| - 1];
      var bit := if b[|b| - 1] == '1' then 1 else 0;
      assert (a + b)[..|a + b| - 1] == a + b';
      assert (a + b)[|a + b| - 1] == b[|b| - 1];
      ParseAppend(a, b');
      var x, y, z := ParseBinary(a), Pow2(|b'|), ParseBinary(b');
      assert ParseBinary(a + b) == 2 * ParseBinary(a + b') + bit;
      assert ParseBinary(b) == 2 * z + bit;
      assert Pow2(|b|) == 2 * y;
      ShiftStep(ParseBinary(a + b), x, y, z, bit);
    }
  }

  /** Cutting a binary text at `k`. */
  lemma ParseSplit(s: string, k: int)
    requires 0 <= k <= |s|
    ensures ParseBinary(s) == ParseBinary(s[..k]) * Pow2(|s| - k) + ParseBinary(s[k..])
  {
    assert s == s[..k] + s[k..];
    ParseAppend(s[..k], s[k..]);
  }

  /** One more digit on the right doubles both the shifted value and the
      shift. */
  lemma ShiftStep(v: int, x: int, y: int, z: int, bit: int)
    requires v == 2 * (x * y + z) + bit
    ensures v == x * (2 * y) + (2 * z + bit)
  {
  }

  /** The eight digits of a byte: the first six are its value divided by
      four, the last two its remainder. */
  lemma ByteSplit(u: CodeUnit)
    requires u < 256
    ensures ParseBinary(UnitBits(u)[..6]) == u / 4
    ensures ParseBinary(UnitBits(u)[6..]) == u % 4
  {
    var bits := UnitBits(u);
    ParseSplit(bits, 6);
    UnitBitsValue(u);
    assert Pow2(2) == 4;
    QuotientOf(u, ParseBinary(bits[..6]), ParseBinary(bits[6..]), Pow2(|bits| - 6));
  }

  /** The quotient and remainder by 4 of `h * 4 + l`, for `l` below 4. */
  lemma QuotientOf(u: int, h: int, l: int, p: int)
    requires p == 4 && u == h * p + l && 0 <= l < 4
    ensures u / 4 == h && u % 4 == l
  {
  }

  /** Unit `i`'s digits sit at positions `8i` to `8i + 7` of the binary
      text. */
  lemma {:induction false} BinChunk(s: seq<CodeUnit>, i: int)
    requires forall j :: 0 <= j < |s| ==> s[j] < 256
    requires 0 <= i < |s|
    ensures |StringToBin(s)| == 8 * |s|
    ensures StringToBin(s)[8 * i..8 * i + 8] == UnitBits(s[i])
  {
    var head, rest := UnitBits(s[0]), StringToBin(s[1..]);
    assert StringToBin(s) == head + rest;
    if i == 0 {
      assert (head + rest)[..8] == head;
    } else {
      BinChunk(s[1..], i - 1);
      assert (head + rest)[8 * i..8 * i + 8] == rest[8 * (i - 1)..8 * (i - 1) + 8];
    }
  }

  lemma BinarySlice(s: string, i: int, j: int)
    requires IsBinary(s) && 0 <= i <= j <= |s|
    ensures IsBinary(s[i..j])
  {
  }

  /** Unit `i` of `binToString` is the value of digits `8i` to `8i + 7`. */
  lemma {:induction false} BinToStringAt(x: string, i: int)
    requires IsBinary(x) && |x| % 8 == 0
    requires 0 <= i < |x| / 8
    ensures BinToString(x)[i] == ParseBinary(x[8 * i..8 * i + 8])
  {
    var head, rest := x[..8], x[8..];
    BinarySlice(x, 0, 8);
    BinarySlice(x, 8, |x|);
    assert x == head + rest;
    BinToStringCons(head, rest);
    if i > 0 {
      BinToStringAt(rest, i - 1);
      assert rest[8 * (i - 1)..8 * (i - 1) + 8] == x[8 * i..8 * i + 8];
    }
  }

  /** After rotating left by six, the eight digits of group `i` are the
      last two digits of unit `i` followed by the first six of the next
      unit, wrapping round at the end. */
  lemma RotatedChunk(bits: string, m: nat, i: nat)
    requires 0 <= i < m && |bits| == 8 * m
    ensures var j := if i + 1 < m then i + 1 else 0;
      StringLeftShift(bits, 6)[8 * i..8 * i + 8] == bits[8 * i + 6..8 * i + 8] + bits[8 * j..8 * j + 6]
  {
    var j := if i + 1 < m then i + 1 else 0;
    var rotated := StringLeftShift(bits, 6);
    var want := bits[8 * i + 6..8 * i + 8] + bits[8 * j..8 * j + 6];
    LeftShiftRotates(bits, 6);
    forall t | 0 <= t < 8 ensures rotated[8 * i + t] == want[t] {
      if t < 2 {
        ModUnique(8 * i + t + 6, 0, 8 * i + t + 6, 8 * m);
      } else if i + 1 < m {
        ModUnique(8 * i + t + 6, 0, 8 * j + t - 2, 8 * m);
      } else {
        ModUnique(8 * i + t + 6, 1, t - 2, 8 * m);
      }
    }
  }

  /** Group `i` of the rotated bits, as the digits of two units: the last
      two of unit `i` and the first six of unit `j`, the next one round. */
  lemma RotatedGroup(s: seq<CodeUnit>, i: int, j: int)
    requires forall k :: 0 <= k < |s| ==> s[k] < 256
    requires 0 <= i < |s| && j == if i + 1 < |s| then i + 1 else 0
    ensures RotateBits(s, 6)[i] == ParseBinary(UnitBits(s[i])[6..] + UnitBits(s[j])[..6])
  {
    var bits := StringToBin(s);
    BinChunk(s, i);
    BinChunk(s, j);
    LeftShiftBinary(bits, 6);
    RotatedChunk(bits, |s|, i);
    BinToStringAt(StringLeftShift(bits, 6), i);
    assert bits[8 * i + 6..8 * i + 8] == bits[8 * i..8 * i + 8][6..];
    assert bits[8 * j..8 * j + 6] == bits[8 * j..8 * j + 8][..6];
  }

  /** The rotation `TokenOfDigest` applies, byte by byte: output byte `i`
      is the low two bits of byte `i` above the high six bits of the next
      byte, the last byte taking its high bits from the first. */
  lemma RotateSixBits(s: seq<CodeUnit>, i: int)
    requires forall j :: 0 <= j < |s| ==> s[j] < 256
    requires 0 <= i < |s|
    ensures RotateBits(s, 6)[i] == (s[i] % 4) * 64 + s[(i + 1) % |s|] / 4
  {
    var j := if i + 1 < |s| then i + 1 else 0;
    ModUnique(i + 1, if i + 1 < |s| then 0 else 1, j, |s|);
    RotatedGroup(s, i, j);
    var lo, hi := UnitBits(s[i])[6..], UnitBits(s[j])[..6];
    ByteSplit(s[i]);
    ByteSplit(s[j]);
    ParseAppend(lo, hi);
    assert |hi| == 6 && Pow2(6) == 64;
  }

  /** The token derived from the second digest: its bits rotated left by
      six, xored with the digest, base 64 encoded and shortened. */
  function TokenOfDigest(digest: HexDigest): (r: string)
    ensures |r| == 17
    ensures r[16] == '1'
    ensures forall i :: 0 <= i < 16 ==> IsAlphanumeric(r[i])
  {
    var string2 := Utf16(digest);
    HexDigestUnits(digest);
    var string5 := RotateBits(string2, 6);
    var string6 := StringXor(string2, string5).value;
    var string7 := StringToBase64(string6);
    ShortTokenShape(string7);
    EncryptToken(string7)
  }

  /** The token of a 44-character base 64 text with one `=`: its first
      sixteen characters are alphabet characters other than `/` and `+`. */
  lemma ShortTokenShape(t: string)
    requires |t| == 44
    requires forall i :: 0 <= i < |t| ==> (t[i] == '=' <==> i >= |t| - Base64.Padding(32))
    requires forall i :: 0 <= i < |t| && t[i] != '=' ==> Base64.IsDigit(t[i])
    ensures |EncryptToken(t)| == 17
    ensures forall i :: 0 <= i < 16 ==> IsAlphanumeric(EncryptToken(t)[i])
  {
    assert Base64.Padding(32) == 1;
    var r := EncryptToken(t);
    forall i | 0 <= i < 16 ensures IsAlphanumeric(r[i]) {
      assert t[i] != '=';
      assert Base64.IsDigit(t[i]);
    }
  }

  /** `X19EncryptHttpToken(loginToken, path, body)` with MD5 as an oracle:
      the digest of the login token's digest, the body, the salt and the
      path feeds the token construction. */
  function EncryptHttpToken(md5: Md5, loginToken: string, path: string, body: string): (r: string)
    ensures |r| == 17
    ensures r[16] == '1'
    ensures forall i :: 0 <= i < 16 ==> IsAlphanumeric(r[i]) && r[i] != '/' && r[i] != '+'
  {
    var loginTokenMd5 := md5(loginToken);
    TokenOfDigest(md5(loginTokenMd5 + body + SALT + path))
  }
}

=== FILE: x19_utils.dfy ===
/** `randomString` (lib/core/x19/utils.ts): a string of dictionary
    characters picked by `crypto.randomInt`. The random draws are an input
    here, so the function is deterministic in them. */
module X19Utils {
  import opened Encoding

  /** The 62-character dictionary: the lower-case letters, the upper-case
      letters, the digits 1 to 9, and last the digit `'0'`. */
  const DICT: string := LOWER + UPPER + DIGITS + "0"
  const LOWER: string := "abcdefghijklmnopqrstuvwxyz"
  const UPPER: string := "ABCDEFGHIJKLMNOPQRSTUVWXYZ"
  const DIGITS: string := "123456789"

  /** One result of `crypto.randomInt(0, 61)`: the upper bound is
      exclusive, so the dictionary's last index, 61, is never drawn. */
  type Draw = i: int | 0 <= i < 61

  lemma LowerLetters()
    ensures |LOWER| == 26 && forall j :: 0 <= j < 26 ==> 'a' <= LOWER[j] <= 'z'
  {
  }

  lemma UpperLetters()
    ensures |UPPER| == 26 && forall j :: 0 <= j < 26 ==> 'A' <= UPPER[j] <= 'Z'
  {
  }

  lemma NonZeroDigits()
    ensures |DIGITS| == 9 && forall j :: 0 <= j < 9 ==> '1' <= DIGITS[j] <= '9'
  {
  }

  /** Every dictionary character is a letter or digit, and `'0'` occurs
      only at the last index. */
  lemma DictionaryShape()
    ensures |DICT| == 62
    ensures forall j :: 0 <= j < 62 ==> IsAlphanumeric(DICT[j])
    ensures DICT[61] == '0'
    ensures forall j :: 0 <= j < 61 ==> DICT[j] != '0'
  {
    LowerLetters();
    UpperLetters();
    NonZeroDigits();
    forall j | 0 <= j < 61 ensures IsAlphanumeric(DICT[j]) && DICT[j] != '0' {
      if j < 26 {
        assert DICT[j] == LOWER[j];
      } else if j < 52 {
        assert DICT[j] == UPPER[j - 26];
      } else {
        assert DICT[j] == DIGITS[j - 52];
      }
    }
  }

  /** `randomString(len)` with the `randomInt` results supplied in order;
      a negative length runs the loop zero times. */
  function RandomString(len: int, draws: seq<Draw>): (r: string)
    requires |draws| == if len < 0 then 0 else len
    ensures |r| == |draws|
    ensures forall i :: 0 <= i < |r| ==> r[i] == DICT[draws[i]]
    ensures forall i :: 0 <= i < |r| ==> IsAlphanumeric(r[i]) && r[i] != '0'
    decreases |draws|
  {
    if len <= 0 then ""
    else
      var prefix := RandomString(len - 1, draws[..len - 1]);
      var c := DICT[draws[len - 1]];
      assert IsAlphanumeric(c) && c != '0' by { DictionaryShape(); }
      prefix + [c]
  }
}
